=== FILE: README.md ===
# snapchat-memory-downloader, modelled in Dafny

This project models the offline core of the Snapchat memories downloader and proves properties of it.
The downloader reads the export's HTML table of memories. It fetches each memory and lays it out as
`images/`, `videos/` and `overlays/` files with canonical names. It keeps a JSON progress ledger, so a
run can be repeated safely. Afterwards it pairs overlays with their base media for compositing.

Modules, one per component of the program:

- `Wrappers`: `Option` and `Result`, which stand for Python's `None` returns and raised exceptions.
- `Text`, `Paths`, `Dates`: the pieces of Python's `str`, `pathlib` and `strftime` the code relies on.
  These are `in`, `find`, `split`, `strip`, `lower`, `capitalize`, `name`, `stem` and `suffix`.
- `Records`: the records both ledgers share.
  - the memory row, error records and failure tallies;
  - the `{images, videos}` partition;
  - the report of `verify_downloads`, specified by `ReportOf`.
- `Progress`: the current ledger (scripts/progress.py).
  - Every mutation is a function on the ledger value with its contract.
  - `ProgressTracker` is a class whose methods update the ledger field in place and save it.
- `LegacyProgress`: the older ledger (progress.py), built the same way.
  - `AsCurrent` says how the current tracker reads an older file.
- `TimezoneConverter`: the file-name codec `generate_local_filename` / `parse_filename_for_sid`.
  - The copy under scripts/ is the same text.
- `SnapParser`: the HTML row extractor, as step functions over start-tag, text and end-tag events.
  - The `MemoriesParser` class has the parser's five fields.
  - The copy under scripts/ is the same text.
- `Metadata`: the decision logic of metadata.py and scripts/metadata.py.
  - Both files are modelled at once.
  - Both share location parsing, the GPS call and the metadata update; they differ in how the exiftool
    command is found, which is an input.
  - The time-zone lookup (`TimezoneFromCoordinates`, `TimezoneForMemory`) exists only in metadata.py,
    which alone imports `timezonefinder`.
- `Compositor`: overlay pairing with its cache, the rotation-aware video size and the `composite_video` result.
- `Downloader`:
  - payload classification and canonical names;
  - archive routing;
  - the `SnapchatDownloader` class, covering the per-memory control flow, the `download_all` counters,
    the pair filters and `verify_composites`.

The model takes these as inputs instead of performing them:

- the network, as `network(url, n)`, the answer to the n-th request;
- the archive reader, as the list of entry names;
- `strptime`, `float()`, `int()` and the local-time conversion;
- the timezone finder;
- directory listings;
- the files written, as a set of paths relative to the output directory.

Where the documentation and the code differ, the model follows the code:

- `_attempt_download` (downloader.py:186-233) catches every exception. So the retry loop of
  `_download_memory` returns in its first round. A rate-limited request is recorded as a failure and is
  never retried with backoff. `DownloadMemory` makes at most one request.
- downloader.py imports the older progress.py, but it calls `record_composite_failure` and
  `get_composite_failure_count`. Only scripts/progress.py defines these, so the downloader's ledger is
  the `Progress.ProgressTracker`.

Behaviour of the code that the proofs bring out:

- A ZIP response with no entries, for a memory without a media type, is written successfully. The
  attempt then fails with a KeyError raised by `mark_downloaded` (`Downloader.EmptyArchiveFailsOnMediaType`).
- An ISO BMFF still image (HEIC, AVIF) with no telling content type is classified as video.
  `Downloader.IsoStillImageTakenForVideo` proves this.
- When there is no role suffix, a short sid spelled `overlay` or `composited` is taken for the suffix,
  so the codec does not read it back. `TimezoneConverter.SidLikeSuffixIsLost` proves this.
- Only one role suffix is stripped. `TimezoneConverter.OnlyOneSuffixStripped` proves this.

## Model

| member | source | states |
|---|---|---|
| Records.MakeErrorRecord | scripts/progress.py:145-150 | the record carries the timestamp and message, and has an `error_type` if and only if an exception was passed (then that exception's class name) |
| Records.BumpFailure | scripts/progress.py:137-152 | a missing tally starts at count 0 with no errors and the given context; the count goes up by exactly one and exactly one error is appended; every other sid's tally is unchanged |
| Records.RepeatedFailures | scripts/progress.py:137-152 | N failures on a sid with no tally leave count N, exactly those N errors in order, and the first failure's context |
| Records.FurtherFailures | scripts/progress.py:144-152 | each further failure on an existing tally adds one to the count and appends its error |
| Records.FailuresAreLocal | scripts/progress.py:137-152 | failures of one sid leave every other sid's tally, and its presence, as they were |
| Records.ReportAddsUp | scripts/progress.py:337-360 | downloaded + number failed + number missing == total == number of memories |
| Records.ReportPlacesEachMemory | scripts/progress.py:344-358 | a memory that is not downloaded is listed failed, with its attempt count, when it has a tally; otherwise it is listed missing |
| Records.ReportIsSound | scripts/progress.py:344-358 | every failed or missing item comes from an input memory with that sid and date, and the ledger puts it in that list |
| Progress.EmptyLedger | scripts/progress.py:54-59 | with no file, all four partitions are present and empty; `composited` and `failed_composites` each hold empty `images` and `videos` |
| Progress.LoadProgress | scripts/progress.py:23-59 | loading succeeds if and only if there is no file (giving the empty ledger) or the file is a JSON object (taken as it is); invalid JSON is reported as corruption; nothing else falls back to the empty ledger |
| Progress.WithDownloaded | scripts/progress.py:107-126 | writes `downloaded[sid]` from the memory's date and media type, with `timezone_converted` false and no local date, over any earlier entry; removes the sid from `failed`; no other sid changes; a memory without a media type raises KeyError and changes nothing |
| Progress.WithFailure | scripts/progress.py:128-153 | the sid's count goes up by one and exactly one error record is appended; a new tally keeps the memory's URL; no other sid or partition changes |
| Progress.DisjointKept | scripts/progress.py:107-153 | success keeps `downloaded` and `failed` disjoint, and so does a failure of a sid that is not downloaded |
| Progress.WithCompositedInstalled | scripts/progress.py:168-182 | `is_composited` installs an empty `composited` partition only when it is missing, and changes nothing else |
| Progress.WithComposited | scripts/progress.py:184-217 | the entry goes into the media type's half of `composited` (`images` for `image`, `videos` otherwise); the other sids of that half keep their entries, the half being created empty when missing; the sid leaves the same half of `failed_composites`; the other half of each is unchanged, created empty when missing; a missing half of an existing `failed_composites` raises KeyError after the entry is written, leaving `failed_composites` as it was |
| Progress.WithCompositeFailure | scripts/progress.py:219-271 | the composite failure count of the sid in that half goes up by exactly one; its earlier errors are kept and the new one appended; a new tally gets the base and overlay files as context; the other sids of that half and the whole other half are unchanged (both halves installed); every other (sid, half) count is unchanged; the download partitions and `composited` are unchanged |
| Progress.WithTimezoneConverted | scripts/progress.py:273-322 | a downloaded sid becomes converted with the given local date, and its UTC date, media type and download timestamp are kept; a sid that is not downloaded stays unconverted with no local date; nothing else changes |
| Progress.RepeatedDownloadFailures | scripts/progress.py:128-166 | after N `record_failure` calls on a fresh sid, `get_failure_count` is N and the tally holds exactly those N errors and the URL |
| Progress.ProgressTracker.Init | scripts/progress.py:14-21 | the tracker holds the loaded ledger and the file states |
| Progress.ProgressTracker.Open | scripts/progress.py:14-59 | a tracker exists if and only if loading succeeds, and then it holds the loaded ledger |
| Progress.ProgressTracker.Save | scripts/progress.py:61-94 | an existing file becomes the backup, and the file then holds the ledger |
| Progress.ProgressTracker.MarkDownloaded | scripts/progress.py:107-126 | the ledger becomes `WithDownloaded` of the old one and is saved; on KeyError, ledger, file and backup are unchanged |
| Progress.ProgressTracker.RecordFailure | scripts/progress.py:128-153 | the ledger becomes `WithFailure` of the old one and is saved |
| Progress.ProgressTracker.IsComposited | scripts/progress.py:168-182 | the answer is whether the sid is in the media type's half; the partition is installed if missing, and nothing is saved |
| Progress.ProgressTracker.MarkComposited | scripts/progress.py:184-217 | the ledger becomes `WithComposited` of the old one; it is saved unless the KeyError was raised, in which case file and backup are unchanged |
| Progress.ProgressTracker.RecordCompositeFailure | scripts/progress.py:219-253 | the ledger becomes `WithCompositeFailure` of the old one and is saved |
| Progress.ProgressTracker.MarkTimezoneConverted | scripts/progress.py:286-296 | the ledger becomes `WithTimezoneConverted` of the old one; it is saved only when the sid is downloaded |
| Progress.ProgressTracker.VerifyDownloads | scripts/progress.py:324-360 | the loop's report equals `ReportOf` the memories against the ledger, so each memory is counted downloaded first, else failed, else missing, in input order |
| LegacyProgress.LoadLegacy | progress.py:23-28 | with no file: empty `downloaded` and `failed`, empty `composited.{images,videos}`, and no `failed_composites`; a JSON object is taken as it is; an unreadable or invalid file raises to the caller |
| LegacyProgress.WithDownloaded | progress.py:46-63 | stores date, media type and timestamp over any earlier entry; removes the sid from `failed`; no other sid changes; a memory without a media type raises KeyError |
| LegacyProgress.WithFailure | progress.py:65-90 | the count goes up by exactly one and one error record is appended; a new tally keeps the memory's URL as its context, an existing one keeps its context; no other sid changes |
| LegacyProgress.WithCompositedInstalled | progress.py:105-119 | an empty `composited` partition is installed only when it is missing |
| LegacyProgress.WithComposited | progress.py:121-139 | the entry goes into the media type's half; the other sids of that half, the other half and the download partitions are unchanged; a missing half raises KeyError |
| LegacyProgress.AsCurrent | scripts/progress.py:255-322 | the current tracker reads an older file with the same downloaded sids, failure tallies and composites; no sid is converted or has a local date |
| LegacyProgress.VersionsAgree | progress.py:35-177 | both versions give the same `is_downloaded`, `get_failure_count`, `is_composited` and `verify_downloads` report on an older file, and a composite failure count of 0 |
| LegacyProgress.LegacyTracker.Init | progress.py:14-21 | the tracker holds the loaded ledger and the file |
| LegacyProgress.LegacyTracker.Open | progress.py:14-28 | a load error propagates to the caller; otherwise the tracker holds the loaded ledger |
| LegacyProgress.LegacyTracker.Save | progress.py:30-33 | the file is overwritten with the ledger; there is no backup |
| LegacyProgress.LegacyTracker.MarkDownloaded | progress.py:46-63 | the ledger becomes `WithDownloaded` of the old one and is saved; on KeyError nothing changes |
| LegacyProgress.LegacyTracker.RecordFailure | progress.py:65-90 | the ledger becomes `WithFailure` of the old one and is saved |
| LegacyProgress.LegacyTracker.IsComposited | progress.py:105-119 | the answer is whether the sid is in the media type's half, after the partition is installed if missing; nothing is saved |
| LegacyProgress.LegacyTracker.MarkComposited | progress.py:121-139 | the ledger becomes `WithComposited` of the old one and is saved; a KeyError keeps the installed partition and leaves the file unchanged |
| LegacyProgress.LegacyTracker.VerifyDownloads | progress.py:141-177 | the loop's report equals `ReportOf` the memories against the ledger |
| TimezoneConverter.CanonicalNameEnds | timezone_converter.py:56 | a canonical name ends with `sid_short + suffix + "." + extension` |
| TimezoneConverter.GenerateLocalFilename | timezone_converter.py:38-56 | a name is produced exactly when the date converts; it ends with the sid, suffix and extension |
| TimezoneConverter.StripRoleSuffix | timezone_converter.py:72-76 | the result is a prefix of the stem: a role suffix is only ever cut off its end |
| TimezoneConverter.ParseFilenameForSid | timezone_converter.py:59-85 | a sid found has no underscore, and the file name has at least three underscores |
| TimezoneConverter.StripRoleSuffixOf | timezone_converter.py:72-76 | stripping `x_sid{suffix}` gives `x_sid` for each of the three suffixes |
| TimezoneConverter.ParseAfterFields | timezone_converter.py:68-85 | a name of three or more fields, one more field, a role suffix and an extension reads back that last field |
| TimezoneConverter.GenerateThenParse | timezone_converter.py:38-85 | round trip: the sid put into a generated name is the sid parsed from it, for every suffix in {"", "_overlay", "_composited"} |
| TimezoneConverter.SidLikeSuffixIsLost | timezone_converter.py:73-83 | a name whose sid is `overlay` with no suffix parses to None |
| TimezoneConverter.OnlyOneSuffixStripped | timezone_converter.py:73-81 | `..._composited_overlay.ext` reads back `composited`; only `_overlay` is stripped |
| SnapParser.AttrValue | snap_parser.py:37-38 | `dict(attrs).get(name)` is present if and only if some attribute has that name, and it is one of that name's values |
| SnapParser.StartTagStep | snap_parser.py:29-43 | `<tr>` opens a fresh row with `td_count` 0; `<td>` in a row makes `td` the current tag; `<a>` in a row takes the URL the `onclick` pattern finds, and keeps the earlier URL when there is none; collected memories never change; any tag other than `tr` changes nothing outside a row, and any tag other than `tr`, `td` and `a` changes nothing inside one; an `onclick` without a value raises TypeError |
| SnapParser.DataStep | snap_parser.py:45-54 | only inside a `td` of a row, and only for stripped text that is not empty, `Download` or `Downloaded`, column 0/1/2 takes the date, media type or location, replacing earlier text; nothing else changes |
| SnapParser.EndTagStep | snap_parser.py:56-68 | `</td>` always counts a column and clears the current tag; `</tr>` in a row closes it and appends the row with its sid if and only if it has a URL, a date and a sid; a URL `urlparse` rejects raises its ValueError after the row is closed, and nothing else raises |
| SnapParser.RunOnlyAppends | snap_parser.py:56-68 | over any event sequence, the collected memories only grow at their end |
| SnapParser.RunCollectsComplete | snap_parser.py:45-68 | every collected memory has a non-empty, non-caption date and the sid its URL carries |
| SnapParser.ExportRowCollected | snap_parser.py:29-68 | a row of three text cells (date, media type, location, each already stripped and neither empty nor a `Download`/`Downloaded` caption) and a link cell whose URL carries a sid appends exactly one memory with those fields, URL and sid, and raises nothing |
| SnapParser.MemoriesParser.constructor | snap_parser.py:21-27 | empty memories, empty row, no current tag, `td_count` 0, outside a row |
| SnapParser.MemoriesParser.HandleStartTag | snap_parser.py:29-43 | the fields become `StartTagStep` of the old fields, or stay as they were when it raises |
| SnapParser.MemoriesParser.HandleData | snap_parser.py:45-54 | the fields become `DataStep` of the old fields |
| SnapParser.MemoriesParser.HandleEndTag | snap_parser.py:56-68 | the fields become `EndTagStep` of the old fields, and the exception raised is `EndTagStep`'s |
| SnapParser.MemoriesParser.Feed | snap_parser.py:90-93 | feeding events one by one reaches the state and exception of `Run` |
| Metadata.ParseLocation | metadata.py:83-107 | coordinates if and only if the location is present, non-empty, has the marker, and the stripped text after the marker splits at commas into exactly two parts that both parse; they are then those two numbers in order |
| Metadata.LocationRoundTrip | metadata.py:95-103 | `Latitude, Longitude: LAT, LON` gives back exactly the two numbers, and gives None if and only if one of them does not parse |
| Metadata.GpsCall | metadata.py:209-256 | a call is made if and only if exiftool is present, the coordinates parse, the lower-cased suffix is whitelisted and a command is found; N/E if and only if the value is non-negative, with absolute magnitudes that give back the signed value |
| Metadata.TimezoneFromCoordinates | metadata.py:110-127 | None without the lookup library, else the finder's answer |
| Metadata.TimezoneForMemory | metadata.py:158-206 | `gps` if and only if the coordinates parse, the finder is available and it gives a non-empty zone name for them, and then that name; otherwise `system` if and only if fallback is asked for, else none |
| Metadata.MatchingExactly | metadata.py:310-311 | a path is selected from a folder if and only if it is a listed name containing the key |
| Metadata.SelectionExactly | metadata.py:308-316 | a path is visited if and only if it is a listed file of images/, videos/ or overlays/ whose name contains the key |
| Metadata.VisitFolder | metadata.py:310-316 | one folder's matching files in listing order, and their GPS calls when the date parses |
| Metadata.UpdateExistingFileMetadata | metadata.py:297-316 | the files visited are those containing `sid[:8]`, in folder then listing order; a date `strptime` rejects leaves every file without timestamps and GPS (the error is swallowed); GPS calls follow `GpsCall` |
| Compositor.BaseNameOfOverlay | compositor.py:60-68 | every overlay the glob matches has as its base name its name minus `_overlay.png` |
| Compositor.KindOfBase | compositor.py:71-78 | image if and only if `_Image_` occurs; video if and only if `_Video_` occurs and `_Image_` does not; skipped otherwise |
| Compositor.FirstBase | compositor.py:81-88 | the chosen base file is listed and is `base.*`; none is chosen only when no listed name matches |
| Compositor.FirstBaseIsEarliest | compositor.py:81-88 | the chosen base file is the earliest listed match |
| Compositor.SidOfBase | compositor.py:84-85 | the sid has no underscore, and it is non-empty only when the base name has four or more fields |
| Compositor.PairFor | compositor.py:60-92 | a pair comes only from a `*_overlay.png` name, names that overlay, and has type image or video |
| Compositor.PairForExactly | compositor.py:60-92 | an overlay is paired if and only if its base name says Image (or Video) and the matching folder lists `base.*`; the pair names the first such file, the type and `SidOfBase` |
| Compositor.PairSidAgreesWithCodec | compositor.py:84-85 | the pair's sid is what `parse_filename_for_sid` reads from the overlay name, and "" exactly when it reads None |
| Compositor.OverlayNameStripped | compositor.py:62-66 | the codec strips an overlay name down to its base name |
| Compositor.ScanPairsExactly | compositor.py:53-92 | a pair is scanned if and only if some listed overlay yields it |
| Compositor.ScanPairsBound | compositor.py:60-92 | the scan yields at most one pair per overlay |
| Compositor.ScanPairsAppend | compositor.py:60-92 | one more overlay appends its own pair, if any, to the earlier scan |
| Compositor.FindOverlayPairs | compositor.py:14-117 | a usable cache, when wanted, is returned without scanning; a missing `overlays/` gives [] and no cache write; otherwise the scan is returned and cached when the write succeeds |
| Compositor.SimpleDimensions | compositor.py:233-260 | a successful run whose stripped output splits at `x` into exactly two parts that `int()` reads gives those two integers, in order; a raised or failed run, another number of parts, or an unreadable part gives (1920, 1080) |
| Compositor.SimpleDimensionsRoundTrip | compositor.py:252-256 | output `"WxH\n"` gives back (W, H) |
| Compositor.FirstRotationWins | compositor.py:216-221 | the first side-data entry with a rotation decides its absolute value |
| Compositor.OrientedSwapsExactly | compositor.py:223-225 | for unequal sides, width and height are swapped if and only if the absolute rotation is 90 or 270 |
| Compositor.NegativeQuarterTurnSwaps | compositor.py:218-225 | a rotation of -90 swaps like 90 |
| Compositor.VideoDimensions | compositor.py:183-230 | a failed probe (error exit, bad JSON, empty stream list, exception) falls back to the simple query; otherwise the result is the first stream's sides, swapped by `Oriented` exactly for a rotation of 90 or 270 |
| Compositor.CompositedVideoName | compositor.py:277-278 | `videos/stem.ext` composites to `composited/videos/stem_composited.ext` |
| Compositor.CompositedVideoKeepsSid | compositor.py:277-278 | the codec reads the base video's sid back from the composited name |
| Compositor.FfmpegCommand | compositor.py:285-295 | eleven arguments: the base video as the first input, the overlay as the second, the filter graph for the probed width and height, and the composited path as the output |
| Compositor.FilterComplexChains | compositor.py:285 | the filter graph splits at `;` into exactly two chains: the overlay scaled to `width:height` and labelled `ovr`, then `ovr` laid over the video at 0:0 |
| Compositor.FfmpegKeepsBaseVideo | compositor.py:277-295 | the output ffmpeg overwrites with `-y` is `stem_composited.ext` under `composited/videos`, never the base video itself |
| Compositor.CompositeVideoResult | compositor.py:298-321 | success if and only if ffmpeg exits 0, and then the message is `Success`; on another exit code the message is `FFmpeg error: ` + stderr[:100]; on timeout it is `Timeout (video too long)`; any other exception gives `Error: ` + its message |
| Downloader.Header | downloader.py:252-253 | the header is the first (up to) 12 bytes of the content |
| Downloader.DetectMediaType | downloader.py:235-272 | `video` if and only if the content type says video, or the type says neither and a video signature matches; `image` likewise, after the video checks; None if and only if nothing matches |
| Downloader.StandardSignatures | downloader.py:255-270 | with a neutral content type: `ftyp` at offset 4 is video; PNG and GIF are image; JPEG SOI and TIFF `II`/`MM` are image unless `ftyp` sits at offset 4 |
| Downloader.IsoStillImageTakenForVideo | downloader.py:256-257 | a HEIC header is classified as video |
| Downloader.DirectExtension | downloader.py:317-328 | the extension is one of mp4, jpg, png |
| Downloader.ExtensionAgreesWithSignature | downloader.py:317-331 | when the type came from the bytes: the extension is `mp4` and the folder `videos` if and only if the type is video; a PNG is saved as `.png` |
| Downloader.FormatFilename | downloader.py:342-364 | fails if and only if the date does not parse (ValueError first) or there is no media type; the name ends with `sid[:8]` + `.ext`, or with `sid[:8]_overlay.png` for an overlay whatever the extension |
| Downloader.FormattedNameCarriesSid | downloader.py:353-364 | `parse_filename_for_sid` reads `sid[:8]` back from a formatted name, media and overlay alike, when `sid[:8]` has no `_` or `/`, the media type has no `/`, and, for a media file, the extension is non-empty without `.` or `/` and `sid[:8]` is neither `overlay` nor `composited` |
| Downloader.EntryExtension | downloader.py:286 | the extension has no dot |
| Downloader.EntryExtensionOf | downloader.py:286 | the extension of `stem.ext` is `ext` |
| Downloader.ZipEntryTarget | downloader.py:284-298 | folder `overlays` if and only if the entry name contains `overlay`; otherwise `images` if and only if the lower-cased media type is `image`, else `videos`; the file name is the formatted one; a non-overlay entry without a media type raises KeyError |
| Downloader.WrittenUntilError | downloader.py:283-302 | the targets are written in order up to the first exception, which is the first unwritten target's |
| Downloader.ZipPlanRoutes | downloader.py:274-306 | entries are written in archive order, each to its own target; all are written exactly when no exception stops the extraction |
| Downloader.ResponseError | downloader.py:190-199 | nothing is raised if and only if the status is not 4xx/5xx and the content type is not HTML; 429 gives the rate-limit ValueError; any other 4xx/5xx gives an HTTPError whose message ends with the response's final URL; an HTML page with a good status gives the HTML ValueError |
| Downloader.AttemptPlan | downloader.py:186-220 | the payload is kept as `bad_{sid}.dat` only when nothing else is written and the attempt fails |
| Downloader.EmptyArchiveFailsOnMediaType | downloader.py:205-222 | an archive with no entries writes nothing and raises nothing, so a memory without a media type fails afterwards with the KeyError of `mark_downloaded` |
| Downloader.UnrecognisedPayloadKept | downloader.py:217-220 | an unrecognised payload is kept as `bad_{sid}.dat`, and the attempt fails with the message naming it |
| Downloader.EarlyFailuresWriteNothing | downloader.py:188-199 | a refused request, an error status or an HTML page fails before anything is written |
| Downloader.TempNamesDistinct | downloader.py:218-232 | `bad_{sid}.dat` is neither temporary name, so cleanup does not delete it |
| Downloader.OfType | downloader.py:428-429 | the filtered pairs are pairs of the list, all of that type |
| Downloader.OfTypeTwice | downloader.py:422-429 | filtering by the same type twice changes nothing; by two different types leaves nothing |
| Downloader.OfTypeSplits | downloader.py:428-429 | image pairs plus video pairs are all the pairs |
| Downloader.CompositeSelection | downloader.py:421-429 | `images_only` keeps only image pairs, else `videos_only` only video pairs, else both |
| Downloader.FailedComposites | downloader.py:603-629 | every failed item has a positive attempt count and its pair's type |
| Downloader.CompositeKindAddsUp | downloader.py:589-629 | within one type, composited + missing + failed == number of pairs |
| Downloader.CompositeReportAddsUp | downloader.py:583-639 | composited + missing + failed == image pairs + video pairs |
| Downloader.InstallingKeepsReport | downloader.py:590-629 | the `composited` partition `is_composited` installs changes no count or list of the report |
| Downloader.AllDownloadedCount | downloader.py:88-96 | the already-downloaded count is at most the total, and equals it if and only if every sid is downloaded |
| Downloader.DownloadOutcome | downloader.py:130-233 | success if and only if the sid ends up downloaded, and only that sid can be added to `downloaded`; a downloaded sid gives success and a sid with five or more failures gives failure, both with the ledger unchanged; otherwise success if and only if the attempt raised nothing and the memory has a media type, and a failure adds one to the sid's count |
| Downloader.SnapchatDownloader.constructor | downloader.py:46-66 | the downloader holds the given ledger, inputs and files, with no request and no pause yet |
| Downloader.SnapchatDownloader.ExtractAndSaveZip | downloader.py:274-306 | the files written are exactly those of the archive plan, and the exception raised is the plan's |
| Downloader.SnapchatDownloader.WriteEntries | downloader.py:283-302 | the loop writes the targets up to the first exception and returns it |
| Downloader.SnapchatDownloader.SaveResponse | downloader.py:186-220 | apart from the two temporary names, the files written are the plan's, plus `bad_{sid}.dat` when kept; the exception is the plan's |
| Downloader.SnapchatDownloader.AttemptDownload | downloader.py:176-233 | exactly one request; success if and only if no exception, in which case the memory is marked downloaded once, the files written are the plan's (apart from the two temporary names) and the message is `Downloaded successfully`; otherwise the failure is recorded once with the exception, both temporary names are removed, and the message is `Error: ...` |
| Downloader.SnapchatDownloader.DownloadMemory | downloader.py:130-174 | a downloaded sid returns `(True, "Already downloaded")` with no request and no ledger change; five or more failures return `Skipped (failed N times)` with no request and no change; otherwise exactly one attempt decides; the result and the new ledger are `DownloadOutcome` of the old ledger and the answer to the request |
| Downloader.SnapchatDownloader.DownloadStep | downloader.py:105-125 | an already downloaded memory is counted skipped with no request and no change to ledger or files; any other is counted downloaded exactly when `DownloadOutcome` says success and failed otherwise, leaves the ledger `DownloadOutcome` gives, and is followed by a pause unless it is the last; only its own sid can become downloaded |
| Downloader.SnapchatDownloader.DownloadAll | downloader.py:78-128 | returns early, changing nothing, if and only if every memory is already downloaded; otherwise it runs `DownloadEach` |
| Downloader.SnapchatDownloader.DownloadEach | downloader.py:105-125 | downloaded + failed + skipped == number of memories; skipped covers at least the memories downloaded before the loop, and with distinct sids it is exactly those; at most one request per attempted memory; pauses only before a later memory |
| Downloader.SnapchatDownloader.VerifyDownloads | downloader.py:396-403 | the ledger's `verify_downloads` report on the memories |
| Downloader.SnapchatDownloader.ClassifyPairs | downloader.py:603-629 | for one type, the composited count and the missing and failed lists from the ledger; only the `composited` partition may be installed, and nothing is saved |
| Downloader.SnapchatDownloader.VerifyComposites | downloader.py:577-639 | the report equals `CompositeReportOf` the pairs against the ledger as it was before the call |

## Left out

- Network I/O, reading ZIP archives, writing bytes, `shutil.copy2`, renames and deletions are abstract.
  The fetch is a `Fetch` value, an archive is its entry names, and files are a set of relative paths.
- `time.sleep`, `datetime.now()` and timings are not modelled. Timestamps are a `now` argument, and a
  pause is recorded only as the position it follows. The rate and ETA figures of `_composite_images`
  are left out.
- Pillow (`composite_image`), ffmpeg, ffprobe and exiftool are not run. Their outcomes are inputs:
  `FfmpegRun`, `Probe`, `SimpleProbe`, and the command `GpsCall` describes.
- The effects of `set_file_timestamps`, `convert_file_timestamps_to_local` and `copy_metadata_with_exiftool`
  on file times and tags are left out, including the platform and pywin32 branches.
- `utc_to_local`, `utc_to_timezone`, pytz, timezonefinder, `float()`, `int()` and `strptime` are input
  functions.
- JSON serialisation is not modelled. A ledger file is either absent, unreadable, invalid, or an object
  holding a ledger.
- `convert_all_to_local_timezone` (downloader.py:641) is not modelled. It cannot run as written: it
  imports a name timezone_converter.py does not define, and it calls `generate_local_filename` with six
  arguments.
- The loops of `_composite_images` and `_composite_videos` are not modelled. Their ledger updates are
  `MarkComposited` and `RecordCompositeFailure`.
- The mutual exclusion of their pairs is `CompositeSelection`.
- snap_config.py, cli.py and download_snapchat_memories.py are not part of this model: they are
  environment probing, argument parsing and the entry point. So is HTML tokenising. The `onclick`
  pattern and the sid lookup (`urlparse` and `parse_qs`) are input functions of the parser; the lookup
  returns the ValueError `urlparse` raises on a malformed URL.
- `print` output and the summary of `download_all` are left out.
- Progress.ProgressTracker.Save: a failed backup copy and a failed temporary write are not modelled.
  Every save succeeds.
- Progress.LoadProgress: the shape of the JSON object is not checked, as in the code. A file is read as
  a well-formed ledger, and `failed_composites` and its halves may be absent.
- Downloader.SnapchatDownloader.DownloadMemory: on the already-downloaded path, the call to
  `update_existing_file_metadata` is not made, because it changes only file times and tags. Which files
  that call selects is `Metadata.UpdateExistingFileMetadata`.
- Downloader.SnapchatDownloader.DownloadMemory: the backoff and the "Max retries exceeded" exit are
  unreachable, because the attempt catches every exception. The model states that exactly one attempt is
  made.
- Downloader.SnapchatDownloader.DownloadAll: the memories are an argument; the HTML parse is
  `SnapParser.MemoriesParser.Feed`.
- Downloader.SnapchatDownloader.DownloadEach: the split between downloaded and failed is stated per
  memory by `DownloadStep`, not summed over the list. With a sid listed twice, skipped is only bounded
  below: the second copy is skipped once the first has been downloaded.
- Downloader.SnapchatDownloader.AttemptDownload: on success, the new file set is stated only up to the
  two temporary names; whether they remain is not stated.
- Downloader.SnapchatDownloader.VerifyComposites: the pairs are an argument; finding them is
  `Compositor.FindOverlayPairs`.
- Downloader.SnapchatDownloader.ClassifyPairs: `is_composited` is asked once per pair. The code asks it
  twice, once for the count and once for the lists; the answers are the same because only the first
  call can install the partition.
- Downloader.FormattedNameCarriesSid: the sid is read back only under the conditions in its row. A ZIP
  entry with an empty extension (`clip.`) or a `/` in it gives a name the codec does not read back.
- TimezoneConverter.GenerateThenParse: when there is no suffix, the round trip also requires the short
  sid to differ from `overlay` and `composited`. `SidLikeSuffixIsLost` shows the round trip fails
  otherwise.
- Compositor.FindOverlayPairs: every failure to read the cache is one `Unusable` value.
- Compositor.FindOverlayPairs: the cache file's `created` and `count` fields are not modelled.
- Compositor.FindOverlayPairs: the glob order is the order of the listing that is passed in.
- Compositor.IsBaseOf and Metadata.UpdateExistingFileMetadata: glob matching is modelled as a plain
  prefix or substring test. A base name or `sid[:8]` holding `*`, `?` or `[` is matched literally.
- Text.Lower and Text.Capitalize: case mapping covers ASCII letters only.

=== FILE: compositor.dfy ===
/**
 * compositor.py: pairing overlay images with their base media (`find_overlay_pairs`), the
 * rotation-aware video size (`get_video_dimensions`, `_get_simple_dimensions`) and the output
 * name and outcome of `composite_video`.  Directory listings, the pair cache, ffprobe output
 * and the ffmpeg run are inputs; paths are relative to the output directory.
 */
module Compositor {
  import opened Wrappers
  import opened Text
  import opened Paths
  import TimezoneConverter

  /** One entry of the returned list: `{base_file, overlay_file, media_type, sid}`. */
  datatype Pair = Pair(baseFile: string, overlayFile: string, mediaType: string, sid: string)

  /**
   * The pair cache file: absent, present but unusable (unreadable, not JSON, or lacking the
   * `pairs`/`created` keys or a pair field), or holding a list of pairs.
   */
  datatype CacheFile = NoCache | Unusable | Cached(pairs: seq<Pair>)

  const OverlayPattern := "_overlay.png"

  /**
   * The base name of an overlay file found by `glob("*_overlay.png")`: its stem without the
   * trailing `_overlay`; None for a name the glob does not match or whose stem lacks `_overlay`.
   */
  function BaseName(overlayName: string): Option<string> {
    if !EndsWith(overlayName, OverlayPattern) then None
    else
      var stem := Stem(overlayName);
      if EndsWith(stem, "_overlay") then Some(stem[..|stem| - 8]) else None
  }

  /** Every overlay the glob matches has a base name: the name without `_overlay.png`. */
  lemma BaseNameOfOverlay(overlayName: string)
    requires EndsWith(overlayName, OverlayPattern)
    ensures BaseName(overlayName) == Some(overlayName[..|overlayName| - 12])
  {
    var base := overlayName[..|overlayName| - 12];
    var stem := base + "_overlay";
    assert overlayName == stem + "." + "png";
    StemOfDotted(stem, "png");
    assert stem[|stem| - 8..] == "_overlay";
    assert stem[..|stem| - 8] == base;
  }

  /** The media type and folder a base name implies: `_Image_` first, then `_Video_`. */
  function KindOfBase(base: string): (r: Option<string>)
    ensures r == Some("image") <==> Contains(base, "_Image_")
    ensures r == Some("video") <==> !Contains(base, "_Image_") && Contains(base, "_Video_")
    ensures r.None? <==> !Contains(base, "_Image_") && !Contains(base, "_Video_")
  {
    if Contains(base, "_Image_") then Some("image")
    else if Contains(base, "_Video_") then Some("video")
    else None
  }

  /** `fnmatch(name, base + ".*")` for a base name free of glob metacharacters. */
  predicate IsBaseOf(name: string, base: string) {
    |base| + 1 <= |name| && name[..|base| + 1] == base + "."
  }

  /** `base_files[0]`: the first listed file whose name is the base name, a dot and anything. */
  function FirstBase(names: seq<string>, base: string): (r: Option<string>)
    ensures r.Some? ==> r.value in names && IsBaseOf(r.value, base)
    ensures r.None? ==> forall i :: 0 <= i < |names| ==> !IsBaseOf(names[i], base)
  {
    if |names| == 0 then None
    else if IsBaseOf(names[0], base) then Some(names[0])
    else FirstBase(names[1..], base)
  }

  /** The file chosen is the earliest listed match: every name listed before it is no match. */
  lemma {:induction false} FirstBaseIsEarliest(names: seq<string>, base: string)
    requires FirstBase(names, base).Some?
    ensures exists i :: 0 <= i < |names| && names[i] == FirstBase(names, base).value
                        && forall j :: 0 <= j < i ==> !IsBaseOf(names[j], base)
    decreases |names|
  {
    if !IsBaseOf(names[0], base) {
      var rest := names[1..];
      FirstBaseIsEarliest(rest, base);
      var i :| 0 <= i < |rest| && rest[i] == FirstBase(rest, base).value
               && forall j :: 0 <= j < i ==> !IsBaseOf(rest[j], base);
      assert names[i + 1] == FirstBase(names, base).value;
      forall j | 0 <= j < i + 1
        ensures !IsBaseOf(names[j], base)
      {
        if j > 0 {
          assert names[j] == rest[j - 1];
        }
      }
    } else {
      assert names[0] == FirstBase(names, base).value;
    }
  }

  /** The pair's sid: the last `_` field of the base name when it has four fields, else "". */
  function SidOfBase(base: string): (r: string)
    ensures '_' !in r
    ensures r != "" ==> Count(base, '_') >= 3
  {
    var parts := Split(base, '_');
    if |parts| >= 4 then Last(parts) else ""
  }

  /** The pair one listed overlay yields, if any, given the names in `images/` and `videos/`. */
  function PairFor(overlayName: string, images: seq<string>, videos: seq<string>): (r: Option<Pair>)
    ensures r.Some? ==> EndsWith(overlayName, OverlayPattern)
                        && r.value.overlayFile == "overlays/" + overlayName
                        && r.value.mediaType in {"image", "video"}
  {
    match BaseName(overlayName)
    case None => None
    case Some(base) =>
      match KindOfBase(base)
      case None => None
      case Some(kind) =>
        var folder := if kind == "image" then images else videos;
        match FirstBase(folder, base)
        case None => None
        case Some(file) =>
          Some(Pair((if kind == "image" then "images/" else "videos/") + file, "overlays/" + overlayName, kind,
                    SidOfBase(base)))
  }

  /**
   * An overlay `base_overlay.png` is paired exactly when its base name says Image or Video and
   * the matching folder lists a `base.*` file; the pair then names the first such file.
   */
  lemma PairForExactly(base: string, images: seq<string>, videos: seq<string>)
    ensures var r := PairFor(base + OverlayPattern, images, videos);
      && (r.Some? <==> (Contains(base, "_Image_") && FirstBase(images, base).Some?)
                       || (!Contains(base, "_Image_") && Contains(base, "_Video_") && FirstBase(videos, base).Some?))
      && (r.Some? && Contains(base, "_Image_") ==>
            r.value == Pair("images/" + FirstBase(images, base).value, "overlays/" + base + OverlayPattern, "image",
                            SidOfBase(base)))
      && (r.Some? && !Contains(base, "_Image_") ==>
            r.value == Pair("videos/" + FirstBase(videos, base).value, "overlays/" + base + OverlayPattern, "video",
                            SidOfBase(base)))
  {
    var o := base + OverlayPattern;
    assert EndsWith(o, OverlayPattern);
    BaseNameOfOverlay(o);
    assert o[..|o| - 12] == base;
  }

  /**
   * The pair's sid is what the file-name codec reads from the overlay's name whenever the codec
   * finds one, and "" exactly when the codec finds none.
   */
  lemma PairSidAgreesWithCodec(base: string)
    requires '/' !in base
    ensures var parsed := TimezoneConverter.ParseFilenameForSid(base + OverlayPattern);
      && (parsed.Some? ==> parsed.value == SidOfBase(base))
      && (parsed.None? <==> |Split(base, '_')| < 4)
  {
    OverlayNameStripped(base);
  }

  /** The codec strips an overlay name down to its base name. */
  lemma OverlayNameStripped(base: string)
    requires '/' !in base
    ensures TimezoneConverter.StripRoleSuffix(Stem(Name(base + OverlayPattern))) == base
  {
    var o := base + OverlayPattern;
    var stem := base + "_overlay";
    PatternParts();
    assert o == stem + "." + "png";
    assert '/' !in o;
    NameOfPlain(o);
    StemOfDotted(stem, "png");
    assert stem == base + "_" + "overlay" + "";
    TimezoneConverter.StripOverlayOf(base);
  }

  lemma PatternParts()
    ensures OverlayPattern == "_overlay" + "." + "png"
    ensures '/' !in OverlayPattern && '.' !in "png"
  {
  }

  /** The candidate pair of each listed overlay, in listing order. */
  function Candidates(overlays: seq<string>, images: seq<string>, videos: seq<string>): (r: seq<Option<Pair>>)
    ensures |r| == |overlays|
    ensures forall k :: 0 <= k < |r| ==> r[k] == PairFor(overlays[k], images, videos)
  {
    seq(|overlays|, k requires 0 <= k < |overlays| => PairFor(overlays[k], images, videos))
  }

  /** The pairs among the candidates, in order. */
  function Collect(candidates: seq<Option<Pair>>): seq<Pair>
    decreases |candidates|
  {
    if |candidates| == 0 then []
    else Collect(candidates[..|candidates| - 1]) + Listed(Last(candidates))
  }

  /** The pairs the scan appends, in listing order of the overlays. */
  function ScanPairs(overlays: seq<string>, images: seq<string>, videos: seq<string>): seq<Pair> {
    Collect(Candidates(overlays, images, videos))
  }

  /** An optional pair as a list of zero or one pairs. */
  function Listed(o: Option<Pair>): (r: seq<Pair>)
    ensures forall p :: p in r <==> o == Some(p)
  {
    match o
    case Some(p) => [p]
    case None => []
  }

  /** A collected pair comes from some candidate, and every present candidate is collected. */
  lemma {:induction false} CollectExactly(candidates: seq<Option<Pair>>, p: Pair)
    ensures p in Collect(candidates) <==> exists k :: 0 <= k < |candidates| && candidates[k] == Some(p)
    decreases |candidates|
  {
    if |candidates| > 0 {
      var n := |candidates| - 1;
      var init := candidates[..n];
      CollectExactly(init, p);
      assert forall k :: 0 <= k < n ==> init[k] == candidates[k];
      if p in Collect(init) {
        var k :| 0 <= k < n && init[k] == Some(p);
        assert candidates[k] == Some(p);
      }
    }
  }

  /** Every scanned pair comes from a listed overlay, and every overlay that yields a pair is in the scan. */
  lemma ScanPairsExactly(overlays: seq<string>, images: seq<string>, videos: seq<string>, p: Pair)
    ensures p in ScanPairs(overlays, images, videos)
            <==> exists k :: 0 <= k < |overlays| && PairFor(overlays[k], images, videos) == Some(p)
  {
    var candidates := Candidates(overlays, images, videos);
    CollectExactly(candidates, p);
    if exists k :: 0 <= k < |overlays| && PairFor(overlays[k], images, videos) == Some(p) {
      var k :| 0 <= k < |overlays| && PairFor(overlays[k], images, videos) == Some(p);
      assert candidates[k] == Some(p);
    }
  }

  /** The scan never yields more pairs than there are overlays. */
  lemma ScanPairsBound(overlays: seq<string>, images: seq<string>, videos: seq<string>)
    ensures |ScanPairs(overlays, images, videos)| <= |overlays|
  {
    CollectBound(Candidates(overlays, images, videos));
  }

  lemma {:induction false} CollectBound(candidates: seq<Option<Pair>>)
    ensures |Collect(candidates)| <= |candidates|
    decreases |candidates|
  {
    if |candidates| > 0 {
      CollectBound(candidates[..|candidates| - 1]);
    }
  }

  /**
   * `find_overlay_pairs`: the cached pairs when the cache is wanted and usable; otherwise []
   * without touching the cache when `overlays/` is missing (`overlays` is None), or the scan of
   * the overlay listing, which is then written to the cache when the write succeeds.
   */
  method FindOverlayPairs(useCache: bool, cache: CacheFile, overlays: Option<seq<string>>,
                          images: seq<string>, videos: seq<string>, cacheWritable: bool)
    returns (pairs: seq<Pair>, cacheAfter: CacheFile)
    ensures useCache && cache.Cached? ==> pairs == cache.pairs && cacheAfter == cache
    ensures !(useCache && cache.Cached?) && overlays.None? ==> pairs == [] && cacheAfter == cache
    ensures !(useCache && cache.Cached?) && overlays.Some? ==>
              pairs == ScanPairs(overlays.value, images, videos)
              && cacheAfter == (if cacheWritable then Cached(pairs) else cache)
  {
    if useCache && cache.Cached? {
      return cache.pairs, cache;
    }
    pairs, cacheAfter := [], cache;
    if overlays.None? {
      return;
    }
    var candidates := Candidates(overlays.value, images, videos);
    var i := 0;
    while i < |candidates|
      invariant 0 <= i <= |candidates|
      invariant pairs == Collect(candidates[..i])
    {
      assert candidates[..i + 1][..i] == candidates[..i];
      if candidates[i].Some? {
        pairs := pairs + [candidates[i].value];
      }
      i := i + 1;
    }
    assert candidates[..i] == candidates;
    if cacheWritable {
      cacheAfter := Cached(pairs);
    }
  }

  /** The scan of a listing that adds an overlay is the old scan followed by that overlay's pair, if any. */
  lemma ScanPairsAppend(overlays: seq<string>, o: string, images: seq<string>, videos: seq<string>)
    ensures ScanPairs(overlays + [o], images, videos)
            == ScanPairs(overlays, images, videos) + Listed(PairFor(o, images, videos))
  {
    var longer := Candidates(overlays + [o], images, videos);
    assert longer[..|overlays|] == Candidates(overlays, images, videos);
  }

  /** One `side_data_list` entry: the `int()` of its `rotation` key, when it has one. */
  datatype SideData = SideData(rotation: Option<int>)

  /** The first video stream: its `width`, `height` (when present) and side data. */
  datatype VideoStream = VideoStream(width: Option<int>, height: Option<int>, sideData: seq<SideData>)

  /**
   * The parsed ffprobe JSON: without a `streams` key, with a `streams` list, or not usable at all
   * (invalid JSON, or a rotation `int()` rejects).
   */
  datatype ProbeData = Malformed | NoStreamsKey | Streams(streams: seq<VideoStream>)

  /** The rotation-aware ffprobe run: it raised (missing tool, timeout), or exited with a code and output. */
  datatype Probe = ProbeRaised | ProbeExited(returnCode: int, data: ProbeData)

  /** The `csv=s=x` ffprobe run of `_get_simple_dimensions`. */
  datatype SimpleProbe = SimpleRaised | SimpleExited(returnCode: int, stdout: string)

  const FallbackDimensions: (int, int) := (1920, 1080)

  /**
   * `_get_simple_dimensions`: the two integers of `"WxH"` (`parseInt` is Python's `int()`), and
   * (1920, 1080) on a failed run, a split into other than two parts or an unparsable side.
   */
  function SimpleDimensions(probe: SimpleProbe, parseInt: string -> Option<int>): (r: (int, int))
    ensures r != FallbackDimensions ==>
              probe.SimpleExited? && probe.returnCode == 0 && |Split(Strip(probe.stdout), 'x')| == 2
    ensures probe.SimpleExited? && probe.returnCode == 0 ==>
              var dims := Split(Strip(probe.stdout), 'x');
              if |dims| == 2 && parseInt(dims[0]).Some? && parseInt(dims[1]).Some?
              then r == (parseInt(dims[0]).value, parseInt(dims[1]).value)
              else r == FallbackDimensions
    ensures probe.SimpleRaised? || probe.returnCode != 0 ==> r == FallbackDimensions
  {
    match probe
    case SimpleRaised => FallbackDimensions
    case SimpleExited(code, out) =>
      if code != 0 then FallbackDimensions
      else
        var dims := Split(Strip(out), 'x');
        if |dims| != 2 then FallbackDimensions
        else
          match (parseInt(dims[0]), parseInt(dims[1]))
          case (Some(w), Some(h)) => (w, h)
          case _ => FallbackDimensions
  }

  lemma StripRightNewline(s: string)
    requires |s| > 0 && !IsSpace(s[|s| - 1])
    ensures StripRight(s + "\n") == s
  {
    assert (s + "\n")[..|s|] == s;
  }

  /** A successful `"WxH\n"` output gives back W and H whenever `int()` reads the digits. */
  lemma SimpleDimensionsRoundTrip(w: nat, h: nat, parseInt: string -> Option<int>)
    requires parseInt(NatToString(w)) == Some(w) && parseInt(NatToString(h)) == Some(h)
    ensures SimpleDimensions(SimpleExited(0, NatToString(w) + "x" + NatToString(h) + "\n"), parseInt) == (w, h)
  {
    var ws, hs := NatToString(w), NatToString(h);
    DimensionTextStrips(ws, hs);
    DimensionTextSplits(ws, hs);
  }

  lemma DimensionTextStrips(ws: string, hs: string)
    requires |ws| > 0 && |hs| > 0
    requires forall i :: 0 <= i < |ws| ==> IsDigit(ws[i])
    requires forall i :: 0 <= i < |hs| ==> IsDigit(hs[i])
    ensures Strip(ws + "x" + hs + "\n") == ws + "x" + hs
  {
    var s := ws + "x" + hs;
    assert s[0] == ws[0] && s[|s| - 1] == hs[|hs| - 1];
    assert (s + "\n")[0] == s[0];
    assert StripLeft(s + "\n") == s + "\n";
    StripRightNewline(s);
  }

  lemma DimensionTextSplits(ws: string, hs: string)
    requires forall i :: 0 <= i < |ws| ==> IsDigit(ws[i])
    requires forall i :: 0 <= i < |hs| ==> IsDigit(hs[i])
    ensures Split(ws + "x" + hs, 'x') == [ws, hs]
  {
    assert 'x' !in ws && 'x' !in hs;
    SplitAppend(ws, hs, 'x');
    SplitNoSeparator(ws, 'x');
    SplitNoSeparator(hs, 'x');
  }

  /** The absolute rotation of the first side-data entry that has one, 0 when none has. */
  function Rotation(sideData: seq<SideData>): nat {
    if |sideData| == 0 then 0
    else match sideData[0].rotation
      case Some(v) => if v < 0 then -v else v
      case None => Rotation(sideData[1..])
  }

  /** The first entry carrying a rotation decides it; later entries do not matter. */
  lemma {:induction false} FirstRotationWins(before: seq<SideData>, entry: SideData, after: seq<SideData>)
    requires forall i :: 0 <= i < |before| ==> before[i].rotation.None?
    requires entry.rotation.Some?
    ensures Rotation(before + [entry] + after) == if entry.rotation.value < 0 then -entry.rotation.value else entry.rotation.value
    decreases |before|
  {
    var all := before + [entry] + after;
    if |before| > 0 {
      assert all[1..] == before[1..] + [entry] + after;
      FirstRotationWins(before[1..], entry, after);
    } else {
      assert all[0] == entry;
    }
  }

  /** Width and height of a stream (0 when missing), swapped for a quarter turn either way. */
  function Oriented(stream: VideoStream): (int, int) {
    var width, height := stream.width.GetOr(0), stream.height.GetOr(0);
    if Rotation(stream.sideData) in {90, 270} then (height, width) else (width, height)
  }

  /** The sides are swapped exactly when the absolute rotation is 90 or 270. */
  lemma OrientedSwapsExactly(stream: VideoStream)
    requires stream.width.GetOr(0) != stream.height.GetOr(0)
    ensures var r := Oriented(stream);
      && (r == (stream.height.GetOr(0), stream.width.GetOr(0)) <==> Rotation(stream.sideData) in {90, 270})
      && (r == (stream.width.GetOr(0), stream.height.GetOr(0)) <==> Rotation(stream.sideData) !in {90, 270})
  {
  }

  /** A rotation of -90 (a clockwise quarter turn) swaps the sides like 90 does. */
  lemma NegativeQuarterTurnSwaps(width: int, height: int, rest: seq<SideData>)
    ensures Oriented(VideoStream(Some(width), Some(height), [SideData(Some(-90))] + rest)) == (height, width)
  {
    FirstRotationWins([], SideData(Some(-90)), rest);
    assert [] + [SideData(Some(-90))] + rest == [SideData(Some(-90))] + rest;
  }

  /** The stream the rotation-aware probe reports, if its result is used: `streams[0]`, or `{}` without the key. */
  function ProbedStream(probe: Probe): Option<VideoStream> {
    match probe
    case ProbeRaised => None
    case ProbeExited(code, data) =>
      if code != 0 then None
      else match data
        case Malformed => None
        case NoStreamsKey => Some(VideoStream(None, None, []))
        case Streams(streams) => if |streams| == 0 then None else Some(streams[0])
  }

  /**
   * `get_video_dimensions`: the first stream's sides, oriented; on any failure of the probe
   * (including an empty `streams` list) the simple query decides.
   */
  function VideoDimensions(probe: Probe, simple: SimpleProbe, parseInt: string -> Option<int>): (r: (int, int))
    ensures ProbedStream(probe).None? ==> r == SimpleDimensions(simple, parseInt)
    ensures ProbedStream(probe).Some? ==>
              var stream := ProbedStream(probe).value;
              multiset{r.0, r.1} == multiset{stream.width.GetOr(0), stream.height.GetOr(0)}
    ensures ProbedStream(probe).Some? ==> r == Oriented(ProbedStream(probe).value)
  {
    match ProbedStream(probe)
    case None => SimpleDimensions(simple, parseInt)
    case Some(stream) => Oriented(stream)
  }

  const CompositedVideos := "composited/videos"

  /** `output_dir / "composited" / "videos" / (stem + "_composited" + suffix)` */
  function CompositedVideoPath(baseFile: string): string {
    var name := Name(baseFile);
    CompositedVideos + "/" + (Stem(name) + "_composited" + Suffix(name))
  }

  /** The `-filter_complex` argument: scale the overlay to the video, then lay it over at 0:0. */
  function FilterComplex(width: int, height: int): string {
    ScaleChain(width, height) + ";" + OverlayChain
  }

  /** The overlay (input 1) scaled to `width:height`, labelled `ovr`. */
  function ScaleChain(width: int, height: int): string {
    "[1:v]scale=" + IntToString(width) + ":" + IntToString(height) + "[ovr]"
  }

  /** The video (input 0) with `ovr` laid over it at the top-left corner. */
  const OverlayChain := "[0:v][ovr]overlay=0:0:format=auto"

  lemma NoSemicolonInChains(width: int, height: int)
    ensures ';' !in ScaleChain(width, height) && ';' !in OverlayChain
  {
    IntToStringChars(width);
    IntToStringChars(height);
    var w, h := IntToString(width), IntToString(height);
    assert ';' !in w && ';' !in h;
    assert ScaleChain(width, height) == "[1:v]scale=" + w + ":" + h + "[ovr]";
  }

  /**
   * The filter graph is two chains: the overlay (input 1) scaled to `width:height` and labelled
   * `ovr`, then the video (input 0) with `ovr` laid over it at the top-left corner.
   */
  lemma FilterComplexChains(width: int, height: int)
    ensures Split(FilterComplex(width, height), ';') == [ScaleChain(width, height), OverlayChain]
  {
    NoSemicolonInChains(width, height);
    SplitInTwo(ScaleChain(width, height), OverlayChain, ';');
  }

  /**
   * The ffmpeg argument list `composite_video` runs: the base video and the overlay as the
   * first and second input, the filter graph, the audio copied, and the composited path,
   * overwritten if present, as the output.
   */
  function FfmpegCommand(baseFile: string, overlayFile: string, width: int, height: int): (r: seq<string>)
    ensures |r| == 11 && r[2] == baseFile && r[4] == overlayFile
    ensures r[6] == FilterComplex(width, height) && r[10] == CompositedVideoPath(baseFile)
  {
    FfmpegArguments(baseFile, overlayFile, FilterComplex(width, height), CompositedVideoPath(baseFile))
  }

  /** The argument list with the filter graph and the output path already worked out. */
  function FfmpegArguments(baseFile: string, overlayFile: string, filter: string, output: string): (r: seq<string>)
    ensures |r| == 11 && r[2] == baseFile && r[4] == overlayFile && r[6] == filter && r[10] == output
  {
    ["ffmpeg", "-i", baseFile, "-i", overlayFile, "-filter_complex", filter, "-codec:a", "copy", "-y", output]
  }

  /**
   * `-y` overwrites the output, yet never the base video: the output of `videos/stem.ext` is
   * `stem_composited.ext` under `composited/videos`, a different path.
   */
  lemma FfmpegKeepsBaseVideo(stem: string, ext: string, overlayFile: string, width: int, height: int)
    requires |stem| >= 1 && '/' !in stem
    requires |ext| >= 1 && '.' !in ext && '/' !in ext
    ensures var baseFile := "videos/" + stem + "." + ext;
      var output := FfmpegCommand(baseFile, overlayFile, width, height)[10];
      && output == CompositedVideos + "/" + (stem + "_composited" + "." + ext)
      && output != baseFile
  {
    var baseFile := "videos/" + stem + "." + ext;
    CompositedVideoName(stem, ext);
    assert baseFile[0] == 'v';
    assert CompositedVideoPath(baseFile)[0] == 'c';
  }

  /**
   * A composited video keeps the sid: the codec reads the base video's sid back from the
   * composited name, which keeps the base's extension.
   */
  lemma CompositedVideoKeepsSid(x: string, sid: string, ext: string)
    requires |Split(x, '_')| >= 3 && '/' !in x
    requires '_' !in sid && '/' !in sid
    requires |ext| >= 1 && '.' !in ext && '/' !in ext
    ensures var out := CompositedVideoPath("videos/" + (x + "_" + sid) + "." + ext);
      && out == CompositedVideos + "/" + (x + "_" + sid + "_composited" + "." + ext)
      && TimezoneConverter.ParseFilenameForSid(out) == Some(sid)
  {
    var stem := x + "_" + sid;
    assert '/' !in stem;
    CompositedVideoName(stem, ext);
    CompositedNameParses(x, sid, ext);
  }

  lemma CompositedNameParses(x: string, sid: string, ext: string)
    requires |Split(x, '_')| >= 3 && '/' !in x
    requires '_' !in sid && '/' !in sid
    requires |ext| >= 1 && '.' !in ext && '/' !in ext
    ensures TimezoneConverter.ParseFilenameForSid(CompositedVideos + "/" + (x + "_" + sid + "_composited" + "." + ext))
            == Some(sid)
  {
    var name := x + "_" + sid + "_composited" + "." + ext;
    SlashFree(x, sid, ext);
    TimezoneConverter.ParseAfterFields(x, sid, "_composited", ext);
    ParseUnderFolder(CompositedVideos, name);
  }

  lemma SlashFree(x: string, sid: string, ext: string)
    requires '/' !in x && '/' !in sid && '/' !in ext
    ensures var name := x + "_" + sid + "_composited" + "." + ext; '/' !in name && name != "" && name != "."
  {
  }

  /** The codec ignores the folder part of a path. */
  lemma ParseUnderFolder(folder: string, name: string)
    requires '/' !in name && name != "" && name != "."
    ensures TimezoneConverter.ParseFilenameForSid(folder + "/" + name) == TimezoneConverter.ParseFilenameForSid(name)
  {
    NameUnderFolder(folder, name);
    NameOfPlain(name);
  }

  /** The composited name of `videos/stem.ext` is `stem_composited.ext` under `composited/videos`. */
  lemma CompositedVideoName(stem: string, ext: string)
    requires |stem| >= 1 && '/' !in stem
    requires |ext| >= 1 && '.' !in ext && '/' !in ext
    ensures CompositedVideoPath("videos/" + stem + "." + ext) == CompositedVideos + "/" + (stem + "_composited" + "." + ext)
  {
    var path := "videos/" + stem + "." + ext;
    var name := stem + "." + ext;
    assert path == "videos" + "/" + name;
    NameUnderFolder("videos", name);
    assert Name(path) == name;
    StemOfDotted(stem, ext);
    assert Stem(name) == stem && Suffix(name) == "." + ext;
  }

  /** How the ffmpeg step of `composite_video` ended. */
  datatype FfmpegRun =
    | Exited(code: int, stderr: string)  // ffmpeg finished; with code 0 the timestamp and metadata copy also succeeded
    | TimedOut                           // the 300-second limit expired
    | Raised(message: string)            // any other exception inside the try block

  /** The `(success, message)` of `composite_video`. */
  function CompositeVideoResult(run: FfmpegRun): (r: (bool, string))
    ensures r.0 <==> run.Exited? && run.code == 0
    ensures r.0 <==> r.1 == "Success"
    ensures run.Exited? && run.code != 0 ==>
              r.1 == "FFmpeg error: " + Take(run.stderr, 100) && |r.1| <= 114
    ensures run.TimedOut? ==> r.1 == "Timeout (video too long)"
    ensures run.Raised? ==> r == (false, "Error: " + run.message)
  {
    match run
    case Exited(code, stderr) =>
      if code == 0 then (true, "Success") else (false, "FFmpeg error: " + Take(stderr, 100))
    case TimedOut => (false, "Timeout (video too long)")
    case Raised(message) =>
      var text := "Error: " + message;
      assert text[0] == 'E';
      (false, text)
  }
}

=== FILE: dates.dfy ===
/** Calendar values as `datetime` holds them and the two `strftime` layouts used in file names. */
module Dates {
  import opened Text

  /** A `datetime` as far as `strftime('%Y-%m-%d')` and `strftime('%H%M%S')` see it. */
  datatype DateTime = DateTime(year: nat, month: nat, day: nat, hour: nat, minute: nat, second: nat)

  /** Characters that date and time parts of a file name are made of. */
  predicate IsStampChar(c: char) {
    IsDigit(c) || c == '-'
  }

  /** `dt.strftime('%Y-%m-%d')` */
  function DatePart(dt: DateTime): (s: string)
    ensures |s| >= 10
    ensures forall i :: 0 <= i < |s| ==> IsStampChar(s[i])
  {
    ZeroPad(dt.year, 4) + "-" + ZeroPad(dt.month, 2) + "-" + ZeroPad(dt.day, 2)
  }

  /** `dt.strftime('%H%M%S')` */
  function TimePart(dt: DateTime): (s: string)
    ensures |s| >= 6
    ensures forall i :: 0 <= i < |s| ==> IsDigit(s[i])
  {
    ZeroPad(dt.hour, 2) + ZeroPad(dt.minute, 2) + ZeroPad(dt.second, 2)
  }
}

=== FILE: downloader.dfy ===
/**
 * downloader.py: the per-memory download control flow of `SnapchatDownloader`, payload
 * classification by content type and magic bytes, canonical file names, the routing of archive
 * entries, the batch counters of `download_all`, the pair selection of `composite_all_overlays`
 * and `verify_composites`.  The ledger is the scripts/progress.py tracker (the only version that
 * has every method the downloader calls).  The network, the archive reader, `strptime` and the
 * clock are inputs; the output directory's files are a set of paths relative to it.
 */
module Downloader {
  import opened Wrappers
  import opened Text
  import opened Paths
  import opened Dates
  import opened Records
  import Progress
  import TimezoneConverter
  import Compositor

  newtype byte = x: int | 0 <= x < 256

  /** `header[offset:offset + len(sig)] == sig`: a short header never matches. */
  predicate HasAt(header: seq<byte>, offset: nat, sig: seq<byte>) {
    offset + |sig| <= |header| && header[offset..offset + |sig|] == sig
  }

  /** The `ftyp` box type of ISO/IEC 14496-12 section 4.3, at offset 4 of an MP4 or MOV file. */
  const Ftyp: seq<byte> := [0x66, 0x74, 0x79, 0x70]
  /** `RIFF` ... `AVI `: the AVI container. */
  const Riff: seq<byte> := [0x52, 0x49, 0x46, 0x46]
  const AviForm: seq<byte> := [0x41, 0x56, 0x49, 0x20]
  /** The EBML magic of WebM and Matroska. */
  const Ebml: seq<byte> := [0x1A, 0x45, 0xDF]
  /** The SOI marker `FF D8` of ITU-T T.81 Table B.1. */
  const JpegSoi: seq<byte> := [0xFF, 0xD8]
  /** The PNG signature of RFC 2083 section 3.1. */
  const PngSignature: seq<byte> := [0x89, 0x50, 0x4E, 0x47, 0x0D, 0x0A, 0x1A, 0x0A]
  /** The byte-order marks `II` and `MM` of TIFF 6.0 section 2. */
  const TiffLittle: seq<byte> := [0x49, 0x49]
  const TiffBig: seq<byte> := [0x4D, 0x4D]
  /** The GIF headers of GIF89a section 17. */
  const Gif87a: seq<byte> := [0x47, 0x49, 0x46, 0x38, 0x37, 0x61]
  const Gif89a: seq<byte> := [0x47, 0x49, 0x46, 0x38, 0x39, 0x61]

  /** `f.read(12)` */
  function Header(content: seq<byte>): (h: seq<byte>)
    ensures |h| <= 12 && h <= content
  {
    if |content| <= 12 then content else content[..12]
  }

  predicate VideoSignature(h: seq<byte>) {
    HasAt(h, 4, Ftyp) || (HasAt(h, 0, Riff) && HasAt(h, 8, AviForm)) || HasAt(h, 0, Ebml)
  }

  predicate ImageSignature(h: seq<byte>) {
    HasAt(h, 0, JpegSoi) || HasAt(h, 0, PngSignature) || HasAt(h, 0, TiffLittle) || HasAt(h, 0, TiffBig)
    || HasAt(h, 0, Gif87a) || HasAt(h, 0, Gif89a)
  }

  /**
   * `_detect_media_type`: the content type decides first (video before image); otherwise the
   * video signatures are tried before the image signatures; None when nothing matches.
   */
  function DetectMediaType(header: seq<byte>, contentType: string): (r: Option<string>)
    ensures r == Some("video") <==>
              Contains(contentType, "video") || (!Contains(contentType, "image") && VideoSignature(header))
    ensures r == Some("image") <==>
              !Contains(contentType, "video")
              && (Contains(contentType, "image") || (!VideoSignature(header) && ImageSignature(header)))
    ensures r.None? <==>
              !Contains(contentType, "video") && !Contains(contentType, "image")
              && !VideoSignature(header) && !ImageSignature(header)
  {
    if Contains(contentType, "video") then Some("video")
    else if Contains(contentType, "image") then Some("image")
    else if HasAt(header, 4, Ftyp) then Some("video")
    else if HasAt(header, 0, Riff) && HasAt(header, 8, AviForm) then Some("video")
    else if HasAt(header, 0, Ebml) then Some("video")
    else if HasAt(header, 0, JpegSoi) then Some("image")
    else if HasAt(header, 0, PngSignature) then Some("image")
    else if HasAt(header, 0, TiffLittle) || HasAt(header, 0, TiffBig) then Some("image")
    else if HasAt(header, 0, Gif87a) || HasAt(header, 0, Gif89a) then Some("image")
    else None
  }

  /**
   * With a content type that names neither, each standard signature is classified as its
   * format: PNG and GIF always, JPEG and TIFF unless an `ftyp` box type sits at offset 4.
   */
  lemma StandardSignatures(header: seq<byte>, contentType: string)
    requires !Contains(contentType, "video") && !Contains(contentType, "image")
    ensures HasAt(header, 4, Ftyp) ==> DetectMediaType(header, contentType) == Some("video")
    ensures HasAt(header, 0, PngSignature) ==> DetectMediaType(header, contentType) == Some("image")
    ensures HasAt(header, 0, Gif87a) || HasAt(header, 0, Gif89a) ==> DetectMediaType(header, contentType) == Some("image")
    ensures ((HasAt(header, 0, JpegSoi) || HasAt(header, 0, TiffLittle) || HasAt(header, 0, TiffBig))
             && !HasAt(header, 4, Ftyp)) ==> DetectMediaType(header, contentType) == Some("image")
  {
    if HasAt(header, 0, PngSignature) {
      assert header[0] == 0x89 && header[4] == 0x0D;
      assert !HasAt(header, 4, Ftyp) && !HasAt(header, 0, Riff) && !HasAt(header, 0, Ebml);
    }
    if HasAt(header, 0, Gif87a) || HasAt(header, 0, Gif89a) {
      assert header[0] == 0x47 && header[4] != 0x66;
      assert !HasAt(header, 4, Ftyp) && !HasAt(header, 0, Riff) && !HasAt(header, 0, Ebml);
    }
    if HasAt(header, 0, JpegSoi) || HasAt(header, 0, TiffLittle) || HasAt(header, 0, TiffBig) {
      assert header[0] in {0xFF, 0x49, 0x4D};
      assert !HasAt(header, 0, Riff) && !HasAt(header, 0, Ebml);
    }
  }

  /**
   * An ISO BMFF still image (HEIC, AVIF: `ftyp` at offset 4) sent without a telling content type
   * is classified as video, since the video signatures are tried first.
   */
  lemma IsoStillImageTakenForVideo(rest: seq<byte>)
    ensures var heic: seq<byte> := [0x00, 0x00, 0x00, 0x18] + Ftyp + [0x68, 0x65, 0x69, 0x63] + rest;
      DetectMediaType(heic, "") == Some("video")
  {
    var heic: seq<byte> := [0x00, 0x00, 0x00, 0x18] + Ftyp + [0x68, 0x65, 0x69, 0x63] + rest;
    assert heic[4..8] == Ftyp;
    NoOccurrence("", "video");
  }

  /** `_save_direct_media`'s extension: from the signature, else from the media type. */
  function DirectExtension(header: seq<byte>, mediaType: string): (ext: string)
    ensures ext in {"mp4", "jpg", "png"}
  {
    if HasAt(header, 4, Ftyp) then "mp4"
    else if HasAt(header, 0, JpegSoi) then "jpg"
    else if HasAt(header, 0, PngSignature) then "png"
    else if mediaType == "video" then "mp4" else "jpg"
  }

  /** `_save_direct_media`'s folder. */
  function DirectFolder(mediaType: string): string {
    if mediaType == "video" then "videos" else "images"
  }

  /**
   * When the media type came from the bytes, the extension agrees with it: `.mp4` exactly for
   * video, and a PNG is saved as `.png`.
   */
  lemma ExtensionAgreesWithSignature(header: seq<byte>, contentType: string)
    requires !Contains(contentType, "video") && !Contains(contentType, "image")
    requires DetectMediaType(header, contentType).Some?
    ensures var t := DetectMediaType(header, contentType).value;
      && (DirectExtension(header, t) == "mp4" <==> t == "video")
      && (DirectFolder(t) == "videos" <==> t == "video")
      && (HasAt(header, 0, PngSignature) ==> DirectExtension(header, t) == "png")
  {
    StandardSignatures(header, contentType);
    if HasAt(header, 0, Riff) {
      assert header[0] == 0x52;
      assert !HasAt(header, 0, JpegSoi) && !HasAt(header, 0, PngSignature);
    }
    if HasAt(header, 0, Ebml) {
      assert header[0] == 0x1A;
      assert !HasAt(header, 0, JpegSoi) && !HasAt(header, 0, PngSignature);
    }
    if HasAt(header, 0, PngSignature) {
      assert header[0] == 0x89;
      assert !HasAt(header, 0, JpegSoi);
    }
  }

  /** What `datetime.strptime(text, '%Y-%m-%d %H:%M:%S')` gives: a value, or the ValueError's text. */
  type Strptime = string -> Result<DateTime, string>

  /**
   * `_format_filename`: the date (without ` UTC`) is parsed first, then the media type is read,
   * capitalized, and joined with the first eight sid characters and the extension, or with
   * `_overlay.png` for an overlay whatever its extension.
   */
  function FormatFilename(memory: Memory, extension: string, isOverlay: bool, strptime: Strptime)
    : (r: Result<string, Raised>)
    ensures r.Err? <==> strptime(RemoveAll(memory.date, " UTC")).Err? || memory.mediaType.None?
    ensures strptime(RemoveAll(memory.date, " UTC")).Err? ==>
              r == Err(Raised("ValueError", strptime(RemoveAll(memory.date, " UTC")).error))
    ensures r.Ok? ==> EndsWith(r.value, Take(memory.sid, 8) + (if isOverlay then "_overlay" else "") + "."
                                        + (if isOverlay then "png" else extension))
  {
    match strptime(RemoveAll(memory.date, " UTC"))
    case Err(message) => Err(Raised("ValueError", message))
    case Ok(dt) =>
      match memory.mediaType
      case None => Err(KeyError("media_type"))
      case Some(mediaType) =>
        var sidShort := Take(memory.sid, 8);
        var suffix, ext := if isOverlay then "_overlay" else "", if isOverlay then "png" else extension;
        TimezoneConverter.CanonicalNameEnds(DatePart(dt), TimePart(dt), Capitalize(mediaType), sidShort, suffix, ext);
        Ok(TimezoneConverter.CanonicalName(DatePart(dt), TimePart(dt), Capitalize(mediaType), sidShort, suffix, ext))
  }

  lemma CapitalizeKeeps(s: string, c: char)
    requires c !in s && !('A' <= c <= 'Z') && !('a' <= c <= 'z')
    ensures c !in Capitalize(s)
  {
    if |s| > 0 {
      var r := Capitalize(s);
      forall i | 0 <= i < |r|
        ensures r[i] != c
      {
        if i > 0 {
          assert r[i] == LowerChar(s[1..][i - 1]);
        }
      }
    }
  }

  /**
   * The name a memory is saved under carries its sid: the file-name codec reads the first eight
   * sid characters back from it, for media and overlays alike.
   */
  lemma FormattedNameCarriesSid(memory: Memory, extension: string, isOverlay: bool, strptime: Strptime)
    requires FormatFilename(memory, extension, isOverlay, strptime).Ok?
    requires '/' !in memory.mediaType.value
    requires '_' !in Take(memory.sid, 8) && '/' !in Take(memory.sid, 8)
    requires !isOverlay ==> |extension| >= 1 && '.' !in extension && '/' !in extension
    requires !isOverlay ==> Take(memory.sid, 8) != "overlay" && Take(memory.sid, 8) != "composited"
    ensures TimezoneConverter.ParseFilenameForSid(FormatFilename(memory, extension, isOverlay, strptime).value)
            == Some(Take(memory.sid, 8))
  {
    var dt := strptime(RemoveAll(memory.date, " UTC")).value;
    var mediaType := Capitalize(memory.mediaType.value);
    CapitalizeKeeps(memory.mediaType.value, '/');
    TimezoneConverter.GeneratedPrefix(dt, mediaType);
    TimezoneConverter.ParseAfterFields(DatePart(dt) + "_" + TimePart(dt) + "_" + mediaType, Take(memory.sid, 8),
                                       if isOverlay then "_overlay" else "", if isOverlay then "png" else extension);
  }

  /** `filename.split('.')[-1]`: the text after the last dot, the whole name without one. */
  function EntryExtension(entryName: string): (ext: string)
    ensures '.' !in ext
  {
    Last(Split(entryName, '.'))
  }

  /** The extension of an entry `stem.ext` is `ext`. */
  lemma EntryExtensionOf(stem: string, ext: string)
    requires '.' !in ext
    ensures EntryExtension(stem + "." + ext) == ext
  {
    SplitAppend(stem, ext, '.');
    SplitNoSeparator(ext, '.');
  }

  /** A file written into the output directory: its folder and its name. */
  datatype Target = Target(folder: string, name: string) {
    function Path(): string {
      folder + "/" + name
    }
  }

  /**
   * Where `_extract_and_save_zip` writes one archive entry.  An entry whose name mentions
   * `overlay` goes to overlays/; any other reads the media type first (KeyError when the memory
   * has none) and goes to images/ for `image` in any letter case, else to videos/.  The name is
   * the formatted one, with the entry's extension.
   */
  function ZipEntryTarget(entryName: string, memory: Memory, strptime: Strptime): (r: Result<Target, Raised>)
    ensures r.Ok? ==> memory.mediaType.Some?
                      && FormatFilename(memory, EntryExtension(entryName), Contains(entryName, "overlay"), strptime).Ok?
    ensures r.Ok? ==> (r.value.folder == "overlays" <==> Contains(entryName, "overlay"))
    ensures r.Ok? && !Contains(entryName, "overlay") ==>
              (r.value.folder == "images" <==> Lower(memory.mediaType.value) == "image")
              && r.value.folder in {"images", "videos"}
    ensures r.Ok? ==>
              r.value.name == FormatFilename(memory, EntryExtension(entryName), Contains(entryName, "overlay"), strptime).value
    ensures !Contains(entryName, "overlay") && memory.mediaType.None? ==> r == Err(KeyError("media_type"))
    ensures r.Err? <==> FormatFilename(memory, EntryExtension(entryName), Contains(entryName, "overlay"), strptime).Err?
  {
    var isOverlay := Contains(entryName, "overlay");
    var ext := EntryExtension(entryName);
    if !isOverlay && memory.mediaType.None? then Err(KeyError("media_type"))
    else
      var folder := if isOverlay then "overlays"
                    else if Lower(memory.mediaType.value) == "image" then "images" else "videos";
      match FormatFilename(memory, ext, isOverlay, strptime)
      case Err(e) => Err(e)
      case Ok(name) => Ok(Target(folder, name))
  }

  /** The paths the archive's entries are written to, up to the first exception, and that exception. */
  datatype ZipResult = ZipResult(written: seq<string>, error: Option<Raised>)

  /** The target (or the exception) of each entry of the archive, in archive order. */
  function EntryTargets(entries: seq<string>, memory: Memory, strptime: Strptime): (r: seq<Result<Target, Raised>>)
    ensures |r| == |entries|
    ensures forall k :: 0 <= k < |r| ==> r[k] == ZipEntryTarget(entries[k], memory, strptime)
  {
    seq(|entries|, k requires 0 <= k < |entries| => ZipEntryTarget(entries[k], memory, strptime))
  }

  /** Targets are written in order until the first exception, which stops the extraction. */
  function WriteUntilError(targets: seq<Result<Target, Raised>>): ZipResult
    decreases |targets|
  {
    if |targets| == 0 then ZipResult([], None)
    else
      match targets[0]
      case Err(e) => ZipResult([], Some(e))
      case Ok(target) =>
        var rest := WriteUntilError(targets[1..]);
        ZipResult([target.Path()] + rest.written, rest.error)
  }

  function ZipPlan(entries: seq<string>, memory: Memory, strptime: Strptime): ZipResult {
    WriteUntilError(EntryTargets(entries, memory, strptime))
  }

  lemma PrefixStep<T>(s: seq<T>, i: nat)
    requires i < |s|
    ensures s[..i + 1] == s[..i] + [s[i]]
  {
  }

  /** Written paths are the targets' paths in order, and the exception is that of the first target not written. */
  lemma {:induction false} WrittenUntilError(targets: seq<Result<Target, Raised>>)
    ensures var z := WriteUntilError(targets);
      && |z.written| <= |targets|
      && (forall k :: 0 <= k < |z.written| ==> targets[k].Ok? && targets[k].value.Path() == z.written[k])
      && (z.error.None? <==> |z.written| == |targets|)
      && (z.error.Some? ==> targets[|z.written|] == Err(z.error.value))
    decreases |targets|
  {
    if |targets| > 0 && targets[0].Ok? {
      var rest := targets[1..];
      WrittenUntilError(rest);
      var z := WriteUntilError(targets);
      forall k | 0 < k < |z.written|
        ensures targets[k].Ok? && targets[k].value.Path() == z.written[k]
      {
        assert targets[k] == rest[k - 1];
      }
    }
  }

  /**
   * Entries are written in archive order, each to its own target, and all of them exactly when no
   * exception stops the extraction; an exception comes from the first entry not written.
   */
  lemma ZipPlanRoutes(entries: seq<string>, memory: Memory, strptime: Strptime)
    ensures var z := ZipPlan(entries, memory, strptime);
      && |z.written| <= |entries|
      && (forall k :: 0 <= k < |z.written| ==>
            ZipEntryTarget(entries[k], memory, strptime).Ok? && ZipEntryTarget(entries[k], memory, strptime).value.Path() == z.written[k])
      && (z.error.None? <==> |z.written| == |entries|)
      && (z.error.Some? ==> ZipEntryTarget(entries[|z.written|], memory, strptime) == Err(z.error.value))
  {
    WrittenUntilError(EntryTargets(entries, memory, strptime));
  }

  /** The bytes the server answered with: a ZIP archive (its entry names) or any other file. */
  datatype Payload = Archive(entries: seq<string>) | Bytes(content: seq<byte>)

  /**
   * One `session.get`: it raised, or a response with status, reason, content type ("" when absent),
   * the URL it was finally served from (after redirects) and body.
   */
  datatype Fetch =
    | Refused(error: Raised)
    | Response(status: int, reason: string, contentType: string, finalUrl: string, payload: Payload)

  const RateLimitedText := "HTTP 429 Too Many Requests - Rate limited by server"
  const HtmlPageText := "Received HTML error page instead of media (likely rate limited or error)"
  const NotMediaText := "Downloaded file is not a ZIP or recognized media. Saved to "

  /**
   * The exception raised before the body is written: 429, then `raise_for_status` (whose message
   * names the response's final URL), then an HTML page.
   */
  function ResponseError(status: int, reason: string, contentType: string, finalUrl: string): (r: Option<Raised>)
    ensures r.None? <==> !(400 <= status < 600) && !Contains(contentType, "text/html")
    ensures status == 429 ==> r == Some(Raised("ValueError", RateLimitedText))
    ensures 400 <= status < 600 && status != 429 ==>
              r.Some? && r.value.typeName == "HTTPError" && EndsWith(r.value.message, " for url: " + finalUrl)
    ensures !(400 <= status < 600) && Contains(contentType, "text/html") ==> r == Some(Raised("ValueError", HtmlPageText))
  {
    if status == 429 then Some(Raised("ValueError", RateLimitedText))
    else if 400 <= status < 500 then
      Some(Raised("HTTPError", IntToString(status) + " Client Error: " + reason + " for url: " + finalUrl))
    else if 500 <= status < 600 then
      Some(Raised("HTTPError", IntToString(status) + " Server Error: " + reason + " for url: " + finalUrl))
    else if Contains(contentType, "text/html") then Some(Raised("ValueError", HtmlPageText))
    else None
  }

  function TempDownload(sid: string): string { "temp_" + sid + ".download" }
  function TempZip(sid: string): string { "temp_" + sid + ".zip" }
  function BadFile(sid: string): string { "bad_" + sid + ".dat" }

  /** What one attempt writes before `mark_downloaded`, and the exception that ends it early, if any. */
  datatype Plan = Plan(written: seq<string>, keepBad: bool, error: Option<Raised>)

  function AttemptPlan(fetch: Fetch, memory: Memory, sid: string, strptime: Strptime, outputDir: string): (p: Plan)
    ensures p.keepBad ==> p.written == [] && p.error.Some?
  {
    match fetch
    case Refused(e) => Plan([], false, Some(e))
    case Response(status, reason, contentType, finalUrl, payload) =>
      match ResponseError(status, reason, contentType, finalUrl)
      case Some(e) => Plan([], false, Some(e))
      case None =>
        match payload
        case Archive(entries) =>
          var z := ZipPlan(entries, memory, strptime);
          Plan(z.written, false, z.error)
        case Bytes(content) =>
          var header := Header(content);
          match DetectMediaType(header, contentType)
          case None => Plan([], true, Some(Raised("ValueError", NotMediaText + outputDir + "/" + BadFile(sid))))
          case Some(t) =>
            match FormatFilename(memory, DirectExtension(header, t), false, strptime)
            case Err(e) => Plan([], false, Some(e))
            case Ok(name) => Plan([DirectFolder(t) + "/" + name], false, None)
  }

  /** The exception an attempt ends in: the plan's, else the KeyError of `mark_downloaded`. */
  function AttemptError(plan: Plan, memory: Memory): Option<Raised> {
    if plan.error.Some? then plan.error
    else if memory.mediaType.None? then Some(KeyError("media_type"))
    else None
  }

  /**
   * An archive with no entries writes nothing and raises nothing, so for a memory without a media
   * type the attempt fails only afterwards, with the KeyError of `mark_downloaded`.
   */
  lemma EmptyArchiveFailsOnMediaType(status: int, reason: string, contentType: string, finalUrl: string,
                                     memory: Memory, sid: string, strptime: Strptime, outputDir: string)
    requires !(400 <= status < 600) && !Contains(contentType, "text/html")
    requires memory.mediaType.None?
    ensures var plan := AttemptPlan(Response(status, reason, contentType, finalUrl, Archive([])), memory, sid, strptime, outputDir);
      && plan.written == [] && plan.error.None?
      && AttemptError(plan, memory) == Some(KeyError("media_type"))
  {
    assert ZipPlan([], memory, strptime) == WriteUntilError([]);
  }

  /**
   * A payload that is neither an archive nor recognised media is kept as `bad_{sid}.dat` and the
   * attempt fails with a message naming that file; nothing else is written.
   */
  lemma UnrecognisedPayloadKept(status: int, reason: string, contentType: string, finalUrl: string, content: seq<byte>,
                                memory: Memory, sid: string, strptime: Strptime, outputDir: string)
    requires !(400 <= status < 600) && !Contains(contentType, "text/html")
    requires DetectMediaType(Header(content), contentType).None?
    ensures var plan := AttemptPlan(Response(status, reason, contentType, finalUrl, Bytes(content)), memory, sid, strptime, outputDir);
      && plan.keepBad && plan.written == []
      && AttemptError(plan, memory) == Some(Raised("ValueError", NotMediaText + outputDir + "/" + BadFile(sid)))
  {
  }

  /** A refused request, an HTTP error status or an HTML page fails the attempt before anything is written. */
  lemma EarlyFailuresWriteNothing(fetch: Fetch, memory: Memory, sid: string, strptime: Strptime, outputDir: string)
    requires fetch.Refused? || 400 <= fetch.status < 600 || Contains(fetch.contentType, "text/html")
    ensures var plan := AttemptPlan(fetch, memory, sid, strptime, outputDir);
      plan.written == [] && !plan.keepBad && plan.error.Some?
  {
  }

  /** The three names cleanup knows; `bad_{sid}.dat` is none of the two it removes. */
  lemma TempNamesDistinct(sid: string)
    ensures BadFile(sid) != TempDownload(sid) && BadFile(sid) != TempZip(sid) && TempZip(sid) != TempDownload(sid)
  {
    assert BadFile(sid)[0] == 'b' && TempDownload(sid)[0] == 't';
    var z, d := TempZip(sid), TempDownload(sid);
    assert |z| != |d|;
  }

  /** The set of a sequence's elements. */
  function Elements(s: seq<string>): set<string> {
    set x | x in s
  }

  /** The `(downloaded, failed)` buckets and the three counters `download_all` keeps. */
  datatype Counters = Counters(downloaded: nat, failed: nat, skipped: nat)

  /** The file of a pair the composite report names, its type and attempts, as `verify_composites` lists it. */
  datatype FailedComposite = FailedComposite(file: string, mediaType: string, attempts: int, sid: string)

  /** `{total_pairs, composited_images, composited_videos, missing_list, failed_list}` */
  datatype CompositeReport = CompositeReport(totalPairs: nat, compositedImages: nat, compositedVideos: nat,
                                             missing: seq<string>, failed: seq<FailedComposite>)

  /** `[p for p in pairs if p['media_type'] == t]` */
  function OfType(pairs: seq<Compositor.Pair>, t: string): (r: seq<Compositor.Pair>)
    ensures |r| <= |pairs|
    ensures forall i :: 0 <= i < |r| ==> r[i].mediaType == t && r[i] in pairs
    decreases |pairs|
  {
    if |pairs| == 0 then []
    else OfType(pairs[..|pairs| - 1], t) + (if Last(pairs).mediaType == t then [Last(pairs)] else [])
  }

  /** Filtering twice by one type changes nothing; by two different types leaves nothing. */
  lemma {:induction false} OfTypeTwice(pairs: seq<Compositor.Pair>, t: string, u: string)
    ensures OfType(OfType(pairs, t), u) == if t == u then OfType(pairs, t) else []
    decreases |pairs|
  {
    if |pairs| > 0 {
      var init, x := pairs[..|pairs| - 1], Last(pairs);
      OfTypeTwice(init, t, u);
      var front := OfType(init, t);
      if x.mediaType == t {
        var all := front + [x];
        assert OfType(pairs, t) == all;
        assert all[..|all| - 1] == front && Last(all) == x;
        assert OfType(all, u) == OfType(front, u) + (if x.mediaType == u then [x] else []);
      } else {
        assert OfType(pairs, t) == front + [];
        assert front + [] == front;
      }
    }
  }

  /** Every pair of a list whose types are image or video is in exactly one of the two filtered lists. */
  lemma {:induction false} OfTypeSplits(pairs: seq<Compositor.Pair>)
    requires forall i :: 0 <= i < |pairs| ==> pairs[i].mediaType in {"image", "video"}
    ensures |OfType(pairs, "image")| + |OfType(pairs, "video")| == |pairs|
    decreases |pairs|
  {
    if |pairs| > 0 {
      OfTypeSplits(pairs[..|pairs| - 1]);
    }
  }

  /**
   * The image and video pairs `composite_all_overlays` goes on to composite: `images_only` keeps
   * only images, else `videos_only` keeps only videos, else both.
   */
  function CompositeSelection(pairs: seq<Compositor.Pair>, imagesOnly: bool, videosOnly: bool)
    : (r: (seq<Compositor.Pair>, seq<Compositor.Pair>))
    ensures imagesOnly ==> r == (OfType(pairs, "image"), [])
    ensures !imagesOnly && videosOnly ==> r == ([], OfType(pairs, "video"))
    ensures !imagesOnly && !videosOnly ==> r == (OfType(pairs, "image"), OfType(pairs, "video"))
  {
    var kept := if imagesOnly then OfType(pairs, "image") else if videosOnly then OfType(pairs, "video") else pairs;
    OfTypeTwice(pairs, "image", "image");
    OfTypeTwice(pairs, "image", "video");
    OfTypeTwice(pairs, "video", "image");
    OfTypeTwice(pairs, "video", "video");
    (OfType(kept, "image"), OfType(kept, "video"))
  }

  /** How many pairs of one type are composited according to the ledger. */
  function CompositedCount(pairs: seq<Compositor.Pair>, t: string, l: Progress.Ledger): nat
    decreases |pairs|
  {
    if |pairs| == 0 then 0
    else CompositedCount(pairs[..|pairs| - 1], t, l) + (if l.HasComposite(Last(pairs).sid, KindOf(t)) then 1 else 0)
  }

  /** The pairs of one type not composited and never failed, as `"name (type)"`, in order. */
  function MissingComposites(pairs: seq<Compositor.Pair>, t: string, l: Progress.Ledger): seq<string>
    decreases |pairs|
  {
    if |pairs| == 0 then []
    else
      var p := Last(pairs);
      MissingComposites(pairs[..|pairs| - 1], t, l)
      + (if !l.HasComposite(p.sid, KindOf(t)) && l.CompositeFailureCount(p.sid, KindOf(t)) <= 0
         then [Name(p.baseFile) + " (" + t + ")"] else [])
  }

  /** The pairs of one type not composited but with failed attempts, in order. */
  function FailedComposites(pairs: seq<Compositor.Pair>, t: string, l: Progress.Ledger): (r: seq<FailedComposite>)
    ensures forall i :: 0 <= i < |r| ==> r[i].attempts > 0 && r[i].mediaType == t
    decreases |pairs|
  {
    if |pairs| == 0 then []
    else
      var p := Last(pairs);
      var count := l.CompositeFailureCount(p.sid, KindOf(t));
      FailedComposites(pairs[..|pairs| - 1], t, l)
      + (if !l.HasComposite(p.sid, KindOf(t)) && count > 0 then [FailedComposite(Name(p.baseFile), t, count, p.sid)] else [])
  }

  /** The report `verify_composites` should give for a list of pairs and a ledger. */
  function CompositeReportOf(pairs: seq<Compositor.Pair>, l: Progress.Ledger): CompositeReport {
    var images, videos := OfType(pairs, "image"), OfType(pairs, "video");
    CompositeReport(|pairs|, CompositedCount(images, "image", l), CompositedCount(videos, "video", l),
                    MissingComposites(images, "image", l) + MissingComposites(videos, "video", l),
                    FailedComposites(images, "image", l) + FailedComposites(videos, "video", l))
  }

  /** Within one type, every pair is composited, missing or failed, exactly once. */
  lemma {:induction false} CompositeKindAddsUp(pairs: seq<Compositor.Pair>, t: string, l: Progress.Ledger)
    ensures CompositedCount(pairs, t, l) + |MissingComposites(pairs, t, l)| + |FailedComposites(pairs, t, l)| == |pairs|
    decreases |pairs|
  {
    if |pairs| > 0 {
      CompositeKindAddsUp(pairs[..|pairs| - 1], t, l);
    }
  }

  /** Composited, missing and failed add up to the image pairs plus the video pairs. */
  lemma CompositeReportAddsUp(pairs: seq<Compositor.Pair>, l: Progress.Ledger)
    ensures var r := CompositeReportOf(pairs, l);
      r.compositedImages + r.compositedVideos + |r.missing| + |r.failed|
      == |OfType(pairs, "image")| + |OfType(pairs, "video")|
  {
    CompositeKindAddsUp(OfType(pairs, "image"), "image", l);
    CompositeKindAddsUp(OfType(pairs, "video"), "video", l);
  }

  /** Installing the missing `composited` partition changes no answer the report depends on. */
  lemma {:induction false} InstallingKeepsReport(pairs: seq<Compositor.Pair>, t: string, l: Progress.Ledger)
    ensures var i := Progress.WithCompositedInstalled(l);
      && CompositedCount(pairs, t, i) == CompositedCount(pairs, t, l)
      && MissingComposites(pairs, t, i) == MissingComposites(pairs, t, l)
      && FailedComposites(pairs, t, i) == FailedComposites(pairs, t, l)
    decreases |pairs|
  {
    if |pairs| > 0 {
      InstallingKeepsReport(pairs[..|pairs| - 1], t, l);
    }
  }

  /** A memory list is all downloaded exactly when its downloaded count is its length. */
  lemma {:induction false} AllDownloadedCount(memories: seq<Memory>, done: set<string>)
    ensures DownloadedCount(memories, done) <= |memories|
    ensures DownloadedCount(memories, done) == |memories|
            <==> forall i :: 0 <= i < |memories| ==> memories[i].sid in done
    decreases |memories|
  {
    if |memories| > 0 {
      var init := memories[..|memories| - 1];
      AllDownloadedCount(init, done);
      assert forall i :: 0 <= i < |init| ==> init[i] == memories[i];
    }
  }

  /**
   * What `_download_memory` returns and leaves in the ledger, given the exception its one attempt
   * raises before `mark_downloaded` (if any): an already downloaded sid succeeds and a sid with five
   * or more failures fails, both without a change; otherwise the memory is marked downloaded, or
   * the exception (the plan's, else the KeyError of `mark_downloaded`) is recorded as a failure.
   */
  function DownloadOutcome(l: Progress.Ledger, memory: Memory, planError: Option<Raised>, now: string)
    : (r: (bool, Progress.Ledger))
    ensures r.0 <==> r.1.IsDownloaded(memory.sid)
    ensures r.1.downloaded.Keys == l.downloaded.Keys + (if r.0 then {memory.sid} else {})
    ensures l.IsDownloaded(memory.sid) ==> r == (true, l)
    ensures !l.IsDownloaded(memory.sid) && l.FailureCount(memory.sid) >= 5 ==> r == (false, l)
    ensures !l.IsDownloaded(memory.sid) && l.FailureCount(memory.sid) < 5 ==>
              (r.0 <==> planError.None? && memory.mediaType.Some?)
    ensures !l.IsDownloaded(memory.sid) && l.FailureCount(memory.sid) < 5 && !r.0 ==>
              r.1.FailureCount(memory.sid) == l.FailureCount(memory.sid) + 1
  {
    var sid := memory.sid;
    if l.IsDownloaded(sid) then (true, l)
    else if l.FailureCount(sid) >= 5 then (false, l)
    else match (if planError.Some? then Err(planError.value) else Progress.WithDownloaded(l, sid, memory, now))
      case Ok(marked) => (true, marked)
      case Err(e) => (false, Progress.WithFailure(l, sid, memory, e.message, Some(e), now))
  }

  /** No sid occurs twice in the list. */
  predicate DistinctSids(memories: seq<Memory>) {
    forall i, j :: 0 <= i < j < |memories| ==> memories[i].sid != memories[j].sid
  }

  /** Counting one more memory adds one exactly when its sid is in the set. */
  lemma CountStep(memories: seq<Memory>, i: nat, done: set<string>)
    requires i < |memories|
    ensures DownloadedCount(memories[..i + 1], done)
            == DownloadedCount(memories[..i], done) + (if memories[i].sid in done then 1 else 0)
  {
    assert memories[..i + 1][..i] == memories[..i];
  }

  /** From position i on, every memory's sid is downloaded under `keys` exactly when it was under `start`. */
  predicate SameAnswersFrom(memories: seq<Memory>, i: nat, keys: set<string>, start: set<string>) {
    forall k :: i <= k < |memories| ==> (memories[k].sid in keys <==> memories[k].sid in start)
  }

  /** Adding the sid at i changes no answer for the distinct sids after it. */
  lemma LaterAnswersKept(memories: seq<Memory>, i: nat, before: set<string>, after: set<string>, start: set<string>)
    requires DistinctSids(memories) && i < |memories|
    requires SameAnswersFrom(memories, i, before, start)
    requires before <= after <= before + {memories[i].sid}
    ensures SameAnswersFrom(memories, i + 1, after, start)
  {
    forall k | i + 1 <= k < |memories|
      ensures memories[k].sid in after <==> memories[k].sid in start
    {
      assert memories[k].sid != memories[i].sid;
    }
  }

  /** The downloader: its ledger, the network and date parser it uses, and the output folder's files. */
  class SnapchatDownloader {
    const tracker: Progress.ProgressTracker
    /** The answer to the n-th request, for a URL. */
    const network: (string, nat) -> Fetch
    const strptime: Strptime
    const outputDir: string
    /** Paths relative to the output directory. */
    var files: set<string>
    /** Requests made so far. */
    var fetches: nat
    /** For each pause of `download_all`, the 1-based position of the memory it followed. */
    var sleeps: seq<nat>

    constructor (tracker: Progress.ProgressTracker, network: (string, nat) -> Fetch, strptime: Strptime,
                 outputDir: string, files: set<string>)
      ensures this.tracker == tracker && this.network == network && this.strptime == strptime
      ensures this.outputDir == outputDir && this.files == files && fetches == 0 && sleeps == []
    {
      this.tracker := tracker;
      this.network := network;
      this.strptime := strptime;
      this.outputDir := outputDir;
      this.files := files;
      fetches := 0;
      sleeps := [];
    }

    /** `_extract_and_save_zip`: the entries are written in order until one raises. */
    method ExtractAndSaveZip(entries: seq<string>, memory: Memory) returns (raised: Option<Raised>)
      modifies this
      ensures var z := ZipPlan(entries, memory, strptime);
        files == old(files) + Elements(z.written) && raised == z.error
      ensures fetches == old(fetches) && sleeps == old(sleeps)
    {
      raised := WriteEntries(EntryTargets(entries, memory, strptime));
    }

    /** The loop of `_extract_and_save_zip`: each entry's file is written until one raises. */
    method WriteEntries(targets: seq<Result<Target, Raised>>) returns (raised: Option<Raised>)
      modifies this
      ensures files == old(files) + Elements(WriteUntilError(targets).written)
      ensures raised == WriteUntilError(targets).error
      ensures fetches == old(fetches) && sleeps == old(sleeps)
    {
      ghost var z := WriteUntilError(targets);
      WrittenUntilError(targets);
      var written: seq<string> := [];
      var i := 0;
      raised := None;
      while i < |targets|
        invariant i <= |z.written| && written == z.written[..i]
        invariant files == old(files) + Elements(written)
        invariant fetches == old(fetches) && sleeps == old(sleeps)
      {
        match targets[i]
        case Err(e) => {
          return Some(e);
        }
        case Ok(target) => {
          var path := target.Path();
          PrefixStep(z.written, i);
          files := files + {path};
          written := written + [path];
        }
        i := i + 1;
      }
    }

    /**
     * `_attempt_download`: one request; the body is kept under a temporary name, then extracted,
     * copied or kept as `bad_{sid}.dat`.  Every exception is caught: the failure is recorded, both
     * temporary names are removed, and `(False, "Error: ...")` is returned; otherwise the memory is
     * marked downloaded.
     */
    method AttemptDownload(memory: Memory, sid: string, now: string) returns (success: bool, message: string)
      modifies this, tracker
      ensures fetches == old(fetches) + 1 && sleeps == old(sleeps)
      ensures var plan := AttemptPlan(network(memory.downloadUrl, old(fetches)), memory, sid, strptime, outputDir);
        var e := AttemptError(plan, memory);
        && (success <==> e.None?)
        && (success ==> (message == "Downloaded successfully"
              && tracker.ledger == Progress.WithDownloaded(old(tracker.ledger), sid, memory, now).value))
        && (!success ==> (message == "Error: " + e.value.message
              && tracker.ledger == Progress.WithFailure(old(tracker.ledger), sid, memory, e.value.message, e, now)))
        && (!success ==> files == (old(files) + Elements(plan.written) + (if plan.keepBad then {BadFile(sid)} else {}))
                                  - {TempZip(sid), TempDownload(sid)})
        && (success ==> files - {TempZip(sid), TempDownload(sid)}
                        == (old(files) + Elements(plan.written)) - {TempZip(sid), TempDownload(sid)})
    {
      var fetch := network(memory.downloadUrl, fetches);
      fetches := fetches + 1;
      var error := SaveResponse(fetch, memory, sid);
      if error.None? {
        error := tracker.MarkDownloaded(sid, memory, now);
      }
      if error.None? {
        return true, "Downloaded successfully";
      }
      var e := error.value;
      tracker.RecordFailure(sid, memory, e.message, Some(e), now);
      files := files - {TempZip(sid), TempDownload(sid)};
      return false, "Error: " + e.message;
    }

    /**
     * The body of `_attempt_download` up to `mark_downloaded`: the response is checked, kept under
     * a temporary name, then extracted, copied or kept as `bad_{sid}.dat`.  Apart from the two
     * temporary names, the files written are the plan's.
     */
    method SaveResponse(fetch: Fetch, memory: Memory, sid: string) returns (error: Option<Raised>)
      modifies this
      ensures var plan := AttemptPlan(fetch, memory, sid, strptime, outputDir);
        && error == plan.error
        && files - {TempZip(sid), TempDownload(sid)}
           == (old(files) + Elements(plan.written) + (if plan.keepBad then {BadFile(sid)} else {}))
              - {TempZip(sid), TempDownload(sid)}
      ensures fetches == old(fetches) && sleeps == old(sleeps)
    {
      if fetch.Refused? {
        return Some(fetch.error);
      }
      error := ResponseError(fetch.status, fetch.reason, fetch.contentType, fetch.finalUrl);
      if error.Some? {
        return;
      }
      files := files + {TempDownload(sid)};
      if fetch.payload.Archive? {
        files := files - {TempDownload(sid)} + {TempZip(sid)};
        error := ExtractAndSaveZip(fetch.payload.entries, memory);
        if error.None? {
          files := files - {TempZip(sid)};
        }
      } else {
        var header := Header(fetch.payload.content);
        var detected := DetectMediaType(header, fetch.contentType);
        if detected.Some? {
          var named := FormatFilename(memory, DirectExtension(header, detected.value), false, strptime);
          if named.Err? {
            error := Some(named.error);
          } else {
            files := files + {DirectFolder(detected.value) + "/" + named.value};
            files := files - {TempDownload(sid)};
          }
        } else {
          files := files - {TempDownload(sid)} + {BadFile(sid)};
          error := Some(Raised("ValueError", NotMediaText + outputDir + "/" + BadFile(sid)));
        }
      }
    }

    /**
     * `_download_memory`: a downloaded sid and a sid with five or more failures return at once,
     * with no request and no ledger change; otherwise one attempt decides.  The attempt catches
     * every exception, so the retry loop never reaches a second round, a backoff or its
     * "Max retries exceeded" exit.
     */
    method DownloadMemory(memory: Memory, now: string) returns (success: bool, message: string)
      modifies this, tracker
      ensures sleeps == old(sleeps)
      ensures old(tracker.ledger).IsDownloaded(memory.sid) ==>
                (success && message == "Already downloaded"
                 && unchanged(tracker) && fetches == old(fetches) && files == old(files))
      ensures !old(tracker.ledger).IsDownloaded(memory.sid) && old(tracker.ledger).FailureCount(memory.sid) >= 5 ==>
                (!success && message == "Skipped (failed " + IntToString(old(tracker.ledger).FailureCount(memory.sid)) + " times)"
                 && unchanged(tracker) && fetches == old(fetches) && files == old(files))
      ensures !old(tracker.ledger).IsDownloaded(memory.sid) && old(tracker.ledger).FailureCount(memory.sid) < 5 ==>
                var plan := AttemptPlan(network(memory.downloadUrl, old(fetches)), memory, memory.sid, strptime, outputDir);
                var e := AttemptError(plan, memory);
                && fetches == old(fetches) + 1
                && (success <==> e.None?)
                && (success ==> tracker.ledger == Progress.WithDownloaded(old(tracker.ledger), memory.sid, memory, now).value)
                && (!success ==> tracker.ledger
                                 == Progress.WithFailure(old(tracker.ledger), memory.sid, memory, e.value.message, e, now))
      ensures var plan := AttemptPlan(network(memory.downloadUrl, old(fetches)), memory, memory.sid, strptime, outputDir);
        (success, tracker.ledger) == DownloadOutcome(old(tracker.ledger), memory, plan.error, now)
      ensures old(tracker.ledger).downloaded.Keys <= tracker.ledger.downloaded.Keys
      ensures fetches <= old(fetches) + 1
    {
      var sid := memory.sid;
      if tracker.ledger.IsDownloaded(sid) {
        return true, "Already downloaded";
      }
      var failCount := tracker.ledger.FailureCount(sid);
      if failCount >= 5 {
        return false, "Skipped (failed " + IntToString(failCount) + " times)";
      }
      for attempt := 0 to 3
        invariant attempt == 0
      {
        success, message := AttemptDownload(memory, sid, now);
        return;
      }
      assert false;
    }

    /**
     * `download_all`: nothing happens when every memory is already downloaded; otherwise each
     * memory is skipped (already downloaded), downloaded or failed, and a pause follows every
     * attempted memory but the last one of the list.
     */
    method DownloadAll(memories: seq<Memory>, now: string) returns (counters: Counters, allDone: bool)
      modifies this, tracker
      ensures allDone <==> forall i :: 0 <= i < |memories| ==> old(tracker.ledger).IsDownloaded(memories[i].sid)
      ensures allDone ==> (counters == Counters(0, 0, 0) && unchanged(tracker)
                           && files == old(files) && fetches == old(fetches) && sleeps == old(sleeps))
      ensures !allDone ==> counters.downloaded + counters.failed + counters.skipped == |memories|
      ensures !allDone ==> counters.skipped >= DownloadedCount(memories, old(tracker.ledger).downloaded.Keys)
      ensures !allDone && DistinctSids(memories) ==> counters.skipped == DownloadedCount(memories, old(tracker.ledger).downloaded.Keys)
      ensures fetches <= old(fetches) + counters.downloaded + counters.failed
      ensures |old(sleeps)| <= |sleeps| <= |old(sleeps)| + counters.downloaded + counters.failed
      ensures sleeps[..|old(sleeps)|] == old(sleeps)
      ensures forall j :: |old(sleeps)| <= j < |sleeps| ==> 1 <= sleeps[j] < |memories|
      ensures old(tracker.ledger).downloaded.Keys <= tracker.ledger.downloaded.Keys
    {
      ghost var startKeys := tracker.ledger.downloaded.Keys;
      var alreadyDownloaded := DownloadedCount(memories, tracker.ledger.downloaded.Keys);
      AllDownloadedCount(memories, startKeys);
      counters := Counters(0, 0, 0);
      allDone := |memories| - alreadyDownloaded == 0;
      if allDone {
        return;
      }
      counters := DownloadEach(memories, now);
    }

    /**
     * The loop of `download_all`: every memory in order goes through one round, and the counters
     * add up to the list; a memory downloaded before the loop is always counted as skipped, and
     * with distinct sids the skipped ones are exactly those.
     */
    method DownloadEach(memories: seq<Memory>, now: string) returns (counters: Counters)
      modifies this, tracker
      ensures counters.downloaded + counters.failed + counters.skipped == |memories|
      ensures counters.skipped >= DownloadedCount(memories, old(tracker.ledger).downloaded.Keys)
      ensures DistinctSids(memories) ==> counters.skipped == DownloadedCount(memories, old(tracker.ledger).downloaded.Keys)
      ensures fetches <= old(fetches) + counters.downloaded + counters.failed
      ensures |old(sleeps)| <= |sleeps| <= |old(sleeps)| + counters.downloaded + counters.failed
      ensures sleeps[..|old(sleeps)|] == old(sleeps)
      ensures forall j :: |old(sleeps)| <= j < |sleeps| ==> 1 <= sleeps[j] < |memories|
      ensures old(tracker.ledger).downloaded.Keys <= tracker.ledger.downloaded.Keys
    {
      ghost var startKeys := tracker.ledger.downloaded.Keys;
      counters := Counters(0, 0, 0);
      var i := 0;
      while i < |memories|
        invariant 0 <= i <= |memories|
        invariant counters.downloaded + counters.failed + counters.skipped == i
        invariant counters.skipped >= DownloadedCount(memories[..i], startKeys)
        invariant DistinctSids(memories) ==> counters.skipped == DownloadedCount(memories[..i], startKeys)
        invariant startKeys <= tracker.ledger.downloaded.Keys
        invariant DistinctSids(memories) ==> SameAnswersFrom(memories, i, tracker.ledger.downloaded.Keys, startKeys)
        invariant fetches <= old(fetches) + counters.downloaded + counters.failed
        invariant |old(sleeps)| <= |sleeps| <= |old(sleeps)| + counters.downloaded + counters.failed
        invariant sleeps[..|old(sleeps)|] == old(sleeps)
        invariant forall j :: |old(sleeps)| <= j < |sleeps| ==> 1 <= sleeps[j] < |memories|
      {
        CountStep(memories, i, startKeys);
        ghost var keysBefore := tracker.ledger.downloaded.Keys;
        if DistinctSids(memories) {
          assert memories[i].sid in keysBefore <==> memories[i].sid in startKeys;
        }
        counters := DownloadStep(memories[i], now, i, |memories|, counters);
        if DistinctSids(memories) {
          LaterAnswersKept(memories, i, keysBefore, tracker.ledger.downloaded.Keys, startKeys);
        }
        i := i + 1;
      }
      assert memories[..i] == memories;
    }

    /**
     * One round of the loop of `download_all`, for the memory at 0-based `position` of `total`:
     * an already downloaded memory is counted as skipped; any other is downloaded and counted as
     * downloaded or failed, then followed by a pause unless it is the last.
     */
    method DownloadStep(memory: Memory, now: string, position: nat, total: nat, before: Counters)
      returns (after: Counters)
      modifies this, tracker
      ensures old(tracker.ledger).IsDownloaded(memory.sid) ==>
                (after == before.(skipped := before.skipped + 1) && unchanged(tracker)
                 && files == old(files) && fetches == old(fetches) && sleeps == old(sleeps))
      ensures !old(tracker.ledger).IsDownloaded(memory.sid) ==>
                var plan := AttemptPlan(network(memory.downloadUrl, old(fetches)), memory, memory.sid, strptime, outputDir);
                var outcome := DownloadOutcome(old(tracker.ledger), memory, plan.error, now);
                && after.skipped == before.skipped
                && (outcome.0 ==> after == before.(downloaded := before.downloaded + 1))
                && (!outcome.0 ==> after == before.(failed := before.failed + 1))
                && tracker.ledger == outcome.1
                && fetches <= old(fetches) + 1
                && sleeps == old(sleeps) + (if position + 1 < total then [position + 1] else [])
      ensures old(tracker.ledger).downloaded.Keys <= tracker.ledger.downloaded.Keys <= old(tracker.ledger).downloaded.Keys + {memory.sid}
    {
      if tracker.ledger.IsDownloaded(memory.sid) {
        return before.(skipped := before.skipped + 1);
      }
      var success, _ := DownloadMemory(memory, now);
      if success {
        after := before.(downloaded := before.downloaded + 1);
      } else {
        after := before.(failed := before.failed + 1);
      }
      if position + 1 < total {
        sleeps := sleeps + [position + 1];
      }
    }

    /** `verify_downloads`: the ledger's report on the parsed memories. */
    method VerifyDownloads(memories: seq<Memory>) returns (report: DownloadReport)
      ensures report == ReportOf(memories, tracker.ledger.downloaded.Keys, tracker.ledger.Attempts())
    {
      report := tracker.VerifyDownloads(memories);
    }

    /** One type's pairs, each asked `is_composited` and, if not, its composite failure count. */
    method ClassifyPairs(pairs: seq<Compositor.Pair>, t: string)
      returns (composited: nat, missing: seq<string>, failed: seq<FailedComposite>)
      modifies tracker
      ensures var l := Progress.WithCompositedInstalled(old(tracker.ledger));
        && composited == CompositedCount(pairs, t, l)
        && missing == MissingComposites(pairs, t, l)
        && failed == FailedComposites(pairs, t, l)
      ensures tracker.ledger == if |pairs| == 0 then old(tracker.ledger)
                                else Progress.WithCompositedInstalled(old(tracker.ledger))
      ensures tracker.file == old(tracker.file) && tracker.backup == old(tracker.backup)
    {
      ghost var l := Progress.WithCompositedInstalled(tracker.ledger);
      composited, missing, failed := 0, [], [];
      for i := 0 to |pairs|
        invariant tracker.ledger == if i == 0 then old(tracker.ledger) else l
        invariant composited == CompositedCount(pairs[..i], t, l)
        invariant missing == MissingComposites(pairs[..i], t, l)
        invariant failed == FailedComposites(pairs[..i], t, l)
        invariant tracker.file == old(tracker.file) && tracker.backup == old(tracker.backup)
      {
        var pair := pairs[i];
        assert pairs[..i + 1][..i] == pairs[..i];
        var done := tracker.IsComposited(pair.sid, t);
        if done {
          composited := composited + 1;
        } else {
          var count := tracker.ledger.CompositeFailureCount(pair.sid, KindOf(t));
          if count > 0 {
            failed := failed + [FailedComposite(Name(pair.baseFile), t, count, pair.sid)];
          } else {
            missing := missing + [Name(pair.baseFile) + " (" + t + ")"];
          }
        }
      }
      assert pairs[..|pairs|] == pairs;
    }

    /**
     * `verify_composites` over the pairs `find_overlay_pairs` returned: the report on the ledger
     * as it was.  Asking `is_composited` may install an empty `composited` partition, which
     * changes no answer.
     */
    method VerifyComposites(pairs: seq<Compositor.Pair>) returns (report: CompositeReport)
      modifies tracker
      ensures report == CompositeReportOf(pairs, old(tracker.ledger))
      ensures tracker.ledger == old(tracker.ledger) || tracker.ledger == Progress.WithCompositedInstalled(old(tracker.ledger))
      ensures tracker.file == old(tracker.file) && tracker.backup == old(tracker.backup)
    {
      ghost var l0 := tracker.ledger;
      var images, videos := OfType(pairs, "image"), OfType(pairs, "video");
      var compositedImages, missingImages, failedImages := ClassifyPairs(images, "image");
      var compositedVideos, missingVideos, failedVideos := ClassifyPairs(videos, "video");
      InstallingKeepsReport(images, "image", l0);
      InstallingKeepsReport(videos, "video", l0);
      report := CompositeReport(|pairs|, compositedImages, compositedVideos, missingImages + missingVideos,
                                failedImages + failedVideos);
    }
  }
}

=== FILE: legacy_progress.dfy ===
/**
 * The older progress ledger, progress.py: the same `downloaded`, `failed` and
 * `composited.{images,videos}` partitions without `failed_composites` or timezone fields,
 * saved by plain overwrite.
 */
module LegacyProgress {
  import opened Wrappers
  import opened Records
  import Progress

  /** `downloaded[sid]`: `{date, media_type, timestamp}`. */
  datatype LegacyEntry = LegacyEntry(date: string, mediaType: string, timestamp: string)

  datatype LegacyLedger = LegacyLedger(downloaded: map<string, LegacyEntry>,
                                       failed: map<string, Failure<string>>,
                                       composited: Option<Partition<CompositeEntry>>)
  {
    predicate IsDownloaded(sid: string) {
      sid in downloaded
    }

    /** `get_failure_count`: 0 for a sid with no tally. */
    function FailureCount(sid: string): int {
      CountOf(failed, sid)
    }

    function Attempts(): map<string, int> {
      map s | s in failed :: failed[s].count
    }

    predicate HasComposite(sid: string, kind: MediaKind) {
      composited.Some? && sid in composited.value.Get(kind).GetOr(map[])
    }
  }

  /** The progress file as found on disk. */
  datatype LegacyFile = Absent | Unreadable(reason: string) | InvalidJson(reason: string) | Object(ledger: LegacyLedger)

  /**
   * `_load_progress`: no file gives empty `downloaded`, `failed` and `composited` halves and no
   * `failed_composites`; a file that cannot be read or parsed raises to the caller.
   */
  function LoadLegacy(f: LegacyFile): (r: Result<LegacyLedger, Raised>)
    ensures r.Ok? <==> f.Absent? || f.Object?
    ensures f.Absent? ==> (r.Ok? && r.value.downloaded == map[] && r.value.failed == map[]
      && r.value.composited == Some(Partition(Some(map[]), Some(map[]))))
    ensures f.Object? ==> r == Ok(f.ledger)
    ensures f.InvalidJson? ==> r == Err(Raised("JSONDecodeError", f.reason))
  {
    match f
    case Absent => Ok(LegacyLedger(map[], map[], Some(EmptyPartition())))
    case Object(l) => Ok(l)
    case InvalidJson(reason) => Err(Raised("JSONDecodeError", reason))
    case Unreadable(reason) => Err(Raised("OSError", reason))
  }

  /**
   * `mark_downloaded`: the entry is written over any earlier one and the sid's failure tally is
   * dropped; a memory without a media type raises KeyError before anything is written.
   */
  function WithDownloaded(l: LegacyLedger, sid: string, memory: Memory, now: string): (r: Result<LegacyLedger, Raised>)
    ensures r.Err? <==> memory.mediaType.None?
    ensures r.Err? ==> r.error == KeyError("media_type")
    ensures r.Ok? ==> (sid in r.value.downloaded
      && r.value.downloaded[sid] == LegacyEntry(memory.date, memory.mediaType.value, now))
    ensures r.Ok? ==> r.value.FailureCount(sid) == 0
    ensures r.Ok? ==> r.value.downloaded - {sid} == l.downloaded - {sid} && r.value.failed == l.failed - {sid}
    ensures r.Ok? ==> r.value.composited == l.composited
  {
    match memory.mediaType
    case None => Err(KeyError("media_type"))
    case Some(mediaType) =>
      Ok(l.(downloaded := l.downloaded[sid := LegacyEntry(memory.date, mediaType, now)], failed := l.failed - {sid}))
  }

  /**
   * `record_failure`: one more attempt and one more error record on the sid's tally only; a new
   * tally keeps the memory's URL as its context.
   */
  function WithFailure(l: LegacyLedger, sid: string, memory: Memory, message: string, exception: Option<Raised>,
                       now: string): (r: LegacyLedger)
    ensures r.FailureCount(sid) == l.FailureCount(sid) + 1
    ensures sid in r.failed
    ensures r.failed[sid].errors == (if sid in l.failed then l.failed[sid].errors else [])
                                    + [MakeErrorRecord(now, message, exception)]
    ensures r.failed[sid].context == if sid in l.failed then l.failed[sid].context else memory.downloadUrl
    ensures r.failed - {sid} == l.failed - {sid}
    ensures r.downloaded == l.downloaded && r.composited == l.composited
  {
    var failed := BumpFailure(l.failed, sid, memory.downloadUrl, MakeErrorRecord(now, message, exception));
    assert failed - {sid} == l.failed - {sid};
    l.(failed := failed)
  }

  /** `is_composited` first installs an empty `composited` partition when the file has none. */
  function WithCompositedInstalled(l: LegacyLedger): (r: LegacyLedger)
    ensures r.composited.Some?
    ensures l.composited.Some? ==> r == l
    ensures l.composited.None? ==> r == l.(composited := Some(EmptyPartition()))
  {
    if l.composited.Some? then l else l.(composited := Some(EmptyPartition()))
  }

  /**
   * `mark_composited`: the entry goes into the media type's half of `composited` and no failure
   * partition is touched.  A file whose `composited` lacks that half raises KeyError, unchanged.
   */
  function WithComposited(l: LegacyLedger, sid: string, mediaType: string, baseFile: string, overlayFile: string,
                          now: string): (r: Result<LegacyLedger, Raised>)
    ensures var k := KindOf(mediaType);
      r.Err? <==> l.composited.Some? && l.composited.value.Get(k).None?
    ensures r.Err? ==> r.error == KeyError(KindOf(mediaType).Key())
    ensures var k := KindOf(mediaType);
      r.Ok? ==> (r.value.HasComposite(sid, k)
        && r.value.composited.value.Get(k).value[sid] == CompositeEntry(now, baseFile, overlayFile))
    ensures var k := KindOf(mediaType);
      r.Ok? ==> r.value.composited.value.Get(k).value - {sid}
                == WithCompositedInstalled(l).composited.value.Get(k).value - {sid}
    ensures var k := KindOf(mediaType);
      r.Ok? ==> forall o :: o != k ==> r.value.composited.value.Get(o) == WithCompositedInstalled(l).composited.value.Get(o)
    ensures r.Ok? ==> r.value.downloaded == l.downloaded && r.value.failed == l.failed
  {
    var k := KindOf(mediaType);
    var c := WithCompositedInstalled(l).composited.value;
    match c.Get(k)
    case None => Err(KeyError(k.Key()))
    case Some(m) => Ok(l.(composited := Some(c.Put(k, m[sid := CompositeEntry(now, baseFile, overlayFile)]))))
  }

  /**
   * How the current tracker reads an older file: the timezone fields it lacks read as
   * `timezone_converted = False` and `local_date = None`, and `failed_composites` as absent.
   */
  function AsCurrent(l: LegacyLedger): (r: Progress.Ledger)
    ensures r.downloaded.Keys == l.downloaded.Keys && r.failed == l.failed && r.composited == l.composited
    ensures forall sid :: !r.IsTimezoneConverted(sid) && r.LocalDate(sid).None?
  {
    Progress.Ledger(map sid | sid in l.downloaded ::
                      Progress.DownloadEntry(l.downloaded[sid].date, l.downloaded[sid].mediaType,
                                             l.downloaded[sid].timestamp, false, None),
                    l.failed, l.composited, None)
  }

  /**
   * Both versions answer alike on an older file: downloaded, failure counts, composites and the
   * `verify_downloads` report agree, and no composite failure is known.
   */
  lemma VersionsAgree(l: LegacyLedger, memories: seq<Memory>, sid: string, kind: MediaKind)
    ensures AsCurrent(l).IsDownloaded(sid) == l.IsDownloaded(sid)
    ensures AsCurrent(l).FailureCount(sid) == l.FailureCount(sid)
    ensures AsCurrent(l).HasComposite(sid, kind) == l.HasComposite(sid, kind)
    ensures AsCurrent(l).CompositeFailureCount(sid, kind) == 0
    ensures ReportOf(memories, AsCurrent(l).downloaded.Keys, AsCurrent(l).Attempts())
            == ReportOf(memories, l.downloaded.Keys, l.Attempts())
  {
    assert AsCurrent(l).Attempts() == l.Attempts();
  }

  /** The older tracker: the ledger in memory and the progress file. */
  class LegacyTracker {
    var ledger: LegacyLedger
    var file: LegacyFile

    constructor Init(loaded: LegacyLedger, stored: LegacyFile)
      ensures ledger == loaded && file == stored
    {
      ledger := loaded;
      file := stored;
    }

    /** `ProgressTracker(progress_file)`: the load error propagates to the caller. */
    static method Open(stored: LegacyFile) returns (t: LegacyTracker?, raised: Option<Raised>)
      ensures raised.Some? <==> LoadLegacy(stored).Err?
      ensures raised.Some? ==> t == null && raised.value == LoadLegacy(stored).error
      ensures raised.None? ==> (t != null && fresh(t) && t.ledger == LoadLegacy(stored).value && t.file == stored)
    {
      var loaded := LoadLegacy(stored);
      if loaded.Err? {
        t, raised := null, Some(loaded.error);
      } else {
        t := new LegacyTracker.Init(loaded.value, stored);
        raised := None;
      }
    }

    /** `save_progress`: a plain overwrite of the file, with no backup. */
    method Save()
      modifies this
      ensures ledger == old(ledger) && file == Object(ledger)
    {
      file := Object(ledger);
    }

    method MarkDownloaded(sid: string, memory: Memory, now: string) returns (raised: Option<Raised>)
      modifies this
      ensures match WithDownloaded(old(ledger), sid, memory, now)
        case Ok(l) => raised.None? && ledger == l && file == Object(l)
        case Err(e) => raised == Some(e) && ledger == old(ledger) && file == old(file)
    {
      match WithDownloaded(ledger, sid, memory, now)
      case Err(e) =>
        raised := Some(e);
      case Ok(l) =>
        ledger := l;
        Save();
        raised := None;
    }

    method RecordFailure(sid: string, memory: Memory, message: string, exception: Option<Raised>, now: string)
      modifies this
      ensures ledger == WithFailure(old(ledger), sid, memory, message, exception, now) && file == Object(ledger)
    {
      ledger := WithFailure(ledger, sid, memory, message, exception, now);
      Save();
    }

    /** `is_composited`: installs an empty `composited` partition if missing, without saving. */
    method IsComposited(sid: string, mediaType: string) returns (b: bool)
      modifies this
      ensures ledger == WithCompositedInstalled(old(ledger)) && file == old(file)
      ensures b == ledger.HasComposite(sid, KindOf(mediaType))
    {
      ledger := WithCompositedInstalled(ledger);
      b := ledger.HasComposite(sid, KindOf(mediaType));
    }

    /** `mark_composited`, saved; a KeyError keeps the `composited` partition it installed. */
    method MarkComposited(sid: string, mediaType: string, baseFile: string, overlayFile: string, now: string)
      returns (raised: Option<Raised>)
      modifies this
      ensures match WithComposited(old(ledger), sid, mediaType, baseFile, overlayFile, now)
        case Ok(l) => raised.None? && ledger == l && file == Object(l)
        case Err(e) => raised == Some(e) && ledger == WithCompositedInstalled(old(ledger)) && file == old(file)
    {
      var result := WithComposited(ledger, sid, mediaType, baseFile, overlayFile, now);
      ledger := WithCompositedInstalled(ledger);
      match result
      case Err(e) =>
        raised := Some(e);
      case Ok(l) =>
        ledger := l;
        Save();
        raised := None;
    }

    /** `verify_downloads`: each memory is counted downloaded, listed failed or listed missing. */
    method VerifyDownloads(memories: seq<Memory>) returns (report: DownloadReport)
      ensures report == ReportOf(memories, ledger.downloaded.Keys, ledger.Attempts())
    {
      var done, attempts := ledger.downloaded.Keys, ledger.Attempts();
      report := DownloadReport(|memories|, 0, [], []);
      for i := 0 to |memories|
        invariant report == DownloadReport(|memories|, DownloadedCount(memories[..i], done),
                                           MissingOf(memories[..i], done, attempts), FailedOf(memories[..i], done, attempts))
      {
        var m := memories[i];
        assert memories[..i + 1][..i] == memories[..i];
        if m.sid in ledger.downloaded {
          report := report.(downloaded := report.downloaded + 1);
        } else if m.sid in ledger.failed {
          report := report.(failed := report.failed + [FailedItem(m.sid, m.date, ledger.failed[m.sid].count)]);
        } else {
          report := report.(missing := report.missing + [MissingItem(m.sid, m.date)]);
        }
      }
      assert memories[..|memories|] == memories;
    }
  }
}

=== FILE: metadata.dfy ===
/**
 * The decision logic of metadata.py and scripts/metadata.py: reading coordinates out of a
 * memory's location text, deciding whether and how exiftool is asked to write GPS tags,
 * choosing a timezone for a memory, and selecting the already-saved files of a memory.
 *
 * Number parsing (`float`), the timezone finder, `strptime` and the exiftool lookup are inputs.
 */
module Metadata {
  import opened Wrappers
  import opened Text
  import opened Paths
  import opened Dates
  import opened Records

  const Marker := "Latitude, Longitude:"

  /**
   * `parse_location`: None for a missing or empty location or one without the marker; else the
   * stripped text after the first marker must split at commas into exactly two numbers.
   */
  function ParseLocation(location: Option<string>, parseFloat: string -> Option<real>): (r: Option<(real, real)>)
    ensures location.None? || location == Some("") ==> r.None?
    ensures r.Some? ==> Contains(location.value, Marker)
    ensures r.Some? <==> location.Some? && location.value != "" && Contains(location.value, Marker)
                         && |CoordinateParts(location.value)| == 2
                         && parseFloat(Strip(CoordinateParts(location.value)[0])).Some?
                         && parseFloat(Strip(CoordinateParts(location.value)[1])).Some?
    ensures r.Some? ==> r.value == (parseFloat(Strip(CoordinateParts(location.value)[0])).value,
                                    parseFloat(Strip(CoordinateParts(location.value)[1])).value)
  {
    if location.None? || location.value == "" then None
    else if !Contains(location.value, Marker) then None
    else
      var parts := CoordinateParts(location.value);
      if |parts| != 2 then None
      else
        match (parseFloat(Strip(parts[0])), parseFloat(Strip(parts[1])))
        case (Some(lat), Some(lon)) => Some((lat, lon))
        case _ => None
  }

  /** The comma-separated parts of the stripped text after the first marker. */
  function CoordinateParts(location: string): seq<string>
    requires Contains(location, Marker)
  {
    Split(Strip(SecondField(location, Marker)), ',')
  }

  /** The characters the export writes coordinates with. */
  predicate IsNumberText(s: string) {
    |s| >= 1 && forall i :: 0 <= i < |s| ==> IsDigit(s[i]) || s[i] == '.' || s[i] == '-'
  }

  /** Number text has nothing for `strip()` to remove. */
  lemma StripNumberText(s: string)
    requires IsNumberText(s)
    ensures Strip(s) == s && Strip(" " + s) == s
  {
    assert !IsSpace(s[0]) && !IsSpace(s[|s| - 1]);
    assert (" " + s)[1..] == s;
  }

  /**
   * The location text the export writes, `Latitude, Longitude: LAT, LON`, gives back exactly the
   * two numbers it was written with.
   */
  lemma LocationRoundTrip(lat: string, lon: string, parseFloat: string -> Option<real>)
    requires IsNumberText(lat) && IsNumberText(lon)
    ensures var r := ParseLocation(Some(Marker + " " + lat + ", " + lon), parseFloat);
      r.Some? <==> parseFloat(lat).Some? && parseFloat(lon).Some?
    ensures var r := ParseLocation(Some(Marker + " " + lat + ", " + lon), parseFloat);
      r.Some? ==> r.value == (parseFloat(lat).value, parseFloat(lon).value)
  {
    var rest := " " + lat + ", " + lon;
    assert Marker + " " + lat + ", " + lon == Marker + rest;
    CoordinatesText(lat, lon);
    MarkerField(rest);
    StripNumberText(lat);
    StripNumberText(lon);
  }

  /** The text after a leading marker, when the rest holds no 'L', is everything behind it. */
  lemma MarkerField(rest: string)
    requires 'L' !in rest
    ensures Contains(Marker + rest, Marker) && SecondField(Marker + rest, Marker) == rest
  {
    var loc := Marker + rest;
    assert At(loc, Marker, 0);
    assert IndexOf(loc, Marker) == Some(0);
    assert loc[|Marker|..] == rest;
    NoOccurrence(rest, Marker);
  }

  /** `" LAT, LON"` strips to `LAT, LON`, which splits at its comma into LAT and `" LON"`. */
  lemma CoordinatesText(lat: string, lon: string)
    requires IsNumberText(lat) && IsNumberText(lon)
    ensures var coords := lat + ", " + lon;
      && 'L' !in " " + lat + ", " + lon
      && " " + lat + ", " + lon == " " + coords
      && Strip(" " + coords) == coords
      && Split(coords, ',') == [lat, " " + lon]
  {
    var coords := lat + ", " + lon;
    NoMarkerLetter(lat, lon);
    assert " " + lat + ", " + lon == " " + coords;
    CoordinatesStrip(coords, lon);
    CoordinatesSplit(lat, lon);
  }

  lemma NoMarkerLetter(lat: string, lon: string)
    requires IsNumberText(lat) && IsNumberText(lon)
    ensures 'L' !in " " + lat + ", " + lon
  {
    var rest := " " + lat + ", " + lon;
    forall i | 0 <= i < |rest| ensures rest[i] != 'L' {
      if 1 <= i <= |lat| {
        assert rest[i] == lat[i - 1];
      } else if i > |lat| + 2 {
        assert rest[i] == lon[i - |lat| - 3];
      }
    }
  }

  lemma CoordinatesSplit(lat: string, lon: string)
    requires IsNumberText(lat) && IsNumberText(lon)
    ensures Split(lat + ", " + lon, ',') == [lat, " " + lon]
  {
    assert ',' !in lat && ',' !in " " + lon;
    assert lat + ", " + lon == lat + [','] + (" " + lon);
    SplitAppend(lat, " " + lon, ',');
    SplitNoSeparator(lat, ',');
    SplitNoSeparator(" " + lon, ',');
  }

  lemma CoordinatesStrip(coords: string, lon: string)
    requires |coords| >= 1 && !IsSpace(coords[0])
    requires IsNumberText(lon) && EndsWith(coords, lon)
    ensures Strip(" " + coords) == coords
  {
    assert (" " + coords)[1..] == coords;
    assert StripLeft(" " + coords) == coords;
    assert coords[|coords| - 1] == lon[|lon| - 1];
  }

  /** The exiftool invocation `add_gps_metadata` makes: magnitudes and hemisphere letters. */
  datatype ExiftoolCall = ExiftoolCall(command: string, latitude: real, latitudeRef: string,
                                       longitude: real, longitudeRef: string, target: string)

  const GpsExtensions := [".jpg", ".jpeg", ".mp4", ".mov", ".avi"]

  function Abs(x: real): real {
    if x >= 0.0 then x else -x
  }

  /** The signed coordinate a magnitude and hemisphere letter stand for. */
  function Signed(magnitude: real, hemisphere: string, negative: string): real {
    if hemisphere == negative then -magnitude else magnitude
  }

  /**
   * `add_gps_metadata`: no call without exiftool, without coordinates, for an extension outside
   * the media list (overlay PNGs included) or when no exiftool command is found.  Otherwise the
   * reference is N (E) exactly for a non-negative latitude (longitude), with the absolute value.
   * `tool` is the command the lookup found: the bundled executable or `exiftool` on the path in
   * metadata.py, `get_exiftool_path()` in scripts/metadata.py.
   */
  function GpsCall(filePath: string, location: Option<string>, hasExiftool: bool, tool: Option<string>,
                   parseFloat: string -> Option<real>): (r: Option<ExiftoolCall>)
    ensures r.Some? <==> hasExiftool && ParseLocation(location, parseFloat).Some?
                         && Lower(Suffix(Name(filePath))) in GpsExtensions && tool.Some?
    ensures r.Some? ==> r.value.command == tool.value && r.value.target == filePath
    ensures r.Some? ==> var (lat, lon) := ParseLocation(location, parseFloat).value;
      r.value.latitude >= 0.0 && r.value.longitude >= 0.0
      && (r.value.latitudeRef == "N" <==> lat >= 0.0) && (r.value.latitudeRef == "S" <==> lat < 0.0)
      && (r.value.longitudeRef == "E" <==> lon >= 0.0) && (r.value.longitudeRef == "W" <==> lon < 0.0)
      && Signed(r.value.latitude, r.value.latitudeRef, "S") == lat
      && Signed(r.value.longitude, r.value.longitudeRef, "W") == lon
  {
    if !hasExiftool then None
    else
      match ParseLocation(location, parseFloat)
      case None => None
      case Some((lat, lon)) =>
        if Lower(Suffix(Name(filePath))) !in GpsExtensions then None
        else if tool.None? then None
        else
          Some(ExiftoolCall(tool.value, Abs(lat), if lat >= 0.0 then "N" else "S",
                            Abs(lon), if lon >= 0.0 then "E" else "W", filePath))
  }

  /**
   * `get_timezone_from_coordinates`: `finder` is the timezone finder when the lookup libraries
   * loaded (None when they did not); its failures read as None.
   */
  function TimezoneFromCoordinates(finder: Option<(real, real) -> Option<string>>, lat: real, lon: real)
    : (r: Option<string>)
    ensures finder.None? ==> r.None?
    ensures finder.Some? ==> r == finder.value(lat, lon)
  {
    match finder
    case None => None
    case Some(lookup) => lookup(lat, lon)
  }

  /** Where a memory's timezone came from: `(name, 'gps')`, `('system', 'system')` or `(None, None)`. */
  datatype TimezoneChoice = Gps(name: string) | System | NoTimezone

  /**
   * `get_timezone_for_memory`: a non-empty name found from the memory's coordinates wins; else
   * the system timezone when fallback is asked for; else none.
   */
  function TimezoneForMemory(memory: Memory, fallbackToSystem: bool, parseFloat: string -> Option<real>,
                             finder: Option<(real, real) -> Option<string>>): (r: TimezoneChoice)
    ensures r.Gps? ==> (r.name != "" && finder.Some?
      && exists lat, lon :: ParseLocation(memory.location, parseFloat) == Some((lat, lon))
                            && finder.value(lat, lon) == Some(r.name))
    ensures ParseLocation(memory.location, parseFloat).None? || finder.None? ==> !r.Gps?
    ensures r.System? <==> !r.Gps? && fallbackToSystem
    ensures r.NoTimezone? <==> !r.Gps? && !fallbackToSystem
    ensures var c := ParseLocation(memory.location, parseFloat);
      r.Gps? <==> c.Some? && finder.Some? && finder.value(c.value.0, c.value.1).Some?
                  && finder.value(c.value.0, c.value.1).value != ""
    ensures var c := ParseLocation(memory.location, parseFloat);
      r.Gps? ==> r == Gps(finder.value(c.value.0, c.value.1).value)
  {
    var fromGps :=
      match ParseLocation(memory.location, parseFloat)
      case Some((lat, lon)) =>
        if finder.Some? then TimezoneFromCoordinates(finder, lat, lon) else None
      case None => None;
    if fromGps.Some? && fromGps.value != "" then Gps(fromGps.value)
    else if fallbackToSystem then System
    else NoTimezone
  }

  /** The folders `update_existing_file_metadata` searches, in order. */
  const MediaFolders := ["images", "videos", "overlays"]

  /** The files of one folder whose names contain the key, as paths, in listing order. */
  function Matching(folder: string, names: seq<string>, key: string): seq<string>
    decreases |names|
  {
    if |names| == 0 then []
    else
      Matching(folder, names[..|names| - 1], key)
      + (if Contains(Last(names), key) then [folder + "/" + Last(names)] else [])
  }

  /** The matching files of every listed folder; a folder missing from the listing does not exist. */
  function AllMatching(folders: seq<string>, listing: map<string, seq<string>>, key: string): seq<string>
    decreases |folders|
  {
    if |folders| == 0 then []
    else
      var f := Last(folders);
      AllMatching(folders[..|folders| - 1], listing, key) + (if f in listing then Matching(f, listing[f], key) else [])
  }

  lemma {:induction false} MatchingExactly(folder: string, names: seq<string>, key: string, p: string)
    ensures p in Matching(folder, names, key) <==> exists n :: n in names && Contains(n, key) && p == folder + "/" + n
    decreases |names|
  {
    if |names| > 0 {
      var init := names[..|names| - 1];
      MatchingExactly(folder, init, key, p);
      assert names == init + [Last(names)];
      assert forall n :: n in names <==> n in init || n == Last(names);
    }
  }

  /**
   * The selection is exact: a path is visited if and only if it is a listed file of one of the
   * searched folders whose name contains the key.
   */
  lemma {:induction false} SelectionExactly(folders: seq<string>, listing: map<string, seq<string>>, key: string,
                                            p: string)
    ensures p in AllMatching(folders, listing, key) <==>
      exists f, n :: f in folders && f in listing && n in listing[f] && Contains(n, key) && p == f + "/" + n
    decreases |folders|
  {
    if |folders| > 0 {
      var init, f := folders[..|folders| - 1], Last(folders);
      SelectionExactly(init, listing, key, p);
      if f in listing {
        MatchingExactly(f, listing[f], key, p);
      }
      assert folders == init + [f];
      assert forall g :: g in folders <==> g in init || g == f;
    }
  }

  /** The GPS calls made for a sequence of files, in order. */
  function GpsCalls(paths: seq<string>, location: Option<string>, hasExiftool: bool, tool: Option<string>,
                    parseFloat: string -> Option<real>): seq<ExiftoolCall>
    decreases |paths|
  {
    if |paths| == 0 then []
    else
      var p := Last(paths);
      GpsCalls(paths[..|paths| - 1], location, hasExiftool, tool, parseFloat)
      + (match GpsCall(p, location, hasExiftool, tool, parseFloat) case Some(c) => [c] case None => [])
  }

  lemma {:induction false} GpsCallsAppend(a: seq<string>, b: seq<string>, location: Option<string>, hasExiftool: bool,
                                          tool: Option<string>, parseFloat: string -> Option<real>)
    ensures GpsCalls(a + b, location, hasExiftool, tool, parseFloat)
            == GpsCalls(a, location, hasExiftool, tool, parseFloat) + GpsCalls(b, location, hasExiftool, tool, parseFloat)
    decreases |b|
  {
    if |b| > 0 {
      var init := b[..|b| - 1];
      assert (a + b)[..|a + b| - 1] == a + init;
      assert Last(a + b) == Last(b);
      GpsCallsAppend(a, init, location, hasExiftool, tool, parseFloat);
    } else {
      assert a + b == a;
    }
  }

  /** One folder's pass: the matching files in listing order, and their GPS calls when the date parses. */
  method VisitFolder(folder: string, names: seq<string>, key: string, dateOk: bool, location: Option<string>,
                     hasExiftool: bool, tool: Option<string>, parseFloat: string -> Option<real>)
    returns (found: seq<string>, calls: seq<ExiftoolCall>)
    ensures found == Matching(folder, names, key)
    ensures calls == if dateOk then GpsCalls(found, location, hasExiftool, tool, parseFloat) else []
  {
    found, calls := [], [];
    for j := 0 to |names|
      invariant found == Matching(folder, names[..j], key)
      invariant calls == if dateOk then GpsCalls(found, location, hasExiftool, tool, parseFloat) else []
    {
      assert names[..j + 1][..j] == names[..j];
      if Contains(names[j], key) {
        var path := folder + "/" + names[j];
        assert (found + [path])[..|found|] == found;
        found := found + [path];
        if dateOk {
          var call := GpsCall(path, location, hasExiftool, tool, parseFloat);
          if call.Some? {
            calls := calls + [call.value];
          }
        }
      }
    }
    assert names[..|names|] == names;
  }

  /**
   * `update_existing_file_metadata`: visits each file of images/, videos/ and overlays/ whose
   * name contains `sid[:8]`.  For each it sets the timestamps from the memory's date and then adds
   * GPS tags; a date `strptime` rejects raises in the first step, which is swallowed, so that file
   * gets neither.  `listing` maps each existing folder to its file names.
   */
  method UpdateExistingFileMetadata(listing: map<string, seq<string>>, memory: Memory, sid: string,
                                    hasExiftool: bool, tool: Option<string>,
                                    parseFloat: string -> Option<real>, strptime: string -> Option<DateTime>)
    returns (visited: seq<string>, stamped: seq<string>, gps: seq<ExiftoolCall>)
    ensures visited == AllMatching(MediaFolders, listing, Take(sid, 8))
    ensures stamped == if strptime(RemoveAll(memory.date, " UTC")).Some? then visited else []
    ensures gps == GpsCalls(stamped, memory.location, hasExiftool, tool, parseFloat)
  {
    var key := Take(sid, 8);
    var dateOk := strptime(RemoveAll(memory.date, " UTC")).Some?;
    visited, gps := [], [];
    for k := 0 to |MediaFolders|
      invariant visited == AllMatching(MediaFolders[..k], listing, key)
      invariant gps == if dateOk then GpsCalls(visited, memory.location, hasExiftool, tool, parseFloat) else []
    {
      var folder := MediaFolders[k];
      assert MediaFolders[..k + 1][..k] == MediaFolders[..k];
      if folder in listing {
        var found, calls := VisitFolder(folder, listing[folder], key, dateOk, memory.location, hasExiftool, tool, parseFloat);
        GpsCallsAppend(visited, found, memory.location, hasExiftool, tool, parseFloat);
        visited := visited + found;
        gps := gps + calls;
      }
    }
    assert MediaFolders[..|MediaFolders|] == MediaFolders;
    stamped := if dateOk then visited else [];
  }
}

=== FILE: paths.dfy ===
/** The parts of POSIX `pathlib.PurePath` the modelled code uses: `name`, `stem` and `suffix`. */
module Paths {
  import opened Wrappers
  import opened Text

  /** The components a POSIX path keeps after parsing: empty and "." parts are dropped. */
  function Kept(parts: seq<string>): (r: seq<string>)
    ensures forall i :: 0 <= i < |r| ==> r[i] != "" && r[i] != "."
  {
    if |parts| == 0 then []
    else (if parts[0] == "" || parts[0] == "." then [] else [parts[0]]) + Kept(parts[1..])
  }

  /** `PurePosixPath(p).name`: the last kept component, "" when there is none. */
  function Name(p: string): string {
    var kept := Kept(Split(p, '/'));
    if |kept| == 0 then "" else Last(kept)
  }

  /** The index of the dot that starts the suffix of a file name, if it has one. */
  function SuffixDot(name: string): Option<nat> {
    match RFind(name, '.')
    case Some(i) => if 0 < i < |name| - 1 then Some(i) else None
    case None => None
  }

  /** `PurePath(name).suffix` */
  function Suffix(name: string): string {
    match SuffixDot(name)
    case Some(i) => name[i..]
    case None => ""
  }

  /** `PurePath(name).stem` */
  function Stem(name: string): (r: string)
    ensures r <= name
  {
    match SuffixDot(name)
    case Some(i) => name[..i]
    case None => name
  }

  /** Stem and suffix split a file name without losing a character. */
  lemma StemSuffix(name: string)
    ensures Stem(name) + Suffix(name) == name
  {
  }

  lemma {:induction false} KeptAppend(a: seq<string>, b: seq<string>)
    ensures Kept(a + b) == Kept(a) + Kept(b)
    decreases |a|
  {
    if |a| == 0 {
      assert a + b == b;
    } else {
      assert (a + b)[1..] == a[1..] + b;
      KeptAppend(a[1..], b);
    }
  }

  /** The `name` of a file under a folder is the file's own name. */
  lemma NameUnderFolder(folder: string, n: string)
    requires '/' !in n && n != "" && n != "."
    ensures Name(folder + "/" + n) == n
  {
    SplitAppend(folder, n, '/');
    SplitNoSeparator(n, '/');
    KeptAppend(Split(folder, '/'), [n]);
    assert Kept([n]) == [n] + Kept([n][1..]);
  }

  /** A plain file name (no directory) is its own `name`. */
  lemma NameOfPlain(s: string)
    requires '/' !in s && s != "" && s != "."
    ensures Name(s) == s
  {
    SplitNoSeparator(s, '/');
    assert Kept([s]) == [s] + Kept([s][1..]);
  }

  /** The suffix of `stem.ext` is `.ext` when ext is non-empty and dot-free. */
  lemma StemOfDotted(stem: string, ext: string)
    requires |stem| >= 1 && |ext| >= 1 && '.' !in ext
    ensures Stem(stem + "." + ext) == stem
    ensures Suffix(stem + "." + ext) == "." + ext
  {
    var name := stem + "." + ext;
    assert name[|stem|] == '.';
    assert name[|stem| + 1..] == ext;
    var i := RFind(name, '.').value;
    assert forall k :: i < k < |name| ==> name[k] == name[i + 1..][k - i - 1];
    assert forall k :: |stem| < k < |name| ==> name[k] == ext[k - |stem| - 1];
    assert i == |stem|;
  }
}

=== FILE: progress.dfy ===
/**
 * The current progress ledger, scripts/progress.py: a JSON object with the partitions
 * `downloaded`, `failed`, `composited.{images,videos}` and `failed_composites.{images,videos}`,
 * updated in place and saved after every change.
 */
module Progress {
  import opened Wrappers
  import opened Records

  /** `downloaded[sid]`: `{date, media_type, timestamp, timezone_converted, local_date}`. */
  datatype DownloadEntry = DownloadEntry(date: string, mediaType: string, timestamp: string,
                                         timezoneConverted: bool, localDate: Option<string>)

  /** The ledger object.  The two composite partitions may be absent from an older file. */
  datatype Ledger = Ledger(downloaded: map<string, DownloadEntry>,
                           failed: map<string, Failure<string>>,
                           composited: Option<Partition<CompositeEntry>>,
                           failedComposites: Option<Partition<Failure<FilePair>>>)
  {
    /** `is_downloaded` */
    predicate IsDownloaded(sid: string) {
      sid in downloaded
    }

    /** `get_failure_count`: 0 for a sid with no tally. */
    function FailureCount(sid: string): int {
      CountOf(failed, sid)
    }

    /** The attempt counts `verify_downloads` reports, by sid. */
    function Attempts(): map<string, int> {
      map s | s in failed :: failed[s].count
    }

    /** `get_composite_failure_count` */
    function CompositeFailureCount(sid: string, kind: MediaKind): int {
      match failedComposites
      case None => 0
      case Some(p) => CountOf(p.Get(kind).GetOr(map[]), sid)
    }

    /** The answer of `is_composited`, once `composited` is present. */
    predicate HasComposite(sid: string, kind: MediaKind) {
      composited.Some? && sid in composited.value.Get(kind).GetOr(map[])
    }

    /** `is_timezone_converted` */
    predicate IsTimezoneConverted(sid: string) {
      sid in downloaded && downloaded[sid].timezoneConverted
    }

    /** `get_utc_date`; None for a sid not downloaded. */
    function UtcDate(sid: string): Option<string> {
      if sid in downloaded then Some(downloaded[sid].date) else None
    }

    /** `get_local_date`; None for a sid not downloaded or not converted yet. */
    function LocalDate(sid: string): Option<string> {
      if sid in downloaded then downloaded[sid].localDate else None
    }
  }

  /** No sid is both downloaded and failed. */
  predicate Disjoint(l: Ledger) {
    l.downloaded.Keys !! l.failed.Keys
  }

  /** The ledger a run starts from when there is no progress file. */
  function EmptyLedger(): (l: Ledger)
    ensures l.downloaded == map[] && l.failed == map[]
    ensures l.composited == Some(Partition(Some(map[]), Some(map[])))
    ensures l.failedComposites == Some(Partition(Some(map[]), Some(map[])))
  {
    Ledger(map[], map[], Some(EmptyPartition()), Some(EmptyPartition()))
  }

  /** The progress file as found on disk. */
  datatype LedgerFile = Absent | Unreadable(reason: string) | InvalidJson(reason: string) | NotObject | Object(ledger: Ledger)

  /** Why loading ends the process (`sys.exit(1)`). */
  datatype Abort = Corrupted(reason: string) | LoadFailed(reason: string)

  /**
   * `_load_progress`: no file gives the empty ledger; a readable object is taken as it is;
   * every other file ends the process and never falls back to the empty ledger.
   */
  function LoadProgress(f: LedgerFile): (r: Result<Ledger, Abort>)
    ensures r.Ok? <==> f.Absent? || f.Object?
    ensures f.Absent? ==> r == Ok(EmptyLedger())
    ensures f.Object? ==> r == Ok(f.ledger)
    ensures f.InvalidJson? ==> r.Err? && r.error.Corrupted?
  {
    match f
    case Absent => Ok(EmptyLedger())
    case Object(l) => Ok(l)
    case InvalidJson(reason) => Err(Corrupted(reason))
    case NotObject => Err(LoadFailed("Progress file is not a JSON object"))
    case Unreadable(reason) => Err(LoadFailed(reason))
  }

  /**
   * `mark_downloaded`: the entry is written (overwriting any earlier one) with conversion
   * flags cleared, the sid's failure tally is dropped, and nothing else changes.  A memory
   * without a media type raises KeyError before anything is written.
   */
  function WithDownloaded(l: Ledger, sid: string, memory: Memory, now: string): (r: Result<Ledger, Raised>)
    ensures r.Err? <==> memory.mediaType.None?
    ensures r.Err? ==> r.error == KeyError("media_type")
    ensures r.Ok? ==> (sid in r.value.downloaded
      && r.value.downloaded[sid] == DownloadEntry(memory.date, memory.mediaType.value, now, false, None))
    ensures r.Ok? ==> r.value.FailureCount(sid) == 0 && !r.value.IsTimezoneConverted(sid)
    ensures r.Ok? ==> r.value.downloaded - {sid} == l.downloaded - {sid} && r.value.failed == l.failed - {sid}
    ensures r.Ok? ==> r.value.composited == l.composited && r.value.failedComposites == l.failedComposites
  {
    match memory.mediaType
    case None => Err(KeyError("media_type"))
    case Some(mediaType) =>
      Ok(l.(downloaded := l.downloaded[sid := DownloadEntry(memory.date, mediaType, now, false, None)],
            failed := l.failed - {sid}))
  }

  /**
   * `record_failure`: one more attempt on the sid's tally (created with the memory's URL if
   * absent) and one more error record at its end; nothing else changes.
   */
  function WithFailure(l: Ledger, sid: string, memory: Memory, message: string, exception: Option<Raised>,
                       now: string): (r: Ledger)
    ensures r.FailureCount(sid) == l.FailureCount(sid) + 1
    ensures sid in r.failed
    ensures r.failed[sid].errors == (if sid in l.failed then l.failed[sid].errors else [])
                                    + [MakeErrorRecord(now, message, exception)]
    ensures r.failed[sid].context == if sid in l.failed then l.failed[sid].context else memory.downloadUrl
    ensures r.failed - {sid} == l.failed - {sid}
    ensures r.downloaded == l.downloaded && r.composited == l.composited && r.failedComposites == l.failedComposites
  {
    var failed := BumpFailure(l.failed, sid, memory.downloadUrl, MakeErrorRecord(now, message, exception));
    assert failed - {sid} == l.failed - {sid};
    l.(failed := failed)
  }

  /** Success and failure keep downloaded and failed apart (a failure only for a sid not downloaded). */
  lemma DisjointKept(l: Ledger, sid: string, memory: Memory, message: string, exception: Option<Raised>,
                     now: string)
    requires Disjoint(l)
    ensures WithDownloaded(l, sid, memory, now).Ok? ==> Disjoint(WithDownloaded(l, sid, memory, now).value)
    ensures !l.IsDownloaded(sid) ==> Disjoint(WithFailure(l, sid, memory, message, exception, now))
  {
    var r := WithFailure(l, sid, memory, message, exception, now);
    assert r.failed.Keys == l.failed.Keys + {sid};
  }

  /** `is_composited` first installs an empty `composited` partition when the file has none. */
  function WithCompositedInstalled(l: Ledger): (r: Ledger)
    ensures r.composited.Some?
    ensures l.composited.Some? ==> r == l
    ensures l.composited.None? ==> r == l.(composited := Some(EmptyPartition()))
  {
    if l.composited.Some? then l else l.(composited := Some(EmptyPartition()))
  }

  /** A ledger change together with the exception the change raised part way, if any. */
  datatype Step = Step(ledger: Ledger, raised: Option<Raised>)

  /**
   * `mark_composited`: the entry goes into the media type's half of `composited` (both halves
   * installed first), and the sid leaves the same half of `failed_composites`.  When that half is
   * missing from an existing `failed_composites`, KeyError is raised after the entry was written.
   */
  function WithComposited(l: Ledger, sid: string, mediaType: string, baseFile: string, overlayFile: string,
                          now: string): (r: Step)
    ensures var k := KindOf(mediaType);
      r.raised.Some? <==> l.failedComposites.Some? && l.failedComposites.value.Get(k).None?
    ensures r.raised.Some? ==> r.raised.value == KeyError(KindOf(mediaType).Key())
    ensures r.raised.Some? ==> r.ledger.failedComposites == l.failedComposites
    ensures var k := KindOf(mediaType);
      r.ledger.HasComposite(sid, k)
      && r.ledger.composited.value.Get(k).value[sid] == CompositeEntry(now, baseFile, overlayFile)
    ensures var k := KindOf(mediaType);
      forall o :: o != k && l.composited.Some? && l.composited.value.Get(o).Some? ==>
        r.ledger.composited.value.Get(o) == l.composited.value.Get(o)
    ensures var k := KindOf(mediaType);
      l.composited.Some? && l.composited.value.Get(k).Some? ==>
        r.ledger.composited.value.Get(k).value - {sid} == l.composited.value.Get(k).value - {sid}
    ensures var k := KindOf(mediaType);
      var before := l.composited.GetOr(EmptyPartition()).Get(k).GetOr(map[]);
      r.ledger.composited.value.Get(k).value - {sid} == before - {sid}
    ensures var k := KindOf(mediaType);
      forall o :: o != k ==> r.ledger.composited.value.Get(o)
                              == Some(l.composited.GetOr(EmptyPartition()).Get(o).GetOr(map[]))
    ensures r.ledger.failedComposites.Some?
    ensures var k := KindOf(mediaType);
      r.raised.None? ==> (r.ledger.CompositeFailureCount(sid, k) == 0
        && r.ledger.failedComposites.value.Get(k).Some?
        && l.failedComposites.GetOr(EmptyPartition()).Get(k).Some?
        && r.ledger.failedComposites.value.Get(k).value - {sid}
           == l.failedComposites.GetOr(EmptyPartition()).Get(k).value - {sid})
    ensures var k := KindOf(mediaType);
      forall o :: o != k ==> r.ledger.failedComposites.value.Get(o) == l.failedComposites.GetOr(EmptyPartition()).Get(o)
    ensures r.ledger.downloaded == l.downloaded && r.ledger.failed == l.failed
  {
    var k := KindOf(mediaType);
    var installed := l.composited.GetOr(EmptyPartition());
    var c := installed.WithBothKeys();
    assert c.Get(k).value == installed.Get(k).GetOr(map[]);
    var c' := c.Put(k, c.Get(k).value[sid := CompositeEntry(now, baseFile, overlayFile)]);
    var fc := l.failedComposites.GetOr(EmptyPartition());
    var l1 := l.(composited := Some(c'), failedComposites := Some(fc));
    match fc.Get(k)
    case None => Step(l1, Some(KeyError(k.Key())))
    case Some(m) => Step(l1.(failedComposites := Some(fc.Put(k, m - {sid}))), None)
  }

  /**
   * `record_composite_failure`: like `record_failure`, in the media type's half of
   * `failed_composites` (both halves installed first), with no error type recorded.
   */
  function WithCompositeFailure(l: Ledger, sid: string, mediaType: string, baseFile: string, overlayFile: string,
                                message: string, now: string): (r: Ledger)
    ensures var k := KindOf(mediaType);
      r.CompositeFailureCount(sid, k) == l.CompositeFailureCount(sid, k) + 1
    ensures var k := KindOf(mediaType);
      forall s, o :: (s != sid || o != k) ==> r.CompositeFailureCount(s, o) == l.CompositeFailureCount(s, o)
    ensures var k := KindOf(mediaType);
      r.failedComposites.Some? && r.failedComposites.value.Get(k).Some? && sid in r.failedComposites.value.Get(k).value
    ensures var k := KindOf(mediaType);
      var errs := r.failedComposites.value.Get(k).value[sid].errors;
      |errs| > 0 && errs[|errs| - 1] == ErrorRecord(now, message, None)
    ensures var k := KindOf(mediaType);
      var before := l.failedComposites.GetOr(EmptyPartition()).Get(k).GetOr(map[]);
      var after := r.failedComposites.value.Get(k).value;
      && after[sid].errors == (if sid in before then before[sid].errors else []) + [ErrorRecord(now, message, None)]
      && after[sid].context == (if sid in before then before[sid].context else FilePair(baseFile, overlayFile))
      && after - {sid} == before - {sid}
    ensures var k := KindOf(mediaType);
      forall o :: o != k ==> r.failedComposites.value.Get(o)
                              == Some(l.failedComposites.GetOr(EmptyPartition()).Get(o).GetOr(map[]))
    ensures r.downloaded == l.downloaded && r.failed == l.failed && r.composited == l.composited
  {
    var k := KindOf(mediaType);
    var before := l.failedComposites.GetOr(EmptyPartition());
    var fc := before.WithBothKeys();
    assert fc.Get(k).value == before.Get(k).GetOr(map[]);
    var m := BumpFailure(fc.Get(k).value, sid, FilePair(baseFile, overlayFile), ErrorRecord(now, message, None));
    assert m - {sid} == fc.Get(k).value - {sid};
    l.(failedComposites := Some(fc.Put(k, m)))
  }

  /**
   * `mark_timezone_converted`: only a downloaded sid is marked converted, with its local date;
   * its other fields and every other sid stay as they were.
   */
  function WithTimezoneConverted(l: Ledger, sid: string, localDate: string): (r: Ledger)
    ensures r.IsTimezoneConverted(sid) <==> l.IsDownloaded(sid)
    ensures r.LocalDate(sid) == if l.IsDownloaded(sid) then Some(localDate) else None
    ensures r.UtcDate(sid) == l.UtcDate(sid)
    ensures r.downloaded.Keys == l.downloaded.Keys
    ensures sid in l.downloaded ==> r.downloaded[sid].mediaType == l.downloaded[sid].mediaType
    ensures sid in l.downloaded ==>
              r.downloaded[sid] == l.downloaded[sid].(timezoneConverted := true, localDate := Some(localDate))
    ensures r.downloaded - {sid} == l.downloaded - {sid}
    ensures r.failed == l.failed && r.composited == l.composited && r.failedComposites == l.failedComposites
  {
    if sid in l.downloaded then
      l.(downloaded := l.downloaded[sid := l.downloaded[sid].(timezoneConverted := true, localDate := Some(localDate))])
    else l
  }

  /** N failures in a row on a sid with no tally leave a count of N and exactly those N errors. */
  lemma RepeatedDownloadFailures(l: Ledger, sid: string, url: string, errs: seq<ErrorRecord>)
    requires sid !in l.failed && |errs| >= 1
    ensures var r := l.(failed := BumpAll(l.failed, sid, url, errs));
      r.FailureCount(sid) == |errs| && r.failed[sid].errors == errs && r.failed[sid].context == url
  {
    RepeatedFailures(l.failed, sid, url, errs);
  }

  /** The tracker: the ledger in memory, the progress file and its `.backup` copy. */
  class ProgressTracker {
    var ledger: Ledger
    var file: LedgerFile
    var backup: LedgerFile

    constructor Init(loaded: Ledger, stored: LedgerFile, backupFile: LedgerFile)
      ensures ledger == loaded && file == stored && backup == backupFile
    {
      ledger := loaded;
      file := stored;
      backup := backupFile;
    }

    /** `ProgressTracker(progress_file)`: null when loading ends the process. */
    static method Open(stored: LedgerFile, backupFile: LedgerFile) returns (t: ProgressTracker?)
      ensures t == null <==> LoadProgress(stored).Err?
      ensures t != null ==> (fresh(t) && t.ledger == LoadProgress(stored).value
        && t.file == stored && t.backup == backupFile)
    {
      var loaded := LoadProgress(stored);
      if loaded.Err? {
        t := null;
      } else {
        t := new ProgressTracker.Init(loaded.value, stored, backupFile);
      }
    }

    /** `save_progress`: an existing file becomes the backup and the ledger replaces it. */
    method Save()
      modifies this
      ensures ledger == old(ledger) && file == Object(ledger)
      ensures backup == if old(file).Absent? then old(backup) else old(file)
    {
      if !file.Absent? {
        backup := file;
      }
      file := Object(ledger);
    }

    /** `mark_downloaded`, saved; a KeyError leaves ledger and file as they were. */
    method MarkDownloaded(sid: string, memory: Memory, now: string) returns (raised: Option<Raised>)
      modifies this
      ensures match WithDownloaded(old(ledger), sid, memory, now)
        case Ok(l) => raised.None? && ledger == l && file == Object(l)
        case Err(e) => raised == Some(e) && ledger == old(ledger) && file == old(file) && backup == old(backup)
    {
      match WithDownloaded(ledger, sid, memory, now)
      case Err(e) =>
        raised := Some(e);
      case Ok(l) =>
        ledger := l;
        Save();
        raised := None;
    }

    /** `record_failure`, saved. */
    method RecordFailure(sid: string, memory: Memory, message: string, exception: Option<Raised>, now: string)
      modifies this
      ensures ledger == WithFailure(old(ledger), sid, memory, message, exception, now) && file == Object(ledger)
    {
      ledger := WithFailure(ledger, sid, memory, message, exception, now);
      Save();
    }

    /** `is_composited`: installs an empty `composited` partition if missing, without saving. */
    method IsComposited(sid: string, mediaType: string) returns (b: bool)
      modifies this
      ensures ledger == WithCompositedInstalled(old(ledger)) && file == old(file) && backup == old(backup)
      ensures b == ledger.HasComposite(sid, KindOf(mediaType))
    {
      ledger := WithCompositedInstalled(ledger);
      b := ledger.HasComposite(sid, KindOf(mediaType));
    }

    /** `mark_composited`, saved unless the KeyError was raised part way. */
    method MarkComposited(sid: string, mediaType: string, baseFile: string, overlayFile: string, now: string)
      returns (raised: Option<Raised>)
      modifies this
      ensures var step := WithComposited(old(ledger), sid, mediaType, baseFile, overlayFile, now);
        ledger == step.ledger && raised == step.raised
      ensures raised.None? ==> file == Object(ledger)
      ensures raised.Some? ==> file == old(file) && backup == old(backup)
    {
      var step := WithComposited(ledger, sid, mediaType, baseFile, overlayFile, now);
      ledger := step.ledger;
      raised := step.raised;
      if raised.None? {
        Save();
      }
    }

    /** `record_composite_failure`, saved. */
    method RecordCompositeFailure(sid: string, mediaType: string, baseFile: string, overlayFile: string,
                                  message: string, now: string)
      modifies this
      ensures ledger == WithCompositeFailure(old(ledger), sid, mediaType, baseFile, overlayFile, message, now)
      ensures file == Object(ledger)
    {
      ledger := WithCompositeFailure(ledger, sid, mediaType, baseFile, overlayFile, message, now);
      Save();
    }

    /** `mark_timezone_converted`: saved only when the sid is downloaded. */
    method MarkTimezoneConverted(sid: string, localDate: string)
      modifies this
      ensures ledger == WithTimezoneConverted(old(ledger), sid, localDate)
      ensures if old(ledger).IsDownloaded(sid) then file == Object(ledger)
              else file == old(file) && backup == old(backup)
    {
      if ledger.IsDownloaded(sid) {
        ledger := WithTimezoneConverted(ledger, sid, localDate);
        Save();
      }
    }

    /** `verify_downloads`: each memory is counted downloaded, listed failed or listed missing. */
    method VerifyDownloads(memories: seq<Memory>) returns (report: DownloadReport)
      ensures report == ReportOf(memories, ledger.downloaded.Keys, ledger.Attempts())
    {
      var done, attempts := ledger.downloaded.Keys, ledger.Attempts();
      report := DownloadReport(|memories|, 0, [], []);
      for i := 0 to |memories|
        invariant report == DownloadReport(|memories|, DownloadedCount(memories[..i], done),
                                           MissingOf(memories[..i], done, attempts), FailedOf(memories[..i], done, attempts))
      {
        var m := memories[i];
        assert memories[..i + 1][..i] == memories[..i];
        if m.sid in ledger.downloaded {
          report := report.(downloaded := report.downloaded + 1);
        } else if m.sid in ledger.failed {
          report := report.(failed := report.failed + [FailedItem(m.sid, m.date, ledger.failed[m.sid].count)]);
        } else {
          report := report.(missing := report.missing + [MissingItem(m.sid, m.date)]);
        }
      }
      assert memories[..|memories|] == memories;
    }
  }
}

=== FILE: records.dfy ===
/**
 * The records both progress ledgers share: a parsed memory, an error record, a failure
 * tally, the `{images, videos}` split of composite bookkeeping, and the report that
 * `verify_downloads` builds from a list of memories.
 */
module Records {
  import opened Wrappers
  import opened Text

  /**
   * One row of the export as the HTML parser emits it.  Date, download URL and sid are always
   * present in an emitted row; the media type and location only when their column had text.
   */
  datatype Memory = Memory(date: string, mediaType: Option<string>, location: Option<string>,
                           downloadUrl: string, sid: string)

  /** A raised exception: its class name and `str(e)`. */
  datatype Raised = Raised(typeName: string, message: string)

  /** A `KeyError` for a missing dictionary key; `str()` of it quotes the key. */
  function KeyError(key: string): Raised {
    Raised("KeyError", "'" + key + "'")
  }

  /** `{timestamp, error}` plus `error_type` when an exception object was passed. */
  datatype ErrorRecord = ErrorRecord(timestamp: string, error: string, errorType: Option<string>)

  /** The error record `record_failure` appends. */
  function MakeErrorRecord(timestamp: string, message: string, exception: Option<Raised>): (e: ErrorRecord)
    ensures e.error == message && e.timestamp == timestamp
    ensures e.errorType.Some? <==> exception.Some?
    ensures exception.Some? ==> e.errorType.value == exception.value.typeName
  {
    ErrorRecord(timestamp, message, if exception.Some? then Some(exception.value.typeName) else None)
  }

  /**
   * A failure tally: `{count, errors, ...}`, where the rest is the download URL for a download
   * failure and the base and overlay paths for a composite failure.
   */
  datatype Failure<C> = Failure(count: int, errors: seq<ErrorRecord>, context: C)

  /** The base and overlay files a composite failure was recorded for. */
  datatype FilePair = FilePair(baseFile: string, overlayFile: string)

  /**
   * One more failed attempt: a missing tally is first created as `{count: 0, errors: [], ...}`,
   * then its count goes up by one and the error is appended.  No other key changes.
   */
  function BumpFailure<C>(tallies: map<string, Failure<C>>, sid: string, context: C, err: ErrorRecord)
    : (r: map<string, Failure<C>>)
    ensures r.Keys == tallies.Keys + {sid}
    ensures sid in tallies ==> r[sid] == tallies[sid].(count := tallies[sid].count + 1,
                                                      errors := tallies[sid].errors + [err])
    ensures sid !in tallies ==> r[sid] == Failure(1, [err], context)
    ensures forall s :: s in tallies && s != sid ==> r[s] == tallies[s]
  {
    var start := if sid in tallies then tallies[sid] else Failure(0, [], context);
    tallies[sid := start.(count := start.count + 1, errors := start.errors + [err])]
  }

  /** `failed.get(sid, {}).get('count', 0)` for a well-formed tally map. */
  function CountOf<C>(tallies: map<string, Failure<C>>, sid: string): int {
    if sid in tallies then tallies[sid].count else 0
  }

  /** Records a whole sequence of failed attempts for one sid, in order. */
  function BumpAll<C>(tallies: map<string, Failure<C>>, sid: string, context: C, errs: seq<ErrorRecord>)
    : map<string, Failure<C>>
    decreases |errs|
  {
    if |errs| == 0 then tallies
    else BumpAll(BumpFailure(tallies, sid, context, errs[0]), sid, context, errs[1..])
  }

  /**
   * After N failures on a sid with no tally, the count is N and the error list is exactly those
   * N errors in order; the context is the one the first failure gave.
   */
  lemma {:induction false} RepeatedFailures<C>(tallies: map<string, Failure<C>>, sid: string, context: C,
                                               errs: seq<ErrorRecord>)
    requires sid !in tallies && |errs| >= 1
    ensures var r := BumpAll(tallies, sid, context, errs);
      sid in r && r[sid] == Failure(|errs|, errs, context)
  {
    var t1 := BumpFailure(tallies, sid, context, errs[0]);
    FurtherFailures(t1, sid, context, errs[1..]);
    assert [errs[0]] + errs[1..] == errs;
  }

  /** Each further failure adds one to the count and its error to the end of the list. */
  lemma {:induction false} FurtherFailures<C>(tallies: map<string, Failure<C>>, sid: string, context: C,
                                              errs: seq<ErrorRecord>)
    requires sid in tallies
    ensures var r := BumpAll(tallies, sid, context, errs);
      sid in r && r[sid] == tallies[sid].(count := tallies[sid].count + |errs|, errors := tallies[sid].errors + errs)
    decreases |errs|
  {
    if |errs| > 0 {
      var t1 := BumpFailure(tallies, sid, context, errs[0]);
      FurtherFailures(t1, sid, context, errs[1..]);
      assert tallies[sid].errors + [errs[0]] + errs[1..] == tallies[sid].errors + errs;
    }
  }

  /** Failures of one sid leave every other sid's tally as it was. */
  lemma {:induction false} FailuresAreLocal<C>(tallies: map<string, Failure<C>>, sid: string, context: C,
                                               errs: seq<ErrorRecord>, other: string)
    requires other != sid
    ensures var r := BumpAll(tallies, sid, context, errs);
      (other in r <==> other in tallies) && (other in r ==> r[other] == tallies[other])
    decreases |errs|
  {
    if |errs| > 0 {
      FailuresAreLocal(BumpFailure(tallies, sid, context, errs[0]), sid, context, errs[1..], other);
    }
  }

  /** Which half of a composite partition a media type selects: `'images' if t == 'image' else 'videos'`. */
  datatype MediaKind = Images | Videos {
    function Key(): string {
      if Images? then "images" else "videos"
    }
  }

  function KindOf(mediaType: string): MediaKind {
    if mediaType == "image" then Images else Videos
  }

  /** `{'images': {...}, 'videos': {...}}`; a hand-edited file may lack either key. */
  datatype Partition<T> = Partition(images: Option<map<string, T>>, videos: Option<map<string, T>>) {
    function Get(k: MediaKind): Option<map<string, T>> {
      if k == Images then images else videos
    }

    function Put(k: MediaKind, m: map<string, T>): (r: Partition<T>)
      ensures r.Get(k) == Some(m)
      ensures forall other :: other != k ==> r.Get(other) == Get(other)
    {
      if k == Images then this.(images := Some(m)) else this.(videos := Some(m))
    }

    /** Installs an empty map under each key that is missing. */
    function WithBothKeys(): (r: Partition<T>)
      ensures r.images.Some? && r.videos.Some?
      ensures images.Some? ==> r.images == images
      ensures videos.Some? ==> r.videos == videos
    {
      Partition(Some(images.GetOr(map[])), Some(videos.GetOr(map[])))
    }
  }

  function EmptyPartition<T>(): Partition<T> {
    Partition(Some(map[]), Some(map[]))
  }

  /** `{timestamp, base_file, overlay_file}`: one finished composite. */
  datatype CompositeEntry = CompositeEntry(timestamp: string, baseFile: string, overlayFile: string)

  /** The attempts `verify_downloads` reports for a failed memory. */
  datatype FailedItem = FailedItem(sid: string, date: string, attempts: int)

  datatype MissingItem = MissingItem(sid: string, date: string)

  /** `{total, downloaded, missing, failed}` as `verify_downloads` returns it. */
  datatype DownloadReport = DownloadReport(total: nat, downloaded: nat, missing: seq<MissingItem>,
                                           failed: seq<FailedItem>)

  /** How many memories are in the downloaded set. */
  function DownloadedCount(memories: seq<Memory>, done: set<string>): nat
    decreases |memories|
  {
    if |memories| == 0 then 0
    else DownloadedCount(memories[..|memories| - 1], done) + (if Last(memories).sid in done then 1 else 0)
  }

  /** The memories not downloaded but with a failure tally, in input order, with their attempt counts. */
  function FailedOf(memories: seq<Memory>, done: set<string>, attempts: map<string, int>): seq<FailedItem>
    decreases |memories|
  {
    if |memories| == 0 then []
    else
      var m := Last(memories);
      FailedOf(memories[..|memories| - 1], done, attempts)
      + (if m.sid !in done && m.sid in attempts then [FailedItem(m.sid, m.date, attempts[m.sid])] else [])
  }

  /** The memories neither downloaded nor failed, in input order. */
  function MissingOf(memories: seq<Memory>, done: set<string>, attempts: map<string, int>): seq<MissingItem>
    decreases |memories|
  {
    if |memories| == 0 then []
    else
      var m := Last(memories);
      MissingOf(memories[..|memories| - 1], done, attempts)
      + (if m.sid !in done && m.sid !in attempts then [MissingItem(m.sid, m.date)] else [])
  }

  /** The report `verify_downloads` should produce. */
  function ReportOf(memories: seq<Memory>, done: set<string>, attempts: map<string, int>): DownloadReport {
    DownloadReport(|memories|, DownloadedCount(memories, done), MissingOf(memories, done, attempts),
                   FailedOf(memories, done, attempts))
  }

  /** Every memory is counted exactly once: downloaded, failed and missing add up to the total. */
  lemma {:induction false} ReportAddsUp(memories: seq<Memory>, done: set<string>, attempts: map<string, int>)
    ensures var r := ReportOf(memories, done, attempts);
      r.downloaded + |r.failed| + |r.missing| == r.total
    decreases |memories|
  {
    if |memories| > 0 {
      ReportAddsUp(memories[..|memories| - 1], done, attempts);
    }
  }

  /**
   * Each memory lands where the ledger says: downloaded first, else failed with its attempt
   * count, else missing.
   */
  lemma {:induction false} ReportPlacesEachMemory(memories: seq<Memory>, done: set<string>,
                                                   attempts: map<string, int>, i: nat)
    requires i < |memories|
    ensures var m := memories[i];
      m.sid !in done && m.sid in attempts ==> FailedItem(m.sid, m.date, attempts[m.sid]) in FailedOf(memories, done, attempts)
    ensures var m := memories[i];
      m.sid !in done && m.sid !in attempts ==> MissingItem(m.sid, m.date) in MissingOf(memories, done, attempts)
    decreases |memories|
  {
    var n := |memories| - 1;
    if i < n {
      assert memories[..n][i] == memories[i];
      ReportPlacesEachMemory(memories[..n], done, attempts, i);
    }
  }

  /** Nothing enters the failed or missing lists that the ledger does not put there. */
  lemma {:induction false} ReportIsSound(memories: seq<Memory>, done: set<string>, attempts: map<string, int>)
    ensures forall f :: f in FailedOf(memories, done, attempts) ==>
      f.sid !in done && f.sid in attempts && f.attempts == attempts[f.sid]
      && exists i :: 0 <= i < |memories| && memories[i].sid == f.sid && memories[i].date == f.date
    ensures forall x :: x in MissingOf(memories, done, attempts) ==>
      x.sid !in done && x.sid !in attempts
      && exists i :: 0 <= i < |memories| && memories[i].sid == x.sid && memories[i].date == x.date
    decreases |memories|
  {
    if |memories| > 0 {
      var n := |memories| - 1;
      ReportIsSound(memories[..n], done, attempts);
      forall i | 0 <= i < n ensures memories[..n][i] == memories[i] { }
    }
  }
}

=== FILE: snap_parser.dfy ===
/**
 * The export's HTML table reader, `MemoriesParser` in snap_parser.py (and its identical copy
 * under scripts/): a state machine over start-tag, text and end-tag events that collects one
 * memory per table row with a date, a download link and a sid.
 *
 * Tokenising the HTML is the library's job and is not modelled; the regular expression that
 * finds the link in an `onclick` handler is `matchDownload` (its first group, or None), and
 * reading the `sid` query parameter of a URL (`parse_qs(urlparse(url).query)['sid'][0]`) is `sidOf`:
 * the sid, None when the query has no `sid`, or the ValueError `urlparse` raises on a malformed
 * URL (an unclosed `[` in the host, say).
 */
module SnapParser {
  import opened Wrappers
  import opened Text
  import opened Records

  /** A tag's attributes as the tokenizer gives them; an attribute written without a value has None. */
  type Attrs = seq<(string, Option<string>)>

  datatype Event = StartTag(tag: string, attrs: Attrs) | Data(text: string) | EndTag(tag: string)

  /** The keys `current_row` may hold before the row is emitted. */
  datatype Row = Row(date: Option<string>, mediaType: Option<string>, location: Option<string>,
                     downloadUrl: Option<string>)

  const EmptyRow := Row(None, None, None, None)

  datatype ParserState = ParserState(memories: seq<Memory>, row: Row, currentTag: Option<string>,
                                     tdCount: int, inTableRow: bool)

  /** `__init__`: no memories, an empty row, no current tag, no column counted, outside a row. */
  const Initial := ParserState([], EmptyRow, None, 0, false)

  /** `dict(attrs).get(name)`: the last value given for the name, if the name occurs. */
  function AttrValue(attrs: Attrs, name: string): (r: Option<Option<string>>)
    ensures r.Some? <==> exists i :: 0 <= i < |attrs| && attrs[i].0 == name
    ensures r.Some? ==> exists i :: 0 <= i < |attrs| && attrs[i] == (name, r.value)
    decreases |attrs|
  {
    if |attrs| == 0 then None
    else if Last(attrs).0 == name then Some(Last(attrs).1)
    else
      var r := AttrValue(attrs[..|attrs| - 1], name);
      assert forall i :: 0 <= i < |attrs| - 1 ==> attrs[..|attrs| - 1][i] == attrs[i];
      r
  }

  /** The text `handle_data` refuses: empty after stripping, or a link caption. */
  predicate IsCaption(d: string) {
    d == "" || d == "Download" || d == "Downloaded"
  }

  /** The message of the TypeError `re.search` raises when handed None. */
  const NoneIsNotText := "expected string or bytes-like object, got 'NoneType'"

  /** The text `attrs_dict.get('onclick', '')` hands to the pattern: "" when there is no `onclick`. */
  function OnclickText(attrs: Attrs): string {
    match AttrValue(attrs, "onclick")
    case Some(Some(text)) => text
    case _ => ""
  }

  /**
   * `handle_starttag`: `<tr>` opens a fresh row; `<td>` inside a row marks the current tag;
   * `<a>` inside a row takes the download link from its `onclick` handler when the pattern
   * matches.  An `onclick` written without a value makes the pattern search raise TypeError.
   */
  function StartTagStep(s: ParserState, tag: string, attrs: Attrs, matchDownload: string -> Option<string>)
    : (r: Result<ParserState, Raised>)
    ensures tag == "tr" ==> r == Ok(s.(inTableRow := true, row := EmptyRow, tdCount := 0))
    ensures r.Err? <==> tag == "a" && s.inTableRow && AttrValue(attrs, "onclick") == Some(None)
    ensures r.Ok? ==> r.value.memories == s.memories
    ensures r.Ok? && tag != "tr" ==> r.value.inTableRow == s.inTableRow && r.value.tdCount == s.tdCount
    ensures r.Ok? && !s.inTableRow && tag != "tr" ==> r.value == s
    ensures tag == "td" && s.inTableRow ==> r == Ok(s.(currentTag := Some("td")))
    ensures s.inTableRow && tag != "tr" && tag != "td" && tag != "a" ==> r == Ok(s)
    ensures tag == "a" && s.inTableRow && r.Ok? ==>
              r.value == s.(row := s.row.(downloadUrl := match matchDownload(OnclickText(attrs))
                                                         case Some(url) => Some(url)
                                                         case None => s.row.downloadUrl))
  {
    if tag == "tr" then Ok(s.(inTableRow := true, row := EmptyRow, tdCount := 0))
    else if tag == "td" && s.inTableRow then Ok(s.(currentTag := Some("td")))
    else if tag == "a" && s.inTableRow then
      match AttrValue(attrs, "onclick")
      case Some(None) => Err(Raised("TypeError", NoneIsNotText))
      case Some(Some(onclick)) => Ok(WithLink(s, onclick, matchDownload))
      case None => Ok(WithLink(s, "", matchDownload))
    else Ok(s)
  }

  /** The row takes the link the pattern finds in the handler text, if it finds one. */
  function WithLink(s: ParserState, onclick: string, matchDownload: string -> Option<string>): ParserState {
    match matchDownload(onclick)
    case Some(url) => s.(row := s.row.(downloadUrl := Some(url)))
    case None => s
  }

  /**
   * `handle_data`: inside a `<td>` of a row, stripped text that is not a caption is stored in
   * the column the row has reached (date, media type, location), replacing what was there;
   * text in later columns and everywhere else is ignored.
   */
  function DataStep(s: ParserState, text: string): (r: ParserState)
    ensures r.memories == s.memories && r.currentTag == s.currentTag && r.tdCount == s.tdCount
    ensures r.inTableRow == s.inTableRow && r.row.downloadUrl == s.row.downloadUrl
    ensures r != s ==> s.currentTag == Some("td") && s.inTableRow && !IsCaption(Strip(text)) && 0 <= s.tdCount <= 2
    ensures var d := Strip(text);
      s.currentTag == Some("td") && s.inTableRow && !IsCaption(d) ==>
        (s.tdCount == 0 ==> r.row == s.row.(date := Some(d)))
        && (s.tdCount == 1 ==> r.row == s.row.(mediaType := Some(d)))
        && (s.tdCount == 2 ==> r.row == s.row.(location := Some(d)))
  {
    if s.currentTag == Some("td") && s.inTableRow then
      var d := Strip(text);
      if !IsCaption(d) then
        if s.tdCount == 0 then s.(row := s.row.(date := Some(d)))
        else if s.tdCount == 1 then s.(row := s.row.(mediaType := Some(d)))
        else if s.tdCount == 2 then s.(row := s.row.(location := Some(d)))
        else s
      else s
    else s
  }

  /** Whether the sid is looked up at the row's `</tr>`: the row has a link and a date. */
  predicate HasLinkAndDate(row: Row) {
    row.downloadUrl.Some? && row.date.Some?
  }

  /** Whether a row is emitted at its `</tr>`: it has a link and a date, and the link a sid. */
  predicate Emits(row: Row, sidOf: string -> Result<Option<string>, Raised>) {
    HasLinkAndDate(row) && sidOf(row.downloadUrl.value).Ok? && sidOf(row.downloadUrl.value).value.Some?
  }

  /** The memory a row becomes when it is emitted. */
  function MemoryOf(row: Row, sidOf: string -> Result<Option<string>, Raised>): Memory
    requires Emits(row, sidOf)
  {
    Memory(row.date.value, row.mediaType, row.location, row.downloadUrl.value, sidOf(row.downloadUrl.value).value.value)
  }

  /** The state a handler leaves and the exception it raised, if any. */
  datatype Outcome = Outcome(state: ParserState, raised: Option<Raised>)

  /**
   * `handle_endtag`: `</td>` always counts a column and clears the current tag; `</tr>` inside a
   * row closes it and appends a copy of the row, with its sid, exactly when the row emits.  The
   * row is closed before the sid is looked up, so a URL `urlparse` rejects leaves it closed.
   */
  function EndTagStep(s: ParserState, tag: string, sidOf: string -> Result<Option<string>, Raised>): (r: Outcome)
    ensures tag == "td" ==> r == Outcome(s.(tdCount := s.tdCount + 1, currentTag := None), None)
    ensures tag == "tr" && s.inTableRow ==> !r.state.inTableRow && r.state.row == s.row
    ensures r.raised.Some? <==>
              tag == "tr" && s.inTableRow && HasLinkAndDate(s.row) && sidOf(s.row.downloadUrl.value).Err?
    ensures r.raised.Some? ==> r.raised.value == sidOf(s.row.downloadUrl.value).error
    ensures tag == "tr" && s.inTableRow && Emits(s.row, sidOf) ==>
              r.state.memories == s.memories + [MemoryOf(s.row, sidOf)]
    ensures !(tag == "tr" && s.inTableRow && Emits(s.row, sidOf)) ==> r.state.memories == s.memories
    ensures tag != "td" && !(tag == "tr" && s.inTableRow) ==> r == Outcome(s, None)
  {
    if tag == "td" then Outcome(s.(tdCount := s.tdCount + 1, currentTag := None), None)
    else if tag == "tr" && s.inTableRow then
      var closed := s.(inTableRow := false);
      if !HasLinkAndDate(s.row) then Outcome(closed, None)
      else match sidOf(s.row.downloadUrl.value)
        case Err(e) => Outcome(closed, Some(e))
        case Ok(None) => Outcome(closed, None)
        case Ok(Some(_)) => Outcome(closed.(memories := s.memories + [MemoryOf(s.row, sidOf)]), None)
    else Outcome(s, None)
  }

  /** One event handled: the state it leaves and the exception it raised, if any. */
  function Step(s: ParserState, e: Event, matchDownload: string -> Option<string>,
                sidOf: string -> Result<Option<string>, Raised>): Outcome
  {
    match e
    case StartTag(tag, attrs) =>
      (match StartTagStep(s, tag, attrs, matchDownload)
       case Ok(next) => Outcome(next, None)
       case Err(e) => Outcome(s, Some(e)))
    case Data(text) => Outcome(DataStep(s, text), None)
    case EndTag(tag) => EndTagStep(s, tag, sidOf)
  }

  function Run(s: ParserState, events: seq<Event>, matchDownload: string -> Option<string>,
               sidOf: string -> Result<Option<string>, Raised>): Outcome
    decreases |events|
  {
    if |events| == 0 then Outcome(s, None)
    else
      var o := Step(s, events[0], matchDownload, sidOf);
      if o.raised.Some? then o else Run(o.state, events[1..], matchDownload, sidOf)
  }

  /** `memories` only grows, at its end: what was collected is never changed or reordered. */
  lemma {:induction false} RunOnlyAppends(s: ParserState, events: seq<Event>, matchDownload: string -> Option<string>,
                                          sidOf: string -> Result<Option<string>, Raised>)
    ensures s.memories <= Run(s, events, matchDownload, sidOf).state.memories
    decreases |events|
  {
    if |events| > 0 {
      var o := Step(s, events[0], matchDownload, sidOf);
      if o.raised.None? {
        RunOnlyAppends(o.state, events[1..], matchDownload, sidOf);
      }
    }
  }

  /** A collected memory is complete: a non-empty date that is not a caption, and the sid its link carries. */
  predicate Complete(m: Memory, sidOf: string -> Result<Option<string>, Raised>) {
    !IsCaption(m.date) && sidOf(m.downloadUrl) == Ok(Some(m.sid))
  }

  /** The row being built holds no caption or empty text as its date. */
  predicate RowClean(row: Row) {
    row.date.Some? ==> !IsCaption(row.date.value)
  }

  predicate Collected(s: ParserState, sidOf: string -> Result<Option<string>, Raised>) {
    RowClean(s.row) && forall m :: m in s.memories ==> Complete(m, sidOf)
  }

  /** Every memory a run collects, from the initial state on, is complete. */
  lemma {:induction false} RunCollectsComplete(s: ParserState, events: seq<Event>, matchDownload: string -> Option<string>,
                                              sidOf: string -> Result<Option<string>, Raised>)
    requires Collected(s, sidOf)
    ensures Collected(Run(s, events, matchDownload, sidOf).state, sidOf)
    decreases |events|
  {
    if |events| > 0 {
      var o := Step(s, events[0], matchDownload, sidOf);
      assert Collected(o.state, sidOf);
      if o.raised.None? {
        RunCollectsComplete(o.state, events[1..], matchDownload, sidOf);
      }
    }
  }

  /** Running two event lists one after the other is running their concatenation. */
  lemma {:induction false} RunAppend(s: ParserState, a: seq<Event>, b: seq<Event>, matchDownload: string -> Option<string>,
                                     sidOf: string -> Result<Option<string>, Raised>)
    ensures var first := Run(s, a, matchDownload, sidOf);
      Run(s, a + b, matchDownload, sidOf)
      == if first.raised.Some? then first else Run(first.state, b, matchDownload, sidOf)
    decreases |a|
  {
    if |a| == 0 {
      assert a + b == b;
    } else {
      assert (a + b)[0] == a[0] && (a + b)[1..] == a[1..] + b;
      var o := Step(s, a[0], matchDownload, sidOf);
      if o.raised.None? {
        RunAppend(o.state, a[1..], b, matchDownload, sidOf);
      }
    }
  }

  /** A table cell holding text: `<td>text</td>`. */
  function TextCell(text: string): seq<Event> {
    [StartTag("td", []), Data(text), EndTag("td")]
  }

  /** The export's link cell: `<td><a onclick="...">Download</a></td>`. */
  function LinkCell(onclick: string): seq<Event> {
    [StartTag("td", []), StartTag("a", [("onclick", Some(onclick))]), Data("Download"), EndTag("a"), EndTag("td")]
  }

  /** One row of the export's table: date, media type, location and the download link. */
  function ExportRow(date: string, mediaType: string, location: string, onclick: string): seq<Event> {
    [StartTag("tr", [])] + TextCell(date) + TextCell(mediaType) + TextCell(location) + LinkCell(onclick)
    + [EndTag("tr")]
  }

  /** Text as the export writes it in a cell: nothing for `strip()` to remove, and not a caption. */
  predicate CellText(text: string) {
    Strip(text) == text && !IsCaption(text)
  }

  /** The column a cell fills, by its position in the row. */
  function WithColumn(row: Row, column: int, text: string): Row {
    if column == 0 then row.(date := Some(text))
    else if column == 1 then row.(mediaType := Some(text))
    else row.(location := Some(text))
  }

  lemma TextCellRead(s: ParserState, text: string, matchDownload: string -> Option<string>,
                     sidOf: string -> Result<Option<string>, Raised>)
    requires s.inTableRow && 0 <= s.tdCount <= 2 && CellText(text)
    ensures Run(s, TextCell(text), matchDownload, sidOf)
            == Outcome(s.(row := WithColumn(s.row, s.tdCount, text), tdCount := s.tdCount + 1, currentTag := None), None)
  {
    var e := TextCell(text);
    var s1 := s.(currentTag := Some("td"));
    var s2 := s1.(row := WithColumn(s.row, s.tdCount, text));
    var s3 := s2.(tdCount := s.tdCount + 1, currentTag := None);
    assert Step(s, e[0], matchDownload, sidOf) == Outcome(s1, None);
    assert Run(s, e, matchDownload, sidOf) == Run(s1, e[1..], matchDownload, sidOf);
    assert Step(s1, e[1], matchDownload, sidOf) == Outcome(s2, None);
    assert Run(s1, e[1..], matchDownload, sidOf) == Run(s2, e[2..], matchDownload, sidOf);
    assert Step(s2, e[2], matchDownload, sidOf) == Outcome(s3, None);
    assert Run(s2, e[2..], matchDownload, sidOf) == Run(s3, [], matchDownload, sidOf);
  }

  lemma LinkCellRead(s: ParserState, onclick: string, url: string, matchDownload: string -> Option<string>,
                     sidOf: string -> Result<Option<string>, Raised>)
    requires s.inTableRow && matchDownload(onclick) == Some(url)
    ensures Run(s, LinkCell(onclick), matchDownload, sidOf)
            == Outcome(s.(row := s.row.(downloadUrl := Some(url)), tdCount := s.tdCount + 1, currentTag := None), None)
  {
    var attrs: Attrs := [("onclick", Some(onclick))];
    assert AttrValue(attrs, "onclick") == Some(Some(onclick));
    var s1 := s.(currentTag := Some("td"));
    var s2 := s1.(row := s.row.(downloadUrl := Some(url)));
    var s3 := s2.(tdCount := s.tdCount + 1, currentTag := None);
    var e := LinkCell(onclick);
    assert Step(s, e[0], matchDownload, sidOf) == Outcome(s1, None);
    assert Run(s, e, matchDownload, sidOf) == Run(s1, e[1..], matchDownload, sidOf);
    assert Step(s1, e[1], matchDownload, sidOf) == Outcome(s2, None);
    assert Run(s1, e[1..], matchDownload, sidOf) == Run(s2, e[2..], matchDownload, sidOf);
    assert Step(s2, e[2], matchDownload, sidOf) == Outcome(s2, None);
    assert Run(s2, e[2..], matchDownload, sidOf) == Run(s2, e[3..], matchDownload, sidOf);
    assert Step(s2, e[3], matchDownload, sidOf) == Outcome(s2, None);
    assert Run(s2, e[3..], matchDownload, sidOf) == Run(s2, e[4..], matchDownload, sidOf);
    assert Step(s2, e[4], matchDownload, sidOf) == Outcome(s3, None);
    assert Run(s2, e[4..], matchDownload, sidOf) == Run(s3, [], matchDownload, sidOf);
  }

  /** The three text cells of a freshly opened row fill date, media type and location in that order. */
  lemma TextCellsRead(s0: ParserState, date: string, mediaType: string, location: string,
                      matchDownload: string -> Option<string>, sidOf: string -> Result<Option<string>, Raised>)
    requires s0.inTableRow && s0.row == EmptyRow && s0.tdCount == 0
    requires CellText(date) && CellText(mediaType) && CellText(location)
    ensures var out := Run(s0, TextCell(date) + TextCell(mediaType) + TextCell(location), matchDownload, sidOf);
      && out.raised.None? && out.state.inTableRow && out.state.memories == s0.memories && out.state.tdCount == 3
      && out.state.row == Row(Some(date), Some(mediaType), Some(location), None)
  {
    var s1 := s0.(row := s0.row.(date := Some(date)), tdCount := 1, currentTag := None);
    var s2 := s1.(row := s1.row.(mediaType := Some(mediaType)), tdCount := 2);
    TextCellRead(s0, date, matchDownload, sidOf);
    TextCellRead(s1, mediaType, matchDownload, sidOf);
    RunAppend(s0, TextCell(date), TextCell(mediaType), matchDownload, sidOf);
    TextCellRead(s2, location, matchDownload, sidOf);
    RunAppend(s0, TextCell(date) + TextCell(mediaType), TextCell(location), matchDownload, sidOf);
  }

  /** The opening tag and the four cells of an export row leave a row holding their four values. */
  lemma RowCellsRead(s: ParserState, date: string, mediaType: string, location: string, onclick: string,
                     url: string, matchDownload: string -> Option<string>,
                     sidOf: string -> Result<Option<string>, Raised>)
    requires CellText(date) && CellText(mediaType) && CellText(location)
    requires matchDownload(onclick) == Some(url)
    ensures var cells := [StartTag("tr", [])] + TextCell(date) + TextCell(mediaType) + TextCell(location) + LinkCell(onclick);
      var out := Run(s, cells, matchDownload, sidOf);
      && out.raised.None? && out.state.inTableRow && out.state.memories == s.memories
      && out.state.row == Row(Some(date), Some(mediaType), Some(location), Some(url))
  {
    var s0 := s.(inTableRow := true, row := EmptyRow, tdCount := 0);
    var texts := TextCell(date) + TextCell(mediaType) + TextCell(location);
    var opening: seq<Event> := [StartTag("tr", [])];
    assert Run(s, opening, matchDownload, sidOf) == Outcome(s0, None);
    TextCellsRead(s0, date, mediaType, location, matchDownload, sidOf);
    RunAppend(s, opening, texts, matchDownload, sidOf);
    var s3 := Run(s0, texts, matchDownload, sidOf).state;
    LinkCellRead(s3, onclick, url, matchDownload, sidOf);
    assert opening + texts + LinkCell(onclick)
           == [StartTag("tr", [])] + TextCell(date) + TextCell(mediaType) + TextCell(location) + LinkCell(onclick);
    RunAppend(s, opening + texts, LinkCell(onclick), matchDownload, sidOf);
  }

  /**
   * A row of the export whose cells hold a date, a media type and a location, and whose link
   * carries a sid, is collected as exactly one memory with those fields, appended at the end.
   */
  lemma ExportRowCollected(s: ParserState, date: string, mediaType: string, location: string, onclick: string,
                           url: string, sid: string, matchDownload: string -> Option<string>,
                           sidOf: string -> Result<Option<string>, Raised>)
    requires CellText(date) && CellText(mediaType) && CellText(location)
    requires matchDownload(onclick) == Some(url) && sidOf(url) == Ok(Some(sid))
    ensures var out := Run(s, ExportRow(date, mediaType, location, onclick), matchDownload, sidOf);
      out.raised.None? && out.state.memories == s.memories + [Memory(date, Some(mediaType), Some(location), url, sid)]
  {
    var cells := [StartTag("tr", [])] + TextCell(date) + TextCell(mediaType) + TextCell(location) + LinkCell(onclick);
    RowCellsRead(s, date, mediaType, location, onclick, url, matchDownload, sidOf);
    var s4 := Run(s, cells, matchDownload, sidOf).state;
    assert Emits(s4.row, sidOf);
    assert Run(s4, [EndTag("tr")], matchDownload, sidOf).state.memories
           == s.memories + [Memory(date, Some(mediaType), Some(location), url, sid)];
    RunAppend(s, cells, [EndTag("tr")], matchDownload, sidOf);
  }

  /** The table reader: the five fields the handlers update. */
  class MemoriesParser {
    const matchDownload: string -> Option<string>
    const sidOf: string -> Result<Option<string>, Raised>
    var memories: seq<Memory>
    var currentRow: Row
    var currentTag: Option<string>
    var tdCount: int
    var inTableRow: bool

    function State(): ParserState
      reads this
    {
      ParserState(memories, currentRow, currentTag, tdCount, inTableRow)
    }

    /** `MemoriesParser()` */
    constructor (matchDownload: string -> Option<string>, sidOf: string -> Result<Option<string>, Raised>)
      ensures State() == Initial
      ensures this.matchDownload == matchDownload && this.sidOf == sidOf
    {
      this.matchDownload := matchDownload;
      this.sidOf := sidOf;
      memories := [];
      currentRow := EmptyRow;
      currentTag := None;
      tdCount := 0;
      inTableRow := false;
    }

    method HandleStartTag(tag: string, attrs: Attrs) returns (raised: Option<Raised>)
      modifies this
      ensures match StartTagStep(old(State()), tag, attrs, matchDownload)
        case Ok(next) => raised.None? && State() == next
        case Err(e) => raised == Some(e) && State() == old(State())
    {
      raised := None;
      if tag == "tr" {
        inTableRow := true;
        currentRow := EmptyRow;
        tdCount := 0;
      } else if tag == "td" && inTableRow {
        currentTag := Some("td");
      } else if tag == "a" && inTableRow {
        var v := AttrValue(attrs, "onclick");
        if v == Some(None) {
          raised := Some(Raised("TypeError", NoneIsNotText));
        } else {
          var onclick := v.GetOr(Some("")).GetOr("");
          var found := matchDownload(onclick);
          if found.Some? {
            currentRow := currentRow.(downloadUrl := found);
          }
        }
      }
    }

    method HandleData(text: string)
      modifies this
      ensures State() == DataStep(old(State()), text)
    {
      if currentTag == Some("td") && inTableRow {
        var d := Strip(text);
        if !IsCaption(d) {
          if tdCount == 0 {
            currentRow := currentRow.(date := Some(d));
          } else if tdCount == 1 {
            currentRow := currentRow.(mediaType := Some(d));
          } else if tdCount == 2 {
            currentRow := currentRow.(location := Some(d));
          }
        }
      }
    }

    method HandleEndTag(tag: string) returns (raised: Option<Raised>)
      modifies this
      ensures var out := EndTagStep(old(State()), tag, sidOf);
        State() == out.state && raised == out.raised
    {
      raised := None;
      if tag == "td" {
        tdCount := tdCount + 1;
        currentTag := None;
      } else if tag == "tr" && inTableRow {
        inTableRow := false;
        if currentRow.downloadUrl.Some? && currentRow.date.Some? {
          var sid := sidOf(currentRow.downloadUrl.value);
          if sid.Err? {
            raised := Some(sid.error);
          } else if sid.value.Some? {
            memories := memories + [MemoryOf(currentRow, sidOf)];
          }
        }
      }
    }

    /** `feed`: the events in order, until one raises. */
    method Feed(events: seq<Event>) returns (raised: Option<Raised>)
      modifies this
      ensures var out := Run(old(State()), events, matchDownload, sidOf);
        State() == out.state && raised == out.raised
    {
      raised := None;
      var i := 0;
      while i < |events| && raised.None?
        invariant 0 <= i <= |events|
        invariant raised.None? ==> Run(old(State()), events, matchDownload, sidOf)
                                   == Run(State(), events[i..], matchDownload, sidOf)
        invariant raised.Some? ==> Run(old(State()), events, matchDownload, sidOf) == Outcome(State(), raised)
      {
        assert events[i..][1..] == events[i + 1..];
        match events[i] {
          case StartTag(tag, attrs) =>
            raised := HandleStartTag(tag, attrs);
          case Data(text) =>
            HandleData(text);
          case EndTag(tag) =>
            raised := HandleEndTag(tag);
        }
        i := i + 1;
      }
      if raised.None? {
        assert events[i..] == [];
      }
    }
  }
}

=== FILE: text.dfy ===
/**
 * The pieces of Python's `str` that the modelled code relies on: `in`, `find`,
 * `rfind`, `split` on one character, `strip()`, `lower()`, `capitalize()`,
 * slicing with clamped bounds and `str(int)`.  Case mapping covers ASCII only.
 */
module Text {
  import opened Wrappers

  /** The characters for which Python's `str.isspace()` holds, i.e. what `strip()` removes. */
  predicate IsSpace(c: char) {
    c == ' ' || ('\t' <= c <= '\r') || ('\U{1C}' <= c <= '\U{1F}') || c == '\U{85}' || c == '\U{A0}'
    || c == '\U{1680}' || ('\U{2000}' <= c <= '\U{200A}') || c == '\U{2028}' || c == '\U{2029}'
    || c == '\U{202F}' || c == '\U{205F}' || c == '\U{3000}'
  }

  /** `s[:n]`: the first n characters, or all of s when it is shorter. */
  function Take(s: string, n: nat): (r: string)
    ensures r <= s
    ensures |r| == if |s| < n then |s| else n
  {
    if |s| <= n then s else s[..n]
  }

  function Last<T>(xs: seq<T>): T
    requires |xs| > 0
  {
    xs[|xs| - 1]
  }

  /** `pat` occurs in `s` starting at index i. */
  predicate At(s: string, pat: string, i: int) {
    0 <= i && i + |pat| <= |s| && s[i..i + |pat|] == pat
  }

  lemma AtShift(s: string, pat: string)
    requires |s| > 0
    ensures forall j :: 1 <= j ==> (At(s, pat, j) <==> At(s[1..], pat, j - 1))
  {
    forall j | 1 <= j
      ensures At(s, pat, j) <==> At(s[1..], pat, j - 1)
    {
      if j + |pat| <= |s| {
        assert s[1..][j - 1..j - 1 + |pat|] == s[j..j + |pat|];
      }
    }
  }

  /** `s.find(pat)`: the first index at which pat occurs, None for -1. */
  function IndexOf(s: string, pat: string): (r: Option<nat>)
    ensures r.Some? ==> At(s, pat, r.value) && forall j :: 0 <= j < r.value ==> !At(s, pat, j)
    ensures r.None? ==> forall j :: !At(s, pat, j)
    decreases |s|
  {
    if |s| < |pat| then None
    else if s[..|pat|] == pat then Some(0)
    else
      AtShift(s, pat);
      match IndexOf(s[1..], pat)
      case None => None
      case Some(k) => Some(k + 1)
  }

  /** Python's `pat in s`. */
  predicate Contains(s: string, pat: string) {
    IndexOf(s, pat).Some?
  }

  predicate EndsWith(s: string, suffix: string) {
    |suffix| <= |s| && s[|s| - |suffix|..] == suffix
  }

  /** `s.rfind(c)` for one character: the last index holding c. */
  function RFind(s: string, c: char): (r: Option<nat>)
    ensures r.Some? ==> r.value < |s| && s[r.value] == c && c !in s[r.value + 1..]
    ensures r.None? ==> c !in s
  {
    if |s| == 0 then None
    else if s[|s| - 1] == c then Some(|s| - 1)
    else
      var r := RFind(s[..|s| - 1], c);
      assert r.Some? ==> s[r.value + 1..] == s[..|s| - 1][r.value + 1..] + [s[|s| - 1]];
      assert s == s[..|s| - 1] + [s[|s| - 1]];
      r
  }

  /** `s.count(c)` for one character. */
  function Count(s: string, c: char): nat
    decreases |s|
  {
    if |s| == 0 then 0 else (if s[0] == c then 1 else 0) + Count(s[1..], c)
  }

  /** A prefix holds no more occurrences than the whole. */
  lemma {:induction false} CountPrefix(s: string, t: string, c: char)
    requires s <= t
    ensures Count(s, c) <= Count(t, c)
    decreases |s|
  {
    if |s| > 0 {
      assert s[1..] <= t[1..];
      CountPrefix(s[1..], t[1..], c);
    }
  }

  /**
   * `s.split(c)` for a one-character separator: one part more than there are
   * separators, and no part holds the separator.
   */
  function Split(s: string, c: char): (parts: seq<string>)
    ensures |parts| == Count(s, c) + 1
    ensures forall i :: 0 <= i < |parts| ==> c !in parts[i]
    decreases |s|
  {
    if |s| == 0 then [""]
    else
      SplitStep(s[0], c, Split(s[1..], c))
  }

  /** One step of `Split`: the parts of the text behind a first character x. */
  function SplitStep(x: char, c: char, rest: seq<string>): seq<string>
    requires |rest| > 0
  {
    if x == c then [""] + rest else [[x] + rest[0]] + rest[1..]
  }

  lemma {:induction false} SplitNoSeparator(s: string, c: char)
    requires c !in s
    ensures Split(s, c) == [s]
    decreases |s|
  {
    if |s| > 0 {
      SplitNoSeparator(s[1..], c);
      assert [s[0]] + s[1..] == s;
    }
  }

  lemma SplitCons(x: char, t: string, c: char)
    ensures Split([x] + t, c) == SplitStep(x, c, Split(t, c))
  {
    assert ([x] + t)[0] == x && ([x] + t)[1..] == t;
  }

  lemma SplitStepAppend(x: char, c: char, front: seq<string>, back: seq<string>)
    requires |front| > 0
    ensures SplitStep(x, c, front + back) == SplitStep(x, c, front) + back
  {
    assert (front + back)[0] == front[0] && (front + back)[1..] == front[1..] + back;
  }

  /** Splitting at a separator splits the text on either side independently. */
  lemma {:induction false} SplitAppend(a: string, b: string, c: char)
    ensures Split(a + [c] + b, c) == Split(a, c) + Split(b, c)
    decreases |a|
  {
    if |a| == 0 {
      assert a + [c] + b == [c] + b;
      SplitCons(c, b, c);
    } else {
      assert a + [c] + b == [a[0]] + (a[1..] + [c] + b);
      assert a == [a[0]] + a[1..];
      SplitAppend(a[1..], b, c);
      SplitCons(a[0], a[1..] + [c] + b, c);
      SplitCons(a[0], a[1..], c);
      SplitStepAppend(a[0], c, Split(a[1..], c), Split(b, c));
    }
  }

  /** Text joined by a separator neither side holds splits back into the two sides. */
  lemma SplitInTwo(a: string, b: string, c: char)
    requires c !in a && c !in b
    ensures Split(a + [c] + b, c) == [a, b]
  {
    SplitAppend(a, b, c);
    SplitNoSeparator(a, c);
    SplitNoSeparator(b, c);
  }

  lemma EndsWithAfterSeparator(x: string, field: string, c: char, pat: string)
    requires |pat| >= 1 && pat[0] == c && c !in pat[1..]
    requires c !in field
    requires EndsWith(x + [c] + field, pat)
    ensures field == pat[1..]
  {
    var w := x + [c] + field;
    var start := |w| - |pat|;
    assert w[start..] == pat;
    assert w[|x|] == c;
    assert forall k :: start <= k < |w| ==> w[k] == pat[k - start];
    assert forall k :: |x| < k < |w| ==> w[k] == field[k - |x| - 1];
    assert forall j :: 1 <= j < |pat| ==> pat[j] == pat[1..][j - 1];
    if start < |x| {
      // the separator at |x| would fall inside pat[1..]
      assert false;
    } else if start > |x| {
      // pat[0] would be a character of field
      assert false;
    }
    assert w[start..] == [c] + field;
  }

  /**
   * For text ending in a separator and a field free of it, a pattern that starts with the
   * separator and holds it nowhere else is a suffix exactly when it is that field behind the separator.
   */
  lemma LastFieldSuffix(x: string, field: string, c: char, pat: string)
    requires |pat| >= 1 && pat[0] == c && c !in pat[1..]
    requires c !in field
    ensures EndsWith(x + [c] + field, pat) <==> field == pat[1..]
  {
    var w := x + [c] + field;
    if EndsWith(w, pat) {
      EndsWithAfterSeparator(x, field, c, pat);
    }
    if field == pat[1..] {
      assert w[|w| - |pat|..] == [c] + field;
    }
  }

  /** `s.replace(pat, '')`: every occurrence found scanning left to right is removed. */
  function RemoveAll(s: string, pat: string): (r: string)
    requires |pat| > 0
    ensures |r| <= |s|
    decreases |s|
  {
    if |s| < |pat| then s
    else if s[..|pat|] == pat then RemoveAll(s[|pat|..], pat)
    else [s[0]] + RemoveAll(s[1..], pat)
  }

  /**
   * `s.split(pat)[1]` for a string that contains pat: the text after the first occurrence, up to
   * the next occurrence if there is one.
   */
  function SecondField(s: string, pat: string): (r: string)
    requires |pat| > 0 && Contains(s, pat)
    ensures r <= s[IndexOf(s, pat).value + |pat|..]
  {
    var rest := s[IndexOf(s, pat).value + |pat|..];
    match IndexOf(rest, pat)
    case Some(j) => rest[..j]
    case None => rest
  }

  /** A text that lacks the first character of a pattern holds no occurrence of it. */
  lemma NoOccurrence(s: string, pat: string)
    requires |pat| > 0 && pat[0] !in s
    ensures IndexOf(s, pat) == None
  {
  }

  function StripLeft(s: string): string
    decreases |s|
  {
    if |s| > 0 && IsSpace(s[0]) then StripLeft(s[1..]) else s
  }

  function StripRight(s: string): string
    decreases |s|
  {
    if |s| > 0 && IsSpace(s[|s| - 1]) then StripRight(s[..|s| - 1]) else s
  }

  /** `s.strip()` */
  function Strip(s: string): string {
    StripRight(StripLeft(s))
  }

  function LowerChar(c: char): char {
    if 'A' <= c <= 'Z' then (c as int + 32) as char else c
  }

  function UpperChar(c: char): char {
    if 'a' <= c <= 'z' then (c as int - 32) as char else c
  }

  /** `s.lower()` */
  function Lower(s: string): (r: string)
    ensures |r| == |s|
  {
    seq(|s|, i requires 0 <= i < |s| => LowerChar(s[i]))
  }

  /** `s.capitalize()`: first character upper case, the rest lower case. */
  function Capitalize(s: string): (r: string)
    ensures |r| == |s|
  {
    if |s| == 0 then "" else [UpperChar(s[0])] + Lower(s[1..])
  }

  predicate IsDigit(c: char) {
    '0' <= c <= '9'
  }

  function DigitChar(d: nat): (c: char)
    requires d < 10
    ensures IsDigit(c)
  {
    (d + '0' as int) as char
  }

  /** `str(n)` for n >= 0 */
  function NatToString(n: nat): (s: string)
    ensures |s| >= 1
    ensures forall i :: 0 <= i < |s| ==> IsDigit(s[i])
    decreases n
  {
    if n < 10 then [DigitChar(n)] else NatToString(n / 10) + [DigitChar(n % 10)]
  }

  /** `str(i)` */
  function IntToString(i: int): string {
    if i < 0 then "-" + NatToString(-i) else NatToString(i)
  }

  /** The characters of `str(i)` are digits and at most a leading minus sign. */
  lemma IntToStringChars(i: int)
    ensures forall k :: 0 <= k < |IntToString(i)| ==> IsDigit(IntToString(i)[k]) || IntToString(i)[k] == '-'
  {
    if i < 0 {
      var digits := NatToString(-i);
      assert IntToString(i) == "-" + digits;
      assert forall k :: 1 <= k < |IntToString(i)| ==> IntToString(i)[k] == digits[k - 1];
    }
  }

  /** `format(n, '0<width>d')`: n in decimal, left-padded with zeros to at least `width` digits. */
  function ZeroPad(n: nat, width: nat): (s: string)
    ensures |s| >= width
    ensures forall i :: 0 <= i < |s| ==> IsDigit(s[i])
  {
    var digits := NatToString(n);
    if |digits| >= width then digits else seq(width - |digits|, _ => '0') + digits
  }
}

=== FILE: timezone_converter.dfy ===
/**
 * The file-name codec of timezone_converter.py (and its identical copy under scripts/):
 * names of the form `DATE_TIME_Type_sid{suffix}.ext` and the recovery of the sid from them.
 */
module TimezoneConverter {
  import opened Wrappers
  import opened Text
  import opened Paths
  import opened Dates

  /** The canonical name layout shared by the downloader and the timezone converter. */
  function CanonicalName(datePart: string, timePart: string, mediaType: string, sidShort: string,
                         suffix: string, extension: string): string
  {
    datePart + "_" + timePart + "_" + mediaType + "_" + sidShort + suffix + "." + extension
  }

  /** A canonical name ends with its sid, role suffix and extension. */
  lemma CanonicalNameEnds(datePart: string, timePart: string, mediaType: string, sidShort: string,
                          suffix: string, extension: string)
    ensures EndsWith(CanonicalName(datePart, timePart, mediaType, sidShort, suffix, extension),
                     sidShort + suffix + "." + extension)
  {
    var head := datePart + "_" + timePart + "_" + mediaType + "_";
    var tail := sidShort + suffix + "." + extension;
    assert CanonicalName(datePart, timePart, mediaType, sidShort, suffix, extension) == head + tail;
    assert (head + tail)[|head|..] == tail;
  }

  /**
   * `generate_local_filename`: `toLocal` stands for `utc_to_local`, the environment's
   * conversion of the UTC text to local time; None is the ValueError of a malformed date.
   */
  function GenerateLocalFilename(utcDate: string, mediaType: string, sidShort: string, extension: string,
                                 suffix: string, toLocal: string -> Option<DateTime>): (r: Option<string>)
    ensures r.Some? <==> toLocal(utcDate).Some?
    ensures r.Some? ==> EndsWith(r.value, sidShort + suffix + "." + extension)
  {
    match toLocal(utcDate)
    case None => None
    case Some(local) =>
      CanonicalNameEnds(DatePart(local), TimePart(local), mediaType, sidShort, suffix, extension);
      Some(CanonicalName(DatePart(local), TimePart(local), mediaType, sidShort, suffix, extension))
  }

  /** At most one role suffix is removed: `_overlay` when present, otherwise `_composited`. */
  function StripRoleSuffix(name: string): (r: string)
    ensures r <= name
  {
    if EndsWith(name, "_overlay") then name[..|name| - 8]
    else if EndsWith(name, "_composited") then name[..|name| - 11]
    else name
  }

  /** `parse_filename_for_sid`: the last underscore field of the stripped stem, given four fields. */
  function ParseFilenameForSid(filename: string): (r: Option<string>)
    ensures r.Some? ==> '_' !in r.value
    ensures r.Some? ==> Count(Name(filename), '_') >= 3
  {
    var trimmed := StripRoleSuffix(Stem(Name(filename)));
    var parts := Split(trimmed, '_');
    if |parts| >= 4 then
      CountPrefix(trimmed, Name(filename), '_');
      Some(Last(parts))
    else None
  }

  /** Directory and extension removal give back the stem of a plain `stem.ext` name. */
  lemma StemOfPlainName(stem: string, ext: string)
    requires |stem| >= 1 && '/' !in stem
    requires |ext| >= 1 && '.' !in ext && '/' !in ext
    ensures Stem(Name(stem + "." + ext)) == stem
  {
    var name := stem + "." + ext;
    assert '/' !in name;
    assert name[|stem|] == '.';
    NameOfPlain(name);
    StemOfDotted(stem, ext);
  }

  /** Removing the role suffix of `x_sid{suffix}` leaves `x_sid`. */
  lemma StripRoleSuffixOf(x: string, sid: string, suffix: string)
    requires '_' !in sid
    requires suffix == "" || suffix == "_overlay" || suffix == "_composited"
    requires suffix == "" ==> sid != "overlay" && sid != "composited"
    ensures StripRoleSuffix(x + "_" + sid + suffix) == x + "_" + sid
  {
    var core := x + "_" + sid;
    var stem := core + suffix;
    if suffix == "_overlay" {
      assert stem[|stem| - 8..] == "_overlay";
      assert stem[..|stem| - 8] == core;
    } else if suffix == "_composited" {
      assert stem[|stem| - 8..] == "mposited";
      assert stem[|stem| - 11..] == "_composited";
      assert stem[..|stem| - 11] == core;
    } else {
      assert stem == core;
      LastFieldSuffix(x, sid, '_', "_overlay");
      LastFieldSuffix(x, sid, '_', "_composited");
    }
  }

  /**
   * A name that is some text of at least three fields, one more field and an optional role
   * suffix and extension gives back that last field.  A bare field spelled like a role suffix
   * would be taken for one, hence the last requirement.
   */
  lemma ParseAfterFields(x: string, sid: string, suffix: string, ext: string)
    requires |Split(x, '_')| >= 3 && '/' !in x
    requires '_' !in sid && '/' !in sid
    requires |ext| >= 1 && '.' !in ext && '/' !in ext
    requires suffix == "" || suffix == "_overlay" || suffix == "_composited"
    requires suffix == "" ==> sid != "overlay" && sid != "composited"
    ensures ParseFilenameForSid(x + "_" + sid + suffix + "." + ext) == Some(sid)
  {
    var core := x + "_" + sid;
    RoleSuffixSlashFree(suffix);
    assert '/' !in x + "_";
    assert '/' !in core;
    assert '/' !in core + suffix;
    StemOfPlainName(core + suffix, ext);
    StripRoleSuffixOf(x, sid, suffix);
    LastFieldAfter(x, sid);
    ParseOfStripped(core + suffix + "." + ext, core);
  }

  lemma RoleSuffixSlashFree(suffix: string)
    requires suffix == "" || suffix == "_overlay" || suffix == "_composited"
    ensures '/' !in suffix
  {
  }

  /** `parse_filename_for_sid` reads the last field of the stripped stem once it has four fields. */
  lemma ParseOfStripped(filename: string, trimmed: string)
    requires StripRoleSuffix(Stem(Name(filename))) == trimmed
    ensures ParseFilenameForSid(filename)
            == if |Split(trimmed, '_')| >= 4 then Some(Last(Split(trimmed, '_'))) else None
  {
  }

  /** One more field behind three or more gives four or more, the added one last. */
  lemma LastFieldAfter(x: string, field: string)
    requires |Split(x, '_')| >= 3 && '_' !in field
    ensures |Split(x + "_" + field, '_')| >= 4 && Last(Split(x + "_" + field, '_')) == field
  {
    SplitAppend(x, field, '_');
    SplitNoSeparator(field, '_');
  }

  /** The text before the sid in a generated name has at least three fields and no '/'. */
  lemma GeneratedPrefix(local: DateTime, mediaType: string)
    requires '/' !in mediaType
    ensures var x := DatePart(local) + "_" + TimePart(local) + "_" + mediaType;
      |Split(x, '_')| >= 3 && '/' !in x
  {
    var d, t := DatePart(local), TimePart(local);
    assert !IsStampChar('/');
    assert '/' !in d && '/' !in t;
    SplitAppend(d, t, '_');
    SplitAppend(d + "_" + t, mediaType, '_');
  }

  /** Round trip: the sid put into a generated name is the sid read back from it. */
  lemma GenerateThenParse(utcDate: string, mediaType: string, sidShort: string, extension: string,
                          suffix: string, toLocal: string -> Option<DateTime>)
    requires toLocal(utcDate).Some?
    requires '/' !in mediaType
    requires '_' !in sidShort && '/' !in sidShort
    requires |extension| >= 1 && '.' !in extension && '/' !in extension
    requires suffix == "" || suffix == "_overlay" || suffix == "_composited"
    requires suffix == "" ==> sidShort != "overlay" && sidShort != "composited"
    ensures ParseFilenameForSid(GenerateLocalFilename(utcDate, mediaType, sidShort, extension, suffix, toLocal).value)
            == Some(sidShort)
  {
    var local := toLocal(utcDate).value;
    GeneratedPrefix(local, mediaType);
    ParseAfterFields(DatePart(local) + "_" + TimePart(local) + "_" + mediaType, sidShort, suffix, extension);
  }

  /** A sid spelled `overlay` with no role suffix is taken for the suffix and lost. */
  lemma SidLikeSuffixIsLost(local: DateTime, mediaType: string, extension: string)
    requires '/' !in mediaType && '_' !in mediaType
    requires |extension| >= 1 && '.' !in extension && '/' !in extension
    ensures ParseFilenameForSid(CanonicalName(DatePart(local), TimePart(local), mediaType, "overlay", "", extension))
            == None
  {
    var x := DatePart(local) + "_" + TimePart(local) + "_" + mediaType;
    StampFields(local, mediaType);
    RoleWords();
    StripOverlayOf(x);
    StemOfPlainName(x + "_" + "overlay" + "", extension);
    ParseOfStripped(x + "_" + "overlay" + "" + "." + extension, x);
  }

  /** The date, time and a plain type are exactly three fields. */
  lemma StampFields(local: DateTime, mediaType: string)
    requires '/' !in mediaType && '_' !in mediaType
    ensures var x := DatePart(local) + "_" + TimePart(local) + "_" + mediaType;
      Split(x, '_') == [DatePart(local), TimePart(local), mediaType] && '/' !in x
  {
    var d, t := DatePart(local), TimePart(local);
    assert !IsStampChar('/') && !IsStampChar('_');
    assert '/' !in d && '/' !in t && '_' !in d && '_' !in t;
    SplitAppend(d, t, '_');
    SplitAppend(d + "_" + t, mediaType, '_');
    SplitNoSeparator(d, '_');
    SplitNoSeparator(t, '_');
    SplitNoSeparator(mediaType, '_');
  }

  /** A stem ending in `_overlay` loses exactly that. */
  lemma StripOverlayOf(x: string)
    ensures StripRoleSuffix(x + "_" + "overlay" + "") == x
  {
    var w := x + "_" + "overlay" + "";
    assert w == x + "_overlay";
    assert w[|w| - 8..] == "_overlay";
    assert w[..|w| - 8] == x;
  }

  /** The role words hold neither an underscore nor a slash. */
  lemma RoleWords()
    ensures '_' !in "overlay" && '/' !in "overlay" && "overlay" != "composited"
    ensures '_' !in "composited" && '/' !in "composited"
  {
  }

  /** Only one role suffix is removed: `..._composited_overlay.ext` yields `composited`. */
  lemma OnlyOneSuffixStripped(x: string, ext: string)
    requires |Split(x, '_')| >= 3 && '/' !in x
    requires |ext| >= 1 && '.' !in ext && '/' !in ext
    ensures ParseFilenameForSid(x + "_" + "composited" + "_overlay" + "." + ext) == Some("composited")
  {
    RoleWords();
    ParseAfterFields(x, "composited", "_overlay", ext);
  }
}

=== FILE: wrappers.dfy ===
/** Option and Result: the `None` returns and raised exceptions of the modelled code. */
module Wrappers {

  datatype Option<+T> = None | Some(value: T) {
    /** `x if x is not None else default` */
    function GetOr(default: T): T {
      if Some? then value else default
    }
  }

  datatype Result<+T, +E> = Ok(value: T) | Err(error: E)
}
